=== FILE: README.md ===
# MediPeak — a Dafny model of the camp registration core

MediPeak lets organizers publish medical camps and lets participants
register for them, pay, and leave feedback. This project models the parts
that decide what happens to the data:

- **The Express server** (`server/index.js`). The MongoDB collections are
  one immutable `Store`: camps, registrations, users, payments and
  feedback. Every route is a pure function that returns a `Reply`
  holding a status, a body and the new store.
  - The Firebase token check is a parameter: a `Verifier` oracle.
  - `Store.Valid` is the invariant the routes keep. Every identifier was
    issued, each camp's `participantCount` equals the number of its
    registrations, fee snapshots agree with their camp, and user e-mails
    are unique.
- **The React client's decision logic**:
  - the sign-up and sign-in forms, with their validation rules;
  - the camp registration dialog;
  - the admin route guard and the dashboard menu;
  - the navigation bar's active link;
  - the carousel;
  - the number formatting of the statistics cards;
  - the search, pagination and row actions of the four dashboard tables.

Each client module links its output to the server model where the two
meet. Examples: the record a new account posts can never pass
`verifyAdmin`, and the admin guard opens exactly when the server's
`verifyAdmin` would.

Modules:

| module | file | models |
|---|---|---|
| `Text` | text.dfy | JavaScript `trim`, `toLowerCase`, `includes`, `split`, `startsWith`, decimal text |
| `JsValues` | js_values.dfy | JSON request values, truthiness, `\|\|`, `Number()` |
| `ObjectIds` | object_ids.dfy | `new ObjectId(text)` and `toHexString` |
| `Store` | store.dfy | the collections and the store invariant |
| `Auth` | auth.dfy | `verifyFBToken`, `verifyAdmin` |
| `Routes` | routes.dfy | every route handler except Stripe and the profile routes |
| `Lifecycle` | lifecycle.dfy | invariant preservation and the registration life cycle |
| `Listing` | listing.dfy | `filter`, `slice`, `Math.ceil` paging, Previous and Next |
| `ParticipantCamps`, `ManageCamps`, `OrganizerCamps`, `PaymentHistory` | participant_camps.dfy, manage_camps.dfy, organizer_camps.dfy, payment_history.dfy | the dashboard tables |
| `AddCamp`, `RegisterPage`, `LoginPage`, `CampDetails` | add_camp.dfy, register_page.dfy, login_page.dfy, camp_details.dfy | the forms |
| `AdminRoute`, `DashboardLayout`, `Navbar`, `Banner`, `About` | admin_route.dfy, dashboard_layout.dfy, navbar.dfy, banner.dfy, about.dfy | role gating, navigation, carousel, statistics |

The handlers enforce fewer rules than a reader of the pages might expect,
and the model keeps each gap as the code has it:
- A paid registration can be cancelled.
- A registration can be paid more than once.
- Feedback can be given more than once.
- The same e-mail can register twice for one camp.

The `Lifecycle` lemmas state each of these gaps as a property of the model.

## Model

| member | source | states |
|---|---|---|
| Text.Trim | client/src/Pages/Register.jsx:162 | the trimmed text is no longer than the input, neither starts nor ends with white space, and is empty exactly for a blank input |
| Text.TrimIsWindow | client/src/Pages/Register.jsx:162 | the trimmed text is a window of the input with only white space cut away on either side |
| Text.Lower | client/src/Pages/Dashboard/ParticipantDashboard/ParticipantCamps.jsx:143-144 | lower-casing keeps the length and maps each ASCII capital to its small letter, leaving every other character alone |
| Text.ContainsInfix | client/src/Pages/CampDetails.jsx:50 | a string contains every middle part of itself, so the mutation's own "Please login …" message contains "login" |
| Text.IndexOf | client/src/Pages/Register.jsx:189 | finds the first occurrence: the character is there and nowhere before it; None exactly when it is absent |
| Text.LastIndexOf | client/src/Pages/Login.jsx:107 | finds the last occurrence: the character is there and nowhere after it; None exactly when it is absent |
| Text.Split | client/src/Pages/Login.jsx:107 | cutting at a separator, as `split` does, yields at least one piece and no piece holds the separator; the sign-in pattern's dotted labels and the count card's digit groups are read through it |
| Text.SplitSnoc | client/src/Pages/About.jsx:34 | appending a separator and a separator-free tail adds exactly one piece to the split, the step behind the proof that the grouping `replace` writes well-grouped text |
| Text.NatToDecimal | client/src/Pages/About.jsx:34 | `toString` of a count is a non-empty digit string without a leading zero |
| Text.Utf16Length | client/src/Pages/Login.jsx:131 | the length JavaScript reports lies between the character count and twice it, and equals the character count exactly when no character lies outside the Basic Multilingual Plane |
| Text.Utf16LengthAppend | client/src/Pages/Login.jsx:131 | code units add up over concatenation |
| Text.DecimalRoundTrip | client/src/Pages/About.jsx:34 | reading back the digits `toString` writes gives the number |
| JsValues.Or | server/index.js:111 | `a \|\| b` is `a` exactly when `a` is truthy, else `b` |
| JsValues.ToNumber | client/src/Pages/Dashboard/OrganizerDashboard/AddCamp.jsx:78 | `Number(v)` is a number or NaN; numbers pass unchanged, `undefined` gives NaN, `null` and blank text give 0, `true` 1 and `false` 0; other text goes through `StringToInteger` after trimming |
| JsValues.StringToInteger | server/index.js:234 | a `0x`/`0o`/`0b` prefix in either case reads exactly when at least one digit follows and every digit is valid in that base |
| JsValues.IntegerTextNumber | server/index.js:234 | `Number` reads back the decimal text of every integer, negative ones included |
| JsValues.PrefixedLiteralNumber | server/index.js:234 | a hexadecimal, octal or binary literal reads as its digits' value in that base |
| JsValues.SignedPrefixedLiteralIsNaN | server/index.js:234 | a `+` or `-` in front of a prefixed literal makes it NaN |
| JsValues.ExponentLiteralNumber | server/index.js:234 | `digits e digits` reads as the mantissa times ten to the exponent |
| JsValues.AmountOf | server/index.js:356 | `Number(v) \|\| 0` keeps a number and turns NaN, `undefined` and `null` into 0 |
| JsValues.QueryValue | server/index.js:320-328 | a missing query parameter is the stored `null`, a present one the string |
| ObjectIds.ParseObjectId | server/index.js:246 | `new ObjectId(text)` succeeds exactly on 24 hexadecimal digits, giving a 96-bit identifier |
| ObjectIds.HexRoundTrip | server/index.js:246 | the hexadecimal text of an identifier reads back as that identifier |
| ObjectIds.ParseObjectIdText | server/index.js:246 | every identifier parses back from its own `toHexString` |
| ObjectIds.HexValueIgnoresCase | server/index.js:246 | upper- and lower-case spellings of an identifier denote the same identifier |
| Store.FindUser | server/index.js:78-79 | `findOne({ email })` returns the first user with that e-mail, or none when no user has it |
| Store.EmptyStoreValid | server/index.js:33-38 | the empty database satisfies the store invariant |
| Store.RegistrationsOfInsert | server/index.js:307-311 | a new registration raises its own camp's registration count by one and no other camp's |
| Store.RegistrationsOfRemove | server/index.js:402-403 | removing a registration lowers only its own camp's count, by one |
| Store.FindUserUnique | server/index.js:78-79 | with unique e-mails, `findOne` finds the one user holding the e-mail |
| Auth.SecondWord | server/index.js:46 | `split(" ")[1]` is the space-free text between the first and second space, missing without a space |
| Auth.VerifyFBToken | server/index.js:41-59 | 401 without a header or token, 403 when Firebase rejects; passes exactly for a verified token and carries its e-mail |
| Auth.VerifyAdmin | server/index.js:61-69 | passes exactly when the first user with the token's e-mail has role `'admin'`, else 403 |
| Auth.VerifyAdminIffAdminExists | server/index.js:61-69 | with unique e-mails, `verifyAdmin` admits exactly the e-mails of admin user records |
| Auth.SchemeWordIgnored | server/index.js:46 | any scheme word before the token is accepted like `Bearer` |
| Routes.PostUser | server/index.js:74-94 | 400 without an e-mail; an existing e-mail is not inserted again; otherwise 201 and exactly the posted user appended; nothing changes on failure |
| Routes.GetUserRole | server/index.js:97-116 | 200 exactly for a known e-mail, with its role or `'user'` when the role is falsy; 400 without e-mail, 404 for an unknown one; the store is untouched |
| Routes.SetRole | server/index.js:128-131 | the user with the identifier gets the role; every other user is unchanged |
| Routes.PatchUserRole | server/index.js:119-137 | the token check's status when it fails; 400 for a role other than `'admin'`/`'user'`; 200 for every well-formed id, whether or not a user holds it (`updateOne` matching nothing is no error); a user with the id then holds the role and no other user changes |
| Routes.NewCamp | server/index.js:231-241 | a new camp starts with no participants and a numeric (or NaN) fee |
| Routes.PostCamp | server/index.js:231-241 | 400 without a name or creator; 201 exactly when both are present, inserting the new camp under the fresh id and nothing else |
| Routes.GetCamp | server/index.js:243-252 | 500 exactly for a malformed id, 404 for an unknown camp, 200 with the camp exactly when it exists |
| Routes.ApplyUpdate | server/index.js:254-263 | the update rewrites the four edited fields and keeps fee, count, image, description and creator |
| Routes.UpdateCamp | server/index.js:254-263 | 500 exactly for a malformed id; 200 with count 0 and no change for an unknown camp; otherwise only that camp changes, by the update |
| Routes.DeleteCamp | server/index.js:265-273 | 500 exactly for a malformed id; on 200 the camp is gone and every registration stays |
| Routes.Register | server/index.js:277-317 | 400 unless all six fields are present, 500 for a malformed id, 404 for an unknown camp; 201 otherwise, adding an unpaid, pending registration with the camp's fee and raising its count by one |
| Routes.Cancel | server/index.js:397-409 | 500 for a malformed id, 404 for an unknown registration; 200 exactly when it exists, removing it and lowering its camp's count |
| Routes.Pay | server/index.js:349-378 | 200 exactly for an existing registration, which becomes paid, and one payment with its fee is appended on every call |
| Routes.Confirm | server/index.js:380-392 | 200 exactly when the registration exists and is not yet confirmed, which it then is; 404 otherwise |
| Routes.SubmitFeedback | server/index.js:411-423 | 400 without a rating or comment; 201 exactly for an existing paid registration, appending one feedback record |
| Routes.GetOrganizerCamps | server/index.js:199-213 | token, admin and e-mail checks in that order; on 200 exactly the camps created by the e-mail |
| Routes.GetParticipantCamps | server/index.js:319-345 | e-mail match before the missing-e-mail 400; on 200 exactly that e-mail's registrations whose camp still exists, joined with the camp's name and fee |
| Routes.Reverse | server/index.js:494 | the newest-first order: the same elements, position `k` taken from position `n-1-k` |
| Routes.PaymentsOf | server/index.js:484-499 | exactly the payments with that participant e-mail |
| Routes.GetPayments | server/index.js:484-499 | the token status when it fails, 403 on an e-mail mismatch; on 200 the e-mail's payments newest first, newest meaning last inserted |
| Routes.JoinFeedback | server/index.js:426-463 | every feedback whose registration and camp still exist is listed with its camp's name, and nothing else |
| Routes.ListFeedback | server/index.js:426-463 | the feedback listing shows exactly the feedback of live registrations and camps, newest first, newest meaning last inserted: row k is the joined record k-th from the end of insertion order |
| Routes.CampsSort | server/index.js:215-229 | `most-registered`, `fees` and `name` pick their sort; any other value keeps natural order |
| Routes.SortParam | client/src/Pages/AvailableCamps.jsx:38 | the camps page's sort menu sends `''` exactly for its "Sort By" entry, the natural order |
| Routes.SortParamSelects | server/index.js:220-223 | each option the sort menu sends selects exactly the order it names, so every order is reachable |
| Lifecycle.PostCampPreservesValid | server/index.js:231-241 | posting a camp keeps the store invariant |
| Lifecycle.UpdateCampPreservesValid | server/index.js:254-263 | updating a camp keeps the store invariant |
| Lifecycle.DeleteCampPreservesValid | server/index.js:265-273 | deleting a camp keeps the store invariant |
| Lifecycle.RegisterPreservesValid | server/index.js:277-317 | registering keeps every camp's count equal to its registrations |
| Lifecycle.CancelPreservesValid | server/index.js:397-409 | cancelling keeps every camp's count equal to its registrations |
| Lifecycle.PayPreservesValid | server/index.js:349-378 | paying keeps the store invariant |
| Lifecycle.ConfirmPreservesValid | server/index.js:380-392 | confirming keeps the store invariant |
| Lifecycle.FeedbackPreservesValid | server/index.js:411-423 | submitting feedback keeps the store invariant |
| Lifecycle.PostUserPreservesValid | server/index.js:74-94 | adding a user keeps e-mails unique |
| Lifecycle.PatchUserRolePreservesValid | server/index.js:119-137 | changing a role keeps the store invariant |
| Lifecycle.DispatchPreservesValid | server/index.js:74-423 | every mutating request keeps the store invariant |
| Lifecycle.RunPreservesValid | server/index.js:74-423 | any sequence of requests keeps the store invariant |
| Lifecycle.CountsMatchAfterAnyRun | server/index.js:307-311 | after any sequence of requests from an empty database, each camp's `participantCount` equals its number of registrations |
| Lifecycle.RegisterSucceeds | server/index.js:277-317 | on a valid store a complete registration for an existing camp answers 201 |
| Lifecycle.DuplicateRegistrationAccepted | server/index.js:288-307 | a second registration with the same e-mail for the same camp is accepted and both are kept |
| Lifecycle.RegisterThenCancel | server/index.js:277-317 | registering and cancelling that registration restores the store apart from the spent identifier |
| Lifecycle.RegisteredRowListed | server/index.js:319-345 | a new registration is listed for its e-mail with the camp's fee, unpaid and pending |
| Lifecycle.PayTwiceRecordsTwoPayments | server/index.js:349-378 | paying twice answers 200 twice and records two payments |
| Lifecycle.CancelAfterPayOrphansPayment | server/index.js:397-409 | a paid registration can be cancelled, and its payment stays stored |
| Lifecycle.ConfirmTwiceNotFound | server/index.js:380-392 | confirming a confirmed registration answers 404 although it exists |
| Lifecycle.FeedbackAfterPayRepeatable | server/index.js:411-423 | after payment, feedback is accepted on a first and on a second submission |
| Lifecycle.FeedbackRefusedUnpaid | server/index.js:411-423 | feedback on an unpaid registration is refused and changes nothing |
| Lifecycle.DeleteCampHidesRegistrations | server/index.js:265-273 | after a camp is deleted its registrations drop out of the participant listing, but stay stored |
| Lifecycle.AnyTokenGrantsAdmin | server/index.js:119-137 | any verified token can make any existing user an admin, who then passes `verifyAdmin` |
| Lifecycle.SelfAssignedAdmin | server/index.js:74-94 | a new account posted with role `'admin'` passes `verifyAdmin` |
| Lifecycle.InsertRegistrationValid | server/index.js:300-311 | the store a registration insert and count increment produce keeps the store invariant |
| ReadBack.PostedCampFetched | server/index.js:243-252 | a camp created by `POST /camps` is fetched back by `GET /camp/:id` under the inserted id's text, unchanged |
| ReadBack.PostedCampListedForCreator | server/index.js:199-213 | a camp created by `POST /camps` is in its creator's `GET /organizer-camp` listing |
| ReadBack.PaymentsOfSnoc | server/index.js:494 | selecting one e-mail's payments commutes with appending a payment |
| ReadBack.PaymentListedFirst | server/index.js:484-499 | after paying, the payer's `GET /payments` lists that payment first |
| ReadBack.JoinFeedbackSnoc | server/index.js:426-457 | joining one more feedback record adds its row at the end exactly when its registration and camp exist |
| ReadBack.FeedbackListedFirst | server/index.js:426-457 | accepted feedback on a live registration and camp heads the `GET /feedback` listing |
| Listing.RelativeIndex | client/src/Pages/Dashboard/ParticipantDashboard/ParticipantCamps.jsx:150 | a `slice` index resolves into `0..n`; a negative one counts from the end |
| Listing.Slice | client/src/Pages/Dashboard/ParticipantDashboard/ParticipantCamps.jsx:150 | `slice` yields the rows between the resolved bounds, empty when they cross |
| Listing.TotalPages | client/src/Pages/Dashboard/ParticipantDashboard/ParticipantCamps.jsx:148 | `Math.ceil(n / k)`: the least page count whose pages hold all `n` rows |
| Listing.StartIndexIsProduct | client/src/Pages/Dashboard/ParticipantDashboard/ParticipantCamps.jsx:149 | the first row of page `p` is `(currentPage - 1) * itemsPerPage` for every page number, negative ones included |
| Listing.StartIndexMonotone | client/src/Pages/Dashboard/ParticipantDashboard/ParticipantCamps.jsx:149 | a later page never starts before an earlier one |
| Listing.PageBounds | client/src/Pages/Dashboard/ParticipantDashboard/ParticipantCamps.jsx:149-150 | from page 1 on, each page starts at a non-negative row and ends exactly where the next page starts |
| Listing.Page | client/src/Pages/Dashboard/ParticipantDashboard/ParticipantCamps.jsx:149-150 | a page holds at most `k` rows; page 0 is empty; page `p >= 1` is the window of the list from its first row, cut at `k` rows or the end |
| Listing.Previous | client/src/Pages/Dashboard/ParticipantDashboard/ParticipantCamps.jsx:390 | Previous goes back one page but never below 1 |
| Listing.Next | client/src/Pages/Dashboard/ParticipantDashboard/ParticipantCamps.jsx:410 | Next goes forward one page but never beyond the page count |
| Listing.ShownUpTo | client/src/Pages/Dashboard/ParticipantDashboard/ParticipantCamps.jsx:386 | the footer's "to" figure never exceeds the row count |
| Listing.Filter | client/src/Pages/Dashboard/ParticipantDashboard/ParticipantCamps.jsx:142-145 | `filter` never returns more rows than it is given |
| Listing.FilterMembers | client/src/Pages/Dashboard/ParticipantDashboard/ParticipantCamps.jsx:142-145 | a row is in the result exactly when it is in the input and the predicate accepts it |
| Listing.FilterAppend | client/src/Pages/Dashboard/ParticipantDashboard/ParticipantCamps.jsx:142-145 | filtering distributes over concatenation, so relative order is kept |
| Listing.FilterCount | client/src/Pages/Dashboard/ParticipantDashboard/ParticipantCamps.jsx:142-145 | a kept row occurs as often as in the input, a dropped one not at all |
| Listing.FilterAll | client/src/Pages/Dashboard/ParticipantDashboard/ParticipantCamps.jsx:142-145 | a filter accepting everything returns the list unchanged |
| Listing.EmptyTermMatches | client/src/Pages/Dashboard/ParticipantDashboard/ParticipantCamps.jsx:143-144 | the empty search term matches every field |
| Listing.PagesFromSpan | client/src/Pages/Dashboard/ParticipantDashboard/ParticipantCamps.jsx:148-150 | consecutive pages laid end to end are one contiguous window of the list |
| Listing.PagesCoverList | client/src/Pages/Dashboard/ParticipantDashboard/ParticipantCamps.jsx:148-150 | pages 1 to `totalPages` in order are the whole list: nothing lost or repeated |
| Listing.PageNonEmpty | client/src/Pages/Dashboard/ParticipantDashboard/ParticipantCamps.jsx:148-150 | every page from 1 to `totalPages` shows at least one row |
| Listing.PageRow | client/src/Pages/Dashboard/ParticipantDashboard/ParticipantCamps.jsx:149-150 | row `j` of page `p` is the list's row at the page's first row plus `j`, which exists |
| Listing.FirstRowOfPage | client/src/Pages/Dashboard/ParticipantDashboard/ParticipantCamps.jsx:386 | every page from 1 to `totalPages` starts at a row that exists, so the footer's "from" figure is at most `n` |
| Listing.NavigationInRange | client/src/Pages/Dashboard/ParticipantDashboard/ParticipantCamps.jsx:390-411 | from a page in range, Previous and Next stay in range |
| Listing.NextWithNoRows | client/src/Pages/Dashboard/ParticipantDashboard/ParticipantCamps.jsx:410 | the button logic alone, with no matching rows, moves Next from page 1 to page 0, which shows nothing, and Previous back to 1; the pages render the buttons only for a non-empty filtered list, so the program never reaches page 0 |
| Listing.ButtonsNeverNegative | client/src/Pages/Dashboard/ParticipantDashboard/ParticipantCamps.jsx:390-411 | the buttons never reach a negative page, so `slice` never counts from the end |
| ParticipantCamps.FilteredCamps | client/src/Pages/Dashboard/ParticipantDashboard/ParticipantCamps.jsx:142-145 | keeps exactly the rows whose camp or participant name contains the term, ignoring case, in order |
| ParticipantCamps.EmptySearchKeepsAll | client/src/Pages/Dashboard/ParticipantDashboard/ParticipantCamps.jsx:142-145 | an empty search shows every row in order |
| ParticipantCamps.ShownRows | client/src/Pages/Dashboard/ParticipantDashboard/ParticipantCamps.jsx:148-150 | a page of at most ten matching rows, each a matching row |
| ParticipantCamps.Actions | client/src/Pages/Dashboard/ParticipantDashboard/ParticipantCamps.jsx:309-358 | Pay unless paid; Cancel exactly for `"unpaid"`, Feedback otherwise, disabled when the row carries `feedbackSubmitted`, a field the server's `$project` (server/index.js:331-339) never sends, so the program never disables it |
| ParticipantCamps.ActionsByStatus | client/src/Pages/Dashboard/ParticipantDashboard/ParticipantCamps.jsx:309-358 | an unpaid row offers Pay and Cancel, a paid row only Feedback |
| ParticipantCamps.ConfirmationLabel | client/src/Pages/Dashboard/ParticipantDashboard/ParticipantCamps.jsx:329 | the stored status when non-empty, else "Pending" |
| ParticipantCamps.Type | client/src/Pages/Dashboard/ParticipantDashboard/ParticipantCamps.jsx:210-213 | typing sets the term and returns to page 1 |
| ParticipantCamps.ClearSearch | client/src/Pages/Dashboard/ParticipantDashboard/ParticipantCamps.jsx:217-220 | clearing empties the term and returns to page 1 |
| ParticipantCamps.PreviousPage | client/src/Pages/Dashboard/ParticipantDashboard/ParticipantCamps.jsx:390 | from a page above 1 moves back exactly one page, otherwise lands on page 1; every other field of the view is kept |
| ParticipantCamps.NextPage | client/src/Pages/Dashboard/ParticipantDashboard/ParticipantCamps.jsx:410 | below the page count moves forward exactly one page, otherwise lands on the last page; every other field of the view is kept |
| ParticipantCamps.OpenFeedback | client/src/Pages/Dashboard/ParticipantDashboard/ParticipantCamps.jsx:357 | the dialog opens on that row's registration id |
| ParticipantCamps.ResetFeedback | client/src/Pages/Dashboard/ParticipantDashboard/ParticipantCamps.jsx:105-111 | success or cancel closes the dialog and clears rating and comment |
| ParticipantCamps.SubmitFeedback | client/src/Pages/Dashboard/ParticipantDashboard/ParticipantCamps.jsx:91-134 | refuses without a rating, a non-blank comment or a row, with the page's messages (a missing row surfaces through `onError` as "Failed to submit feedback: Registration ID is missing"); otherwise posts the rating and trimmed comment for that row |
| ParticipantCamps.SentCommentIsTrimmed | client/src/Pages/Dashboard/ParticipantDashboard/ParticipantCamps.jsx:97-100 | a sent comment is non-empty, has no surrounding white space and occurs in what was typed |
| ParticipantCamps.ResetBlocksSubmit | client/src/Pages/Dashboard/ParticipantDashboard/ParticipantCamps.jsx:135-139 | after a reset nothing can be sent |
| ManageCamps.FilteredCamps | client/src/Pages/Dashboard/OrganizerDashboard/ManageCamps.jsx:131-134 | the same matching rule as the participant table |
| ManageCamps.ShownRows | client/src/Pages/Dashboard/OrganizerDashboard/ManageCamps.jsx:137-139 | a page of at most five matching rows |
| ManageCamps.SetSearchTerm | client/src/Pages/Dashboard/OrganizerDashboard/ManageCamps.jsx:142-144 | a changed term returns to page 1; re-entering the same term keeps the page |
| ManageCamps.PreviousPage | client/src/Pages/Dashboard/OrganizerDashboard/ManageCamps.jsx:319 | from a page above 1 moves back exactly one page, otherwise lands on page 1; every other field of the view is kept |
| ManageCamps.NextPage | client/src/Pages/Dashboard/OrganizerDashboard/ManageCamps.jsx:339 | below the page count of the filtered camps moves forward exactly one page, otherwise lands on the last page; every other field of the view is kept |
| ManageCamps.CancelDisabled | client/src/Pages/Dashboard/OrganizerDashboard/ManageCamps.jsx:293 | Cancel is disabled exactly for paid rows |
| ManageCamps.ConfirmationLabel | client/src/Pages/Dashboard/OrganizerDashboard/ManageCamps.jsx:279-287 | "Confirmed" exactly for paid rows, whatever the stored confirmation status |
| ManageCamps.ConfirmationIgnoresStoredStatus | client/src/Pages/Dashboard/OrganizerDashboard/ManageCamps.jsx:279-287 | two rows that differ only in stored confirmation get the same label |
| ManageCamps.StatusLabel | client/src/Pages/Dashboard/OrganizerDashboard/ManageCamps.jsx:275 | the first character is capitalized and the rest kept |
| ManageCamps.StatusLabels | client/src/Pages/Dashboard/OrganizerDashboard/ManageCamps.jsx:275 | the two statuses display as "Paid" and "Unpaid" |
| ManageCamps.ShowCancelModal | client/src/Pages/Dashboard/OrganizerDashboard/ManageCamps.jsx:119-123 | remembers the row's id and name and opens the dialog |
| ManageCamps.HandleCancel | client/src/Pages/Dashboard/OrganizerDashboard/ManageCamps.jsx:125-128 | cancels the remembered id and closes the dialog |
| ManageCamps.CancelTargetsChosenRow | client/src/Pages/Dashboard/OrganizerDashboard/ManageCamps.jsx:119-128 | confirming the dialog cancels exactly the row it was opened on |
| OrganizerCamps.FilteredCamps | client/src/Pages/Dashboard/OrganizerDashboard/OrganizerCamps.jsx:79-84 | keeps exactly the camps whose name, location or present professional name contains the term, in order |
| OrganizerCamps.EmptySearchKeepsAll | client/src/Pages/Dashboard/OrganizerDashboard/OrganizerCamps.jsx:79-84 | an empty search keeps every camp in order |
| OrganizerCamps.AbsentProfessionalNeverMatches | client/src/Pages/Dashboard/OrganizerDashboard/OrganizerCamps.jsx:82-83 | a missing professional name never makes a camp match |
| OrganizerCamps.ShownCamps | client/src/Pages/Dashboard/OrganizerDashboard/OrganizerCamps.jsx:87-89 | a page of at most ten matching camps |
| OrganizerCamps.FooterWithinCount | client/src/Pages/Dashboard/OrganizerDashboard/OrganizerCamps.jsx:431 | the footer's upper figure never exceeds the number of matching camps |
| Listing.Type | client/src/Pages/Dashboard/OrganizerDashboard/OrganizerCamps.jsx:285-288 | typing sets the term and returns to page 1; the payment history's box does the same |
| Listing.ClearSearch | client/src/Pages/Dashboard/OrganizerDashboard/OrganizerCamps.jsx:293 | the clear button empties the term and keeps the page; the payment history's button does the same |
| OrganizerCamps.ClearKeepsPage | client/src/Pages/Dashboard/OrganizerDashboard/OrganizerCamps.jsx:293 | clearing the search from any page p stays on page p, which then shows the full list's rows from index (p - 1) * 10 up to p * 10, cut at its end |
| OrganizerCamps.PreviousPage | client/src/Pages/Dashboard/OrganizerDashboard/OrganizerCamps.jsx:435 | from a page above 1 moves back exactly one page, otherwise lands on page 1; the term is kept |
| OrganizerCamps.NextPage | client/src/Pages/Dashboard/OrganizerDashboard/OrganizerCamps.jsx:455 | below the page count of the filtered camps moves forward exactly one page, otherwise lands on the last page; the term is kept |
| OrganizerCamps.HandleChange | client/src/Pages/Dashboard/OrganizerDashboard/OrganizerCamps.jsx:202-205 | the named field takes the value and every other field is unchanged |
| OrganizerCamps.FormFromCamp | client/src/Pages/Dashboard/OrganizerDashboard/OrganizerCamps.jsx:177-182 | the form holds the camp's name, location and the given date text, and the professional's name when present or `''` when missing |
| OrganizerCamps.HandleDelete | client/src/Pages/Dashboard/OrganizerDashboard/OrganizerCamps.jsx:108-130 | a delete request goes out exactly when the dialog was confirmed, for that camp |
| PaymentHistory.FilteredPayments | client/src/StripePayment/PaymentHistory.jsx:72-82 | the whole list for an empty term; otherwise exactly the payments with a present field containing the term |
| PaymentHistory.EmptyPaymentOnlyUnfiltered | client/src/StripePayment/PaymentHistory.jsx:72-82 | a payment with no fields is listed exactly while the search is empty |
| PaymentHistory.AmountFound | client/src/StripePayment/PaymentHistory.jsx:78 | a payment is found by any part of its amount's decimal text |
| PaymentHistory.ShownPayments | client/src/StripePayment/PaymentHistory.jsx:84-86 | a page of at most ten filtered payments |
| PaymentHistory.RowNumberIsPosition | client/src/StripePayment/PaymentHistory.jsx:267 | the "#" beside a row is its one-based position in the filtered list |
| PaymentHistory.TotalAmountAppend | client/src/StripePayment/PaymentHistory.jsx:89 | the total of two lists laid end to end is the sum of their totals |
| PaymentHistory.MissingAmountsAddNothing | client/src/StripePayment/PaymentHistory.jsx:89 | payments without an amount add nothing to the total |
| PaymentHistory.TotalOverAllPages | client/src/StripePayment/PaymentHistory.jsx:84-89 | the pages' totals add up to the "Total Amount" figure |
| PaymentHistory.Statistics | client/src/StripePayment/PaymentHistory.jsx:89-90 | the count is the number of filtered payments and the total the sum of their amounts (`TotalAmount`); the last date comes from the first one, none for an empty list |
| PaymentHistory.TypingShowsFirstRows | client/src/StripePayment/PaymentHistory.jsx:150-153 | after typing, the table shows the first ten matching payments, numbered from 1 |
| AddCamp.FeesError | client/src/Pages/Dashboard/OrganizerDashboard/AddCamp.jsx:140-143 | "required" for an empty fee, "Fees must be positive" below 0, none otherwise |
| AddCamp.ZeroFeeAccepted | client/src/Pages/Dashboard/OrganizerDashboard/AddCamp.jsx:142 | a fee of 0 passes although the message says "positive" |
| AddCamp.OnSubmit | client/src/Pages/Dashboard/OrganizerDashboard/AddCamp.jsx:67-85 | a pending post or a running upload ignores the press (the button is disabled); field errors block; no image warns; otherwise posts the inputs with the image, the creator's e-mail and count 0 |
| AddCamp.UploadingBlocksPost | client/src/Pages/Dashboard/OrganizerDashboard/AddCamp.jsx:236-238 | while an image upload runs the disabled button posts nothing, whatever the form holds |
| AddCamp.OnSuccess | client/src/Pages/Dashboard/OrganizerDashboard/AddCamp.jsx:26-30 | success empties the inputs and forgets the image |
| AddCamp.NoRepostAfterSuccess | client/src/Pages/Dashboard/OrganizerDashboard/AddCamp.jsx:26-73 | after a success, pressing the button again posts nothing |
| AddCamp.PostedCampCreated | client/src/Pages/Dashboard/OrganizerDashboard/AddCamp.jsx:67-85 | a camp the form posts for a signed-in organizer is created by `POST /camps` with its fee and no participants |
| RegisterPage.NameError | client/src/Pages/Register.jsx:161-162 | "Name is required" for the empty name, "Name cannot be empty" for a blank one, none otherwise |
| RegisterPage.EmailAcceptedIff | client/src/Pages/Register.jsx:189 | the first-`@` scan accepts exactly the strings `/^[^\s@]+@[^\s@]+\.[^\s@]+$/` matches |
| RegisterPage.TwoAtSignsRefused | client/src/Pages/Register.jsx:189 | the pattern refuses every string holding two `@` |
| RegisterPage.EmailError | client/src/Pages/Register.jsx:187-191 | "Email is required" for empty input, "Invalid email address" exactly when the pattern fails |
| RegisterPage.PasswordError | client/src/Pages/Register.jsx:236-242 | required, then at least 6 UTF-16 code units as JavaScript counts `length`, then a lower-case letter, an upper-case letter and a digit, with the page's messages |
| RegisterPage.AcceptedPasswordMixed | client/src/Pages/Register.jsx:236-242 | an accepted password holds a lower-case letter, an upper-case letter and a digit at three distinct positions |
| RegisterPage.SignUpRecord | client/src/Pages/Register.jsx:61-68 | the posted record has the typed e-mail, role `'user'`, the trimmed name and the picture or `''` |
| RegisterPage.SentNameTrimmed | client/src/Pages/Register.jsx:59-64 | a name that passed its rule is sent non-empty and without surrounding white space |
| RegisterPage.UserRecordNeverAdmin | client/src/Pages/Register.jsx:61-69 | a `'user'` record for a new e-mail is stored with 201 and then refused by `verifyAdmin` |
| RegisterPage.SignUpNeverAdmin | client/src/Pages/Register.jsx:54-84 | a new account created by sign-up is refused by `verifyAdmin` |
| RegisterPage.FailureMessage | client/src/Pages/Register.jsx:72-79 | the three known Firebase codes get their messages, else the error's message, else "Registration failed" |
| LoginPage.DottedAtomsIff | client/src/Pages/Login.jsx:107 | the left-to-right scan of `A+(\.A+)*` agrees with "every piece between dots is an atom" |
| LoginPage.DomainHasNoAt | client/src/Pages/Login.jsx:107 | a valid domain holds no `@` |
| LoginPage.EmailAcceptedIff | client/src/Pages/Login.jsx:107 | splitting at the last `@` accepts exactly the strings some `@` splits into a valid local part and domain |
| LoginPage.EmailError | client/src/Pages/Login.jsx:103-110 | "Email is required" for empty input, "Invalid email address" exactly when the pattern fails, the top-level label's `{2,}` counted in UTF-16 code units as a pattern without the `u` flag counts them |
| LoginPage.UnquotedEmailAcceptedAtSignUp | client/src/Pages/Login.jsx:107 | an address sign-in accepts with an unquoted local part is accepted at sign-up too |
| LoginPage.TwoLabelDomain | client/src/Pages/Login.jsx:107 | two atoms joined by a dot form a valid domain exactly when the second is two or more UTF-16 code units long |
| LoginPage.QuotedAddressAccepted | client/src/Pages/Login.jsx:107 | a quoted local part before a valid domain is accepted whatever the quotes hold, `@` included |
| LoginPage.QuotedAtSignInOnly | client/src/Pages/Login.jsx:107 | every address whose quoted local part holds an `@`, such as `"a@b"@ex.com`, passes sign-in but not sign-up |
| LoginPage.ShortTopLabelAtSignUpOnly | client/src/Pages/Login.jsx:107 | every `l@b.c` of atoms with a one-character top label passes sign-up, and passes sign-in exactly when that character lies outside the Basic Multilingual Plane (two code units): `a@b.c` is refused at sign-in |
| LoginPage.AstralTopLabelAccepted | client/src/Pages/Login.jsx:103-110 | `a@b.` followed by one emoji passes both pages, while `a@b.c` gets "Invalid email address" at sign-in |
| LoginPage.PasswordError | client/src/Pages/Login.jsx:129-132 | required, then at least 6 UTF-16 code units as JavaScript counts `length`; nothing else |
| LoginPage.SignUpPasswordsSignIn | client/src/Pages/Login.jsx:129-132 | every password sign-up accepts passes sign-in; "aaaaaa" passes sign-in only |
| LoginPage.ThreeAstralCharactersSignIn | client/src/Pages/Login.jsx:129-132 | three emoji already meet the six-unit minimum, while five ASCII letters do not |
| LoginPage.GoogleSignIn | client/src/Pages/Login.jsx:35-58 | fails with "Google authentication failed" exactly without a user; otherwise posts role `'user'` with name and photo or `''` |
| LoginPage.GoogleSignInNeverAdmin | client/src/Pages/Login.jsx:35-58 | a first Google sign-in creates a user whom `verifyAdmin` refuses |
| CampDetails.InitialForm | client/src/Pages/CampDetails.jsx:18-25 | name and e-mail from the signed-in user or `''`, every other field empty |
| CampDetails.Edit | client/src/Pages/CampDetails.jsx:63-66 | the edited field takes the value, the others (and the e-mail) are unchanged |
| CampDetails.EmailReadOnly | client/src/Pages/CampDetails.jsx:63-66 | however the user types, the e-mail sent is the signed-in user's |
| CampDetails.HandleRegister | client/src/Pages/CampDetails.jsx:68-75 | warns exactly when a field is empty, else starts the mutation with the form |
| CampDetails.HandleOpenModal | client/src/Pages/CampDetails.jsx:54-61 | without an e-mail: an error and `/login`, modal unchanged; with one: the modal opens |
| CampDetails.ModalOpensOnlyWhenLoggedIn | client/src/Pages/CampDetails.jsx:54-61 | a closed modal opens exactly for a signed-in user |
| CampDetails.AsBody | client/src/Pages/CampDetails.jsx:74 | every form field (name, e-mail, age, phone number, gender, emergency contact) is sent as the string typed into it |
| CampDetails.GuardsAgree | client/src/Pages/CampDetails.jsx:70 | the page's field check passes exactly when the server's does |
| CampDetails.MutationFn | client/src/Pages/CampDetails.jsx:38-41 | throws "Please login to join the camp" exactly without an e-mail, else posts the form to the camp |
| CampDetails.OnError | client/src/Pages/CampDetails.jsx:48-51 | shows the server's message, else the error's, else the default; moves to `/login` exactly when the message contains "login" |
| CampDetails.SignedOutMutationGoesToLogin | client/src/Pages/CampDetails.jsx:38-51 | the mutation's own sign-in error sends the visitor to `/login` |
| CampDetails.CheckedRegistrationCreated | client/src/Pages/CampDetails.jsx:68-75 | a form that passed the page's check is registered by the server with 201 |
| AdminRoute.Decide | client/src/Router/AdminRoute.jsx:9-17 | spinner exactly while loading; page exactly for a signed-in admin; `/forbidden` otherwise |
| AdminRoute.LoadingHidesChildren | client/src/Router/AdminRoute.jsx:9-11 | even an admin sees only the spinner while loading |
| AdminRoute.FetchedRole | client/src/Hooks/useUserRole.jsx:10-21 | the server's role on success, `'user'` otherwise |
| AdminRoute.AgreesWithServer | client/src/Router/AdminRoute.jsx:13-17 | after loading, the page opens for an e-mail exactly when `verifyAdmin` passes it |
| DashboardLayout.MenuItems | client/src/Layouts/DashboardLayout.jsx:40-88 | Home first, the four organizer entries exactly for a loaded admin, then the four participant entries |
| DashboardLayout.OrganizerEntriesIff | client/src/Layouts/DashboardLayout.jsx:47-66 | each organizer entry is listed exactly when the role has loaded as `'admin'` |
| DashboardLayout.MenuMatchesAdminRoute | client/src/Layouts/DashboardLayout.jsx:47 | the menu offers the organizer entries exactly when the admin guard opens their pages |
| Navbar.ActiveBelowLink | client/src/Components/Navbar.jsx:60-63 | a link other than `/` is active on every path below it |
| Navbar.RootOnlyAtRoot | client/src/Components/Navbar.jsx:60-63 | `/` is active only on `/` itself |
| Navbar.NavLinks | client/src/Components/Navbar.jsx:65-85 | Home and Available Camps when signed in; Home, Register and Login otherwise |
| Navbar.AtMostOneActive | client/src/Components/Navbar.jsx:60-85 | on any path at most one offered link is highlighted |
| Banner.Next | client/src/Components/Banner.jsx:42 | Next wraps from the last slide to 0 and otherwise steps by one, staying in range |
| Banner.Prev | client/src/Components/Banner.jsx:41 | Previous wraps from 0 to the last slide and otherwise steps back one, staying in range |
| Banner.Tick | client/src/Components/Banner.jsx:33-39 | a timer firing applies Next unless the mouse rests on the carousel |
| Banner.GoTo | client/src/Components/Banner.jsx:122 | a dot selects its own slide |
| Banner.NextPrevInverse | client/src/Components/Banner.jsx:41-42 | Next and Previous undo each other |
| Banner.AdvanceIsModular | client/src/Components/Banner.jsx:42 | `n` presses of Next land on slide `(i + n) mod 3` |
| Banner.FullRoundReturns | client/src/Components/Banner.jsx:5-42 | three presses return to the start, and every slide reached is in range |
| About.SeparateIsGroup | client/src/Pages/About.jsx:34 | the regex replace writes the same text as grouping the digits from the right |
| About.RemoveSeparators | client/src/Pages/About.jsx:34 | the result holds no `,`, holds exactly the characters of the input other than `,`, and is the input itself when it has no `,` |
| About.GroupRemoveSeparators | client/src/Pages/About.jsx:34 | removing the separators from a grouping gives back the digits |
| About.FormatRoundTrip | client/src/Pages/About.jsx:33-35 | removing the separators from `formatNumber(n)` gives the digits of `n`, which read back as `n` |
| About.GroupWellGrouped | client/src/Pages/About.jsx:34 | a grouping splits at `,` into a first group of 1 to 3 digits and later groups of exactly 3 |
| About.FormatWellGrouped | client/src/Pages/About.jsx:33-35 | every formatted count is grouped that way |
| About.FormatBelowThousand | client/src/Pages/About.jsx:33-35 | counts below 1000 get no separator |
| About.FormatThousand | client/src/Pages/About.jsx:33-35 | 1000 is written "1,000" |
| About.LeadingDigits | client/src/Pages/About.jsx:90 | the count of leading digits: all of them are digits and the next character is not |
| About.NumeralLength | client/src/Pages/About.jsx:90 | the greedy numeral `\d+(?:\.\d+)?` at the start: 0 exactly when no digit leads |
| About.UpToLineEnd | client/src/Pages/About.jsx:90 | `.*` takes the longest prefix without a line terminator |
| About.ParseValue | client/src/Pages/About.jsx:88-100 | a number passes with an empty suffix; text with a leading numeral splits into it and the rest of the line; other text is kept whole |
| About.ParseRoundTrip | client/src/Pages/About.jsx:88-100 | without a line break, the numeral and the suffix put back together give the value |
| About.NumeralIsLongest | client/src/Pages/About.jsx:90 | the greedy match takes the longest numeral it can: the suffix never starts with a digit, and starts with a dot and a digit only after a numeral that already has a fraction ("1.5.3" splits into "1.5" and ".3") |

## Left out

- Stripe (`POST /create-payment-intent`, server/index.js:502-510, and the payment form): the payment provider is outside the model. A payment enters only through `PUT /participant/camp/:id/pay`.
- The profile routes and the organizer-profile page: they change only display fields, which no other operation reads.
- The second `/organizer-camps` listing and the `search` regex of `GET /camps`: MongoDB's regular expressions are not modelled. Only the sort key of `GET /camps` is.
- Dates and the clock: `createdAt`, `date`, `created_at` and `last_log_in` are not stored. The payment search does match the date, but through `PaymentRow.dateText`, an abstract input standing for `new Date(date).toLocaleString()`; the locale's date format is not modelled.
- Routes.GetPayments, Routes.ListFeedback, ReadBack.PaymentListedFirst and ReadBack.FeedbackListedFirst: `sort({ date: -1 })` over the `date: new Date()` stamped at insert (server/index.js:370, 418) and sorted at server/index.js:457 and 494 is modelled as reverse insertion order. That assumes every insert is stamped strictly later than the one before. Records written in the same millisecond have no defined order in MongoDB, and a clock stepped back reorders them, so "listed first" is promised only under that assumption.
- Floating point: fees and amounts are whole numbers (minor units). `toFixed`, `parseFloat` and fractional `Number()` results are not modelled. The card values are whole numbers.
- The count-up animation's easing curve and timers, the toasts and the dialogs' look: they are presentation only.
- Concurrency and database failures: each request runs alone against the store, and inserts do not fail.
- Firebase account creation, Google pop-ups and the image upload service are oracles or left out. Token verification is the `Verifier` parameter.
- Text.Lower, Text.UpperChar and ManageCamps.StatusLabel: only ASCII letters change case; JavaScript's full Unicode case mapping (under which `"ß".toUpperCase()` is `"SS"`, changing the length) is not modelled. The stored payment statuses are `"paid"` and `"unpaid"`, which this covers.
- ObjectIds.ParseObjectId: the 12-byte string form of `new ObjectId` is not modelled; only 24 hexadecimal digits are.
- CampDetails.HandleRegister: the registration dialog's form has no `noValidate`, so the browser's constraint validation runs before `handleRegister` and is not modelled. It checks `required` on every input, `min={0}` on the age input (an age such as `-1` is blocked there but accepted by the model), and the `type="number"` and `type="email"` value sanitizing and format checks. The model covers only the page's own `handleRegister` check, so it admits some forms the browser would stop.
- The browser's value sanitizing of the sign-in and sign-up `type="email"` inputs (line breaks removed, surrounding ASCII white space stripped) is not modelled; both forms set `noValidate`, so only that sanitizing, not the format check, applies there.
- Table rows hold strings where the server stores strings; a non-string field in a stored row is not modelled.
- JsValues.ToNumber: only whole-number results are modelled. A fraction that does not cancel out (`"1.5"`, `"1e-1"`), `"Infinity"`, `"+Infinity"` and `"-Infinity"` give NaN here, and magnitudes beyond 2^53 or about 1.8e308 are not rounded to a double or to Infinity.
- `Js` has no object or array values: a request field or query parameter that arrives as an object (such as a MongoDB operator `{"$ne": null}` in a JSON body) or as an array (a repeated query parameter) is not modelled, so neither is the operator injection such a value would allow in the `find` filters.
- JSON serialization of `undefined` as a missing field is not modelled; a body value is one `Js` value per field.

=== FILE: about.dfy ===
/**
  Two helpers of the About page's statistics cards.

  `formatNumber` writes a count with a `,` before every run of three
  digits that ends the number: `num.toString()` followed by a global
  replace of `\B(?=(\d{3})+(?!\d))`. On a string of decimal digits `\B`
  holds at every inner position and the look-ahead holds where a positive
  multiple of three digits remains, so the replace inserts the separator
  at those positions.

  `parseValue` splits a card's value into a leading number and a suffix.
  The values the page passes are whole numbers; a number is kept as given,
  and the leading numeral of a string is kept as text (its `parseFloat`
  reading is floating point and left out).
 */
module About {
  import opened Text

  // ------------------------------------------------------- formatNumber

  /** A position where the replace puts a separator in a string of `len` digits. */
  predicate InsertionPoint(len: nat, p: nat) {
    0 < p < len && (len - p) % 3 == 0
  }

  /** The replaced text from digit `p` on. */
  function Separate(d: string, p: nat): string
    decreases |d| - p
  {
    if p >= |d| then ""
    else (if InsertionPoint(|d|, p) then "," else "") + [d[p]] + Separate(d, p + 1)
  }

  /** `formatNumber` on the counts the card shows, which are never negative. */
  function FormatNumber(n: nat): string {
    Separate(NatToDecimal(n), 0)
  }

  /** The grouping written from the right: the last three digits split off, recursively. */
  function Group(d: string): (r: string)
    decreases |d|
  {
    if |d| <= 3 then d else Group(d[..|d| - 3]) + "," + d[|d| - 3..]
  }

  /** With no separator ahead, the rest of the digits is copied unchanged. */
  lemma {:induction false} SeparateCopies(d: string, p: nat)
    requires p <= |d|
    requires forall q :: p <= q < |d| ==> !InsertionPoint(|d|, q)
    ensures Separate(d, p) == d[p..]
    decreases |d| - p
  {
    if p < |d| {
      assert !InsertionPoint(|d|, p);
      calc {
        Separate(d, p);
        [d[p]] + Separate(d, p + 1);
        { SeparateCopies(d, p + 1); }
        [d[p]] + d[p + 1..];
        d[p..];
      }
    }
  }

  /** Three more digits on the right add one separator and those digits. */
  lemma {:induction false} SeparateAppend(a: string, b: string, p: nat)
    requires |b| == 3 && 0 < |a| && p <= |a|
    ensures Separate(a + b, p) == Separate(a, p) + "," + b
    decreases |a| - p
  {
    var d := a + b;
    if p == |a| {
      SeparateCopies(d, p + 1);
      assert d[p + 1..] == b[1..];
      assert InsertionPoint(|d|, p);
      assert b == [b[0]] + b[1..];
    } else {
      assert InsertionPoint(|d|, p) <==> InsertionPoint(|a|, p) by {
        assert |d| - p == (|a| - p) + 3;
      }
      assert d[p] == a[p];
      SeparateAppend(a, b, p + 1);
    }
  }

  /** The replace and the right-to-left grouping write the same text. */
  lemma {:induction false} SeparateIsGroup(d: string)
    ensures Separate(d, 0) == Group(d)
    decreases |d|
  {
    if |d| <= 3 {
      SeparateCopies(d, 0);
    } else {
      var a, b := d[..|d| - 3], d[|d| - 3..];
      assert d == a + b;
      SeparateAppend(a, b, 0);
      SeparateIsGroup(a);
    }
  }

  /** `s` with every `,` removed. */
  function RemoveSeparators(s: string): (r: string)
    ensures |r| <= |s|
    ensures forall k :: 0 <= k < |r| ==> r[k] != ','
    ensures forall c :: c in r <==> c in s && c != ','
    ensures (forall k :: 0 <= k < |s| ==> s[k] != ',') ==> r == s
  {
    if s == [] then []
    else
      var rest := RemoveSeparators(s[1..]);
      assert s == [s[0]] + s[1..];
      assert (forall k :: 0 <= k < |s| ==> s[k] != ',') ==> forall k :: 0 <= k < |s[1..]| ==> s[1..][k] != ',';
      (if s[0] == ',' then [] else [s[0]]) + rest
  }

  lemma {:induction false} RemoveSeparatorsAppend(a: string, b: string)
    ensures RemoveSeparators(a + b) == RemoveSeparators(a) + RemoveSeparators(b)
    decreases |a|
  {
    if a == [] {
      assert a + b == b;
    } else {
      assert (a + b)[1..] == a[1..] + b;
      RemoveSeparatorsAppend(a[1..], b);
    }
  }

  /** Removing the separators from a grouping gives back the digits. */
  lemma {:induction false} GroupRemoveSeparators(d: string)
    requires AllDigits(d)
    ensures RemoveSeparators(Group(d)) == d
    decreases |d|
  {
    if |d| <= 3 {
      DigitsHaveNoSeparator(d);
    } else {
      var a, b := d[..|d| - 3], d[|d| - 3..];
      assert AllDigits(a) && AllDigits(b);
      calc {
        RemoveSeparators(Group(d));
        RemoveSeparators(Group(a) + "," + b);
        { RemoveSeparatorsAppend(Group(a) + ",", b); }
        RemoveSeparators(Group(a) + ",") + RemoveSeparators(b);
        { RemoveSeparatorsAppend(Group(a), ","); }
        RemoveSeparators(Group(a)) + RemoveSeparators(",") + RemoveSeparators(b);
        { GroupRemoveSeparators(a); DigitsHaveNoSeparator(b); }
        a + RemoveSeparators(",") + b;
        { assert RemoveSeparators(",") == []; }
        a + b;
        d;
      }
    }
  }

  lemma {:induction false} DigitsHaveNoSeparator(d: string)
    requires AllDigits(d)
    ensures RemoveSeparators(d) == d
    decreases |d|
  {
    if d != [] {
      DigitsHaveNoSeparator(d[1..]);
      assert d == [d[0]] + d[1..];
    }
  }

  /** Stripping the separators from `formatNumber(n)` gives the decimal digits of `n`, which read back as `n`. */
  lemma FormatRoundTrip(n: nat)
    ensures RemoveSeparators(FormatNumber(n)) == NatToDecimal(n)
    ensures DecimalValue(RemoveSeparators(FormatNumber(n))) == n
  {
    SeparateIsGroup(NatToDecimal(n));
    GroupRemoveSeparators(NatToDecimal(n));
    DecimalRoundTrip(n);
  }

  /** A list of groups as the replace writes them: the first has one to three digits, every later one exactly three. */
  predicate GroupsOk(groups: seq<string>) {
    && |groups| >= 1
    && 1 <= |groups[0]| <= 3
    && (forall k :: 1 <= k < |groups| ==> |groups[k]| == 3)
    && (forall k :: 0 <= k < |groups| ==> AllDigits(groups[k]))
  }

  /** The groups between separators are well formed. */
  predicate WellGrouped(s: string) {
    GroupsOk(Split(s, ','))
  }

  /** A further group of three digits keeps a list of groups well formed. */
  lemma GroupsOkSnoc(before: seq<string>, b: string)
    requires GroupsOk(before) && |b| == 3 && AllDigits(b)
    ensures GroupsOk(before + [b])
  {
    var groups := before + [b];
    forall k | 0 <= k < |groups|
      ensures (k >= 1 ==> |groups[k]| == 3) && AllDigits(groups[k])
    {
      if k < |before| {
        assert groups[k] == before[k];
      }
    }
  }

  /** A digit string holds no separator, so it splits into itself. */
  lemma DigitsSplitWhole(d: string)
    requires AllDigits(d)
    ensures Split(d, ',') == [d]
  {
    assert IndexOf(d, ',') == None by {
      assert forall k :: 0 <= k < |d| ==> IsDigit(d[k]);
    }
  }

  lemma {:induction false} GroupWellGrouped(d: string)
    requires |d| >= 1 && AllDigits(d)
    ensures WellGrouped(Group(d))
    decreases |d|
  {
    if |d| <= 3 {
      DigitsSplitWhole(d);
    } else {
      var a, b := d[..|d| - 3], d[|d| - 3..];
      GroupWellGrouped(a);
      assert forall k :: 0 <= k < |b| ==> b[k] != ',' by {
        assert forall k :: 0 <= k < |b| ==> IsDigit(b[k]);
      }
      calc {
        Split(Group(d), ',');
        Split(Group(a) + [','] + b, ',');
        { SplitSnoc(Group(a), ',', b); }
        Split(Group(a), ',') + [b];
      }
      GroupsOkSnoc(Split(Group(a), ','), b);
    }
  }

  /** Every formatted count is well grouped. */
  lemma FormatWellGrouped(n: nat)
    ensures WellGrouped(FormatNumber(n))
  {
    SeparateIsGroup(NatToDecimal(n));
    GroupWellGrouped(NatToDecimal(n));
  }

  /** Counts below a thousand are written without a separator. */
  lemma FormatBelowThousand(n: nat)
    requires n < 1000
    ensures FormatNumber(n) == NatToDecimal(n)
  {
    var d := NatToDecimal(n);
    assert |d| <= 3 by {
      if n >= 10 {
        assert |NatToDecimal(n / 10)| <= 2 by {
          if n / 10 >= 10 {
            assert |NatToDecimal(n / 10 / 10)| == 1;
          }
        }
      }
    }
    SeparateCopies(d, 0);
  }

  /** A four-digit count gets one separator after its first digit. */
  lemma FormatThousand()
    ensures FormatNumber(1000) == "1,000"
  {
    var d := NatToDecimal(1000);
    assert d == "1000" by {
      assert NatToDecimal(1) == "1";
      assert NatToDecimal(10) == "10";
      assert NatToDecimal(100) == "100";
    }
    SeparateIsGroup(d);
    assert Group(d) == Group("1") + "," + "000";
  }

  // --------------------------------------------------------- parseValue

  /** A card's `value`: a number, or a string. */
  datatype StatValue = NumberValue(n: int) | TextValue(s: string)

  /** The `numeric` part: the number as given, or the text of a leading numeral. */
  datatype Numeric = Given(n: int) | Numeral(text: string)

  datatype Parsed = Parsed(numeric: Numeric, suffix: string)

  /** The number of leading decimal digits. */
  function LeadingDigits(s: string): (r: nat)
    ensures r <= |s| && AllDigits(s[..r])
    ensures r == |s| || !IsDigit(s[r])
    decreases |s|
  {
    if s != [] && IsDigit(s[0]) then
      var rest := LeadingDigits(s[1..]);
      assert s[..rest + 1] == [s[0]] + s[1..][..rest];
      rest + 1
    else 0
  }

  /** `\d+(?:\.\d+)?`, matched greedily: the length of the leading numeral, 0 if there is none. */
  function NumeralLength(s: string): (m: nat)
    ensures m <= |s|
    ensures m == 0 <==> s == [] || !IsDigit(s[0])
  {
    var i := LeadingDigits(s);
    if i == 0 then 0
    else if i + 1 < |s| && s[i] == '.' && IsDigit(s[i + 1]) then i + 1 + LeadingDigits(s[i + 1..])
    else i
  }

  /** `.*`: everything up to the first line terminator. */
  function UpToLineEnd(s: string): (r: string)
    ensures |r| <= |s| && r == s[..|r|]
    ensures forall k :: 0 <= k < |r| ==> !IsLineTerminator(r[k])
    ensures |r| == |s| || IsLineTerminator(s[|r|])
    decreases |s|
  {
    if s == [] || IsLineTerminator(s[0]) then [] else [s[0]] + UpToLineEnd(s[1..])
  }

  /** The shapes `\d+(?:\.\d+)?` accepts. */
  predicate IsNumeral(t: string) {
    || (|t| >= 1 && AllDigits(t))
    || (exists i | 0 < i < |t| - 1 :: t[i] == '.' && AllDigits(t[..i]) && AllDigits(t[i + 1..]))
  }

  /** `parseValue`. */
  function ParseValue(v: StatValue): (p: Parsed)
    ensures v.NumberValue? ==> p == Parsed(Given(v.n), "")
    ensures v.TextValue? && NumeralLength(v.s) == 0 ==> p == Parsed(Given(0), v.s)
    ensures v.TextValue? && NumeralLength(v.s) > 0 ==> (
      && p.numeric.Numeral? && IsNumeral(p.numeric.text)
      && |p.numeric.text| <= |v.s| && p.numeric.text == v.s[..|p.numeric.text|]
      && p.suffix == UpToLineEnd(v.s[|p.numeric.text|..]))
  {
    match v
    case NumberValue(n) => Parsed(Given(n), "")
    case TextValue(s) =>
      var m := NumeralLength(s);
      if m == 0 then Parsed(Given(0), s)
      else
        assert IsNumeral(s[..m]) by {
          var i := LeadingDigits(s);
          if m > i {
            var j := LeadingDigits(s[i + 1..]);
            assert s[..m][..i] == s[..i];
            assert s[..m][i + 1..] == s[i + 1..][..j];
            assert s[..m][i] == '.';
          }
        }
        Parsed(Numeral(s[..m]), UpToLineEnd(s[m..]))
  }

  /** Without a line break, the numeral and the suffix put back together give the value. */
  lemma ParseRoundTrip(s: string)
    requires forall k :: 0 <= k < |s| ==> !IsLineTerminator(s[k])
    requires s != [] && IsDigit(s[0])
    ensures ParseValue(TextValue(s)).numeric.Numeral?
    ensures ParseValue(TextValue(s)).numeric.text + ParseValue(TextValue(s)).suffix == s
  {
    var m := NumeralLength(s);
    assert s[..m] + s[m..] == s;
  }

  /**
    The numeral is as long as the greedy match makes it: the suffix never
    starts with a digit, and starts with a dot and a digit only after a
    numeral that already has its fraction.
   */
  lemma NumeralIsLongest(s: string)
    requires s != [] && IsDigit(s[0])
    ensures var m := NumeralLength(s);
      && (m == |s| || !IsDigit(s[m]))
      && !(m + 1 < |s| && s[m] == '.' && IsDigit(s[m + 1]) && s[..m] == s[..LeadingDigits(s)])
  {
    var i := LeadingDigits(s);
    var m := NumeralLength(s);
    if m > i {
      var j := LeadingDigits(s[i + 1..]);
      assert m == i + 1 + j;
      if m < |s| {
        assert s[m] == s[i + 1..][j];
      }
    }
  }
}

=== FILE: add_camp.dfy ===
/**
  The organizer's "add a camp" form: the field rules the form library
  checks before `onSubmit`, the guards inside `onSubmit`, the camp document
  it posts, and the reset after a successful post.

  The image upload is left to the caller: `imageUrl` is whatever the upload
  produced, `""` before one succeeded.
 */
module AddCamp {
  import opened Text
  import opened JsValues
  import Store
  import Routes

  /** The six inputs; a number input is either empty (`None`) or holds a number. */
  datatype CampForm = CampForm(
    campName: string,
    campFees: Option<int>,
    dateTime: string,
    location: string,
    healthcareProfessionalName: string,
    description: string)

  function EmptyForm(): CampForm {
    CampForm("", None, "", "", "", "")
  }

  /** The message under the fee input, if any: required, then `min: 0`. */
  function FeesError(fees: Option<int>): (e: Option<string>)
    ensures e.None? <==> fees.Some? && fees.value >= 0
    ensures fees.None? ==> e == Some("Camp fees are required")
    ensures fees.Some? && fees.value < 0 ==> e == Some("Fees must be positive")
  {
    match fees
    case None => Some("Camp fees are required")
    case Some(f) => if f < 0 then Some("Fees must be positive") else None
  }

  /** Every field passes its rules; a fee of zero is accepted. */
  predicate FormValid(f: CampForm) {
    && f.campName != "" && FeesError(f.campFees).None? && f.dateTime != ""
    && f.location != "" && f.healthcareProfessionalName != "" && f.description != ""
  }

  lemma ZeroFeeAccepted(f: CampForm)
    requires f.campName != "" && f.dateTime != "" && f.location != ""
    requires f.healthcareProfessionalName != "" && f.description != ""
    ensures FormValid(f.(campFees := Some(0)))
    ensures !FormValid(f.(campFees := Some(-1))) && !FormValid(f.(campFees := None))
  {
  }

  /** The document `onSubmit` posts to `/camps`. */
  datatype CampData = CampData(
    campName: string,
    campFees: int,
    dateTime: string,
    location: string,
    healthcareProfessionalName: string,
    description: string,
    image: string,
    createdBy: Option<string>,
    participantCount: int)

  /** What pressing "Add Camp" leads to. */
  datatype Submit = ShowFieldErrors | Ignored | Warn(message: string) | Post(camp: CampData)

  /**
    The button is disabled while a post is pending or an image is uploading,
    so a press then does nothing. Otherwise the form library runs `onSubmit`
    only on a valid form, and `onSubmit` warns while no image is uploaded.
   */
  function OnSubmit(f: CampForm, pending: bool, uploading: bool, imageUrl: string, email: Option<string>)
    : (s: Submit)
    ensures s == Ignored <==> pending || uploading
    ensures s.Post? <==> !pending && !uploading && FormValid(f) && imageUrl != ""
    ensures !pending && !uploading && !FormValid(f) ==> s == ShowFieldErrors
    ensures !pending && !uploading && FormValid(f) && imageUrl == "" ==>
      s == Warn("Please upload an image before submitting.")
    ensures s.Post? ==>
      && s.camp.image == imageUrl && s.camp.createdBy == email
      && s.camp.campFees == f.campFees.value && s.camp.campFees >= 0
      && s.camp.participantCount == 0
      && s.camp.campName == f.campName && s.camp.location == f.location
      && s.camp.dateTime == f.dateTime && s.camp.description == f.description
      && s.camp.healthcareProfessionalName == f.healthcareProfessionalName
  {
    if pending || uploading then Ignored
    else if !FormValid(f) then ShowFieldErrors
    else if imageUrl == "" then Warn("Please upload an image before submitting.")
    else Post(CampData(f.campName, f.campFees.value, f.dateTime, f.location, f.healthcareProfessionalName,
                       f.description, imageUrl, email, 0))
  }

  /** While an image upload runs the submit button is disabled, so no press posts, whatever the form holds. */
  lemma UploadingBlocksPost(f: CampForm, pending: bool, imageUrl: string, email: Option<string>)
    ensures OnSubmit(f, pending, true, imageUrl, email) == Ignored
    ensures !OnSubmit(f, pending, true, imageUrl, email).Post?
  {
  }

  /** The form state the component keeps besides the inputs. */
  datatype View = View(form: CampForm, imageUrl: string, imageFile: Option<string>)

  /** `onSuccess`: reset the inputs and forget the image. */
  function OnSuccess(v: View): (v': View)
    ensures v'.form == EmptyForm() && v'.imageUrl == "" && v'.imageFile.None?
  {
    View(EmptyForm(), "", None)
  }

  /** After a successful post, pressing the button again posts nothing until a new image is uploaded. */
  lemma NoRepostAfterSuccess(v: View, email: Option<string>)
    ensures !OnSubmit(OnSuccess(v).form, false, false, OnSuccess(v).imageUrl, email).Post?
  {
  }

  /** The request body the server receives for a posted camp. */
  function AsRequestBody(c: CampData): (b: Routes.CampBody)
    ensures Truthy(b.campName) <==> c.campName != ""
    ensures b.campFees == Num(c.campFees)
  {
    Routes.CampBody(
      Str(c.campName), Num(c.campFees), Str(c.dateTime), Str(c.location), Str(c.image),
      Str(c.description), Str(c.healthcareProfessionalName),
      match c.createdBy case Some(e) => Str(e) case None => Undefined)
  }

  /** A camp the form posts for a signed-in organizer is created by the server, with its fee and no participants. */
  lemma PostedCampCreated(s: Store.Store, f: CampForm, imageUrl: string, email: string)
    requires Store.Valid(s)
    requires OnSubmit(f, false, false, imageUrl, Some(email)).Post? && email != ""
    ensures var r := Routes.PostCamp(s, AsRequestBody(OnSubmit(f, false, false, imageUrl, Some(email)).camp));
      && r.status == Routes.Created
      && r.store.camps[Store.FreshId(s)].campFees == Num(f.campFees.value)
      && r.store.camps[Store.FreshId(s)].participantCount == 0
  {
    assert Store.FreshId(s) !in s.camps;
  }
}

=== FILE: admin_route.dfy ===
/**
  The guard around the organizer pages: a spinner while the sign-in state
  or the role is loading, a redirect to `/forbidden` for a visitor who is
  not signed in or whose role is not `'admin'`, the page otherwise.

  The role is what `GET /users/:email/role` answered, or `'user'` while the
  query has no data (not yet run, or failed).
 */
module AdminRoute {
  import opened Text
  import opened JsValues
  import Store
  import Auth
  import Routes

  datatype Render = Spinner | Forbidden | Children

  function Decide(authLoading: bool, roleLoading: bool, signedIn: bool, role: Js): (r: Render)
    ensures r == Spinner <==> authLoading || roleLoading
    ensures r == Children <==> !authLoading && !roleLoading && signedIn && role == Str("admin")
    ensures r == Forbidden <==> !authLoading && !roleLoading && (!signedIn || role != Str("admin"))
  {
    if roleLoading || authLoading then Spinner
    else if !signedIn || role != Str("admin") then Forbidden
    else Children
  }

  /** Even an admin sees only the spinner while either flag is set. */
  lemma LoadingHidesChildren(authLoading: bool, roleLoading: bool, signedIn: bool)
    requires authLoading || roleLoading
    ensures Decide(authLoading, roleLoading, signedIn, Str("admin")) == Spinner
  {
  }

  /** `useUserRole`'s `role`: the server's answer when the request succeeded, else the default `'user'`. */
  function FetchedRole(reply: Routes.Reply): (role: Js)
    ensures reply.status == Routes.Ok && reply.body.Role? ==> role == reply.body.role
    ensures !(reply.status == Routes.Ok && reply.body.Role?) ==> role == Str("user")
  {
    if reply.status == Routes.Ok && reply.body.Role? then reply.body.role else Str("user")
  }

  /**
    Once loading is over, the page renders the organizer screens for a
    signed-in e-mail exactly when the server's `verifyAdmin` lets that
    e-mail through.
   */
  lemma AgreesWithServer(s: Store.Store, email: string)
    requires email != ""
    ensures Decide(false, false, true, FetchedRole(Routes.GetUserRole(s, email))) == Children
      <==> Auth.VerifyAdmin(s.users, Some(email)).Pass?
  {
  }
}

=== FILE: auth.dfy ===
/**
  Access control on the protected routes: the `verifyFBToken` and
  `verifyAdmin` middlewares and the per-route check that the token's email
  equals the `email` query parameter.

  Firebase's `verifyIdToken` is an oracle: `verify(token)` is `None` when it
  rejects the token and `Some(email)` with the decoded token's (possibly
  missing) email otherwise. The header is meant to read `Bearer <token>`
  (section 2.1 of RFC 6750), but only the second space-separated word is
  used; the scheme word is never inspected.
 */
module Auth {
  import opened Text
  import opened JsValues
  import opened Store

  type Verifier = string -> Option<Option<string>>

  const Unauthorized: nat := 401
  const Forbidden: nat := 403

  /** Outcome of a middleware: continue with the decoded email, or answer with a status. */
  datatype Guard = Pass(email: Option<string>) | Deny(status: nat)

  /** `header.split(" ")[1]`: the text between the first and second space, `None` without a space. */
  function SecondWord(header: string): (r: Option<string>)
    ensures r.None? <==> forall k :: 0 <= k < |header| ==> header[k] != ' '
    ensures r.Some? ==> forall k :: 0 <= k < |r.value| ==> r.value[k] != ' '
    ensures r.Some? ==> (
      var i := IndexOf(header, ' ').value;
      var e := i + 1 + |r.value|;
      e <= |header| && header[i + 1..e] == r.value && (e == |header| || header[e] == ' '))
  {
    match IndexOf(header, ' ')
    case None => None
    case Some(i) =>
      var rest := header[i + 1..];
      var w := match IndexOf(rest, ' ') case None => rest case Some(j) => rest[..j];
      Some(w)
  }

  /** `verifyFBToken`: 401 without a header or without a second word, 403 when the oracle rejects. */
  function VerifyFBToken(header: Option<string>, verify: Verifier): (g: Guard)
    ensures (header.None? || header.value == "") ==> g == Deny(Unauthorized)
    ensures header.Some? && header.value != "" && SecondWord(header.value) in {None, Some("")} ==>
      g == Deny(Unauthorized)
    ensures g.Pass? <==> (
      && header.Some? && header.value != ""
      && SecondWord(header.value).Some? && SecondWord(header.value).value != ""
      && verify(SecondWord(header.value).value).Some?)
    ensures g.Pass? ==> g.email == verify(SecondWord(header.value).value).value
    ensures g.Deny? ==> g.status in {Unauthorized, Forbidden}
  {
    if header.None? || header.value == "" then Deny(Unauthorized)
    else
      var token := SecondWord(header.value);
      if token.None? || token.value == "" then Deny(Unauthorized)
      else match verify(token.value)
        case None => Deny(Forbidden)
        case Some(email) => Pass(email)
  }

  /** `verifyAdmin`: the first user with the token's email must have role `'admin'`. */
  function VerifyAdmin(users: seq<User>, email: Option<string>): (g: Guard)
    ensures g.Pass? <==> (
      && FindUser(users, QueryValue(email)).Some?
      && users[FindUser(users, QueryValue(email)).value].role == Str("admin"))
    ensures g.Pass? ==> g.email == email
    ensures g.Deny? ==> g.status == Forbidden
  {
    match FindUser(users, QueryValue(email))
    case None => Deny(Forbidden)
    case Some(k) => if users[k].role == Str("admin") then Pass(email) else Deny(Forbidden)
  }

  /** `req.decoded.email !== email`: strict comparison, so a missing email matches only a missing one. */
  predicate EmailMatches(decoded: Option<string>, query: Option<string>) {
    decoded == query
  }

  /** On a store with unique emails, `verifyAdmin` admits exactly the holders of an admin user record. */
  lemma VerifyAdminIffAdminExists(s: Store, email: Option<string>)
    requires UniqueEmails(s)
    ensures VerifyAdmin(s.users, email).Pass? <==>
      exists k :: 0 <= k < |s.users| && s.users[k].email == QueryValue(email) && s.users[k].role == Str("admin")
  {
    if k :| 0 <= k < |s.users| && s.users[k].email == QueryValue(email) && s.users[k].role == Str("admin") {
      FindUserUnique(s, QueryValue(email), k);
    }
  }

  /** Any scheme word is accepted: only the text after the first space is verified. */
  lemma SchemeWordIgnored(scheme: string, token: string, verify: Verifier)
    requires forall k :: 0 <= k < |scheme| ==> scheme[k] != ' '
    requires token != "" && (forall k :: 0 <= k < |token| ==> token[k] != ' ')
    ensures VerifyFBToken(Some(scheme + " " + token), verify) == VerifyFBToken(Some("Bearer " + token), verify)
  {
    var h1 := scheme + " " + token;
    var h2 := "Bearer " + token;
    assert IndexOf(h1, ' ') == Some(|scheme|) by {
      assert h1[|scheme|] == ' ';
    }
    assert h1[|scheme| + 1..] == token;
    assert IndexOf(h2, ' ') == Some(6) by {
      assert h2[6] == ' ';
    }
    assert h2[7..] == token;
  }
}

=== FILE: banner.dfy ===
/**
  The home page carousel: three slides, Previous and Next buttons that wrap
  around, an automatic step every four seconds unless the mouse rests on
  the carousel, and one dot per slide. The timer itself is not modelled;
  a tick is one firing of it.
 */
module Banner {
  /** `banners.length`. */
  const Count: nat := 3

  predicate InRange(i: int) { 0 <= i < Count }

  /** `nextSlide`. */
  function Next(current: int): (n: int)
    ensures InRange(current) ==> InRange(n)
    ensures current == Count - 1 ==> n == 0
    ensures current != Count - 1 ==> n == current + 1
  {
    if current == Count - 1 then 0 else current + 1
  }

  /** `prevSlide`. */
  function Prev(current: int): (p: int)
    ensures InRange(current) ==> InRange(p)
    ensures current == 0 ==> p == Count - 1
    ensures current != 0 ==> p == current - 1
  {
    if current == 0 then Count - 1 else current - 1
  }

  /** One timer firing: the Next rule, and no step while paused (no timer is scheduled then). */
  function Tick(paused: bool, current: int): (t: int)
    ensures paused ==> t == current
    ensures !paused ==> t == Next(current)
  {
    if paused then current else Next(current)
  }

  /** A dot sets the slide it stands for. */
  function GoTo(index: nat): (c: int)
    requires index < Count
    ensures InRange(c) && c == index
  {
    index
  }

  /** Next then Previous, or Previous then Next, come back to the same slide. */
  lemma NextPrevInverse(i: int)
    requires InRange(i)
    ensures Prev(Next(i)) == i && Next(Prev(i)) == i
  {
  }

  /** `n` presses of Next. */
  function Advance(current: int, n: nat): int
    decreases n
  {
    if n == 0 then current else Next(Advance(current, n - 1))
  }

  /** `n` presses of Next land on slide `(i + n) mod 3`. */
  lemma {:induction false} AdvanceIsModular(i: int, n: nat)
    requires InRange(i)
    ensures Advance(i, n) == (i + n) % Count
    decreases n
  {
    if n > 0 {
      AdvanceIsModular(i, n - 1);
    }
  }

  /** A full round of Next presses returns to the start, and every slide stays in range. */
  lemma FullRoundReturns(i: int, n: nat)
    requires InRange(i)
    ensures Advance(i, Count) == i
    ensures InRange(Advance(i, n))
  {
    AdvanceIsModular(i, Count);
    AdvanceIsModular(i, n);
  }
}

=== FILE: camp_details.dfy ===
/**
  The camp details page: the registration form, the login guard on the
  "Join Camp" button, the field guard on submit, the login guard inside the
  register mutation, and how a guarded request fares at the server.

  The dialog's form has no `noValidate`, so the browser's constraint
  validation runs before `handleRegister`: `required` on every input,
  `min={0}` on the age, and the `type="number"`/`type="email"` sanitizing
  and format checks. None of it is modelled; `handleRegister` refuses the
  same empty fields, but the model admits a negative age the browser stops.
 */
module CampDetails {
  import opened Text
  import opened JsValues
  import opened ObjectIds
  import Store
  import Routes

  /** `saveUser` as the page reads it; each field may be missing. */
  datatype SavedUser = SavedUser(email: Option<string>, displayName: Option<string>)

  /** `saveUser?.email` is truthy. */
  predicate LoggedIn(user: Option<SavedUser>) {
    user.Some? && user.value.email.Some? && user.value.email.value != ""
  }

  datatype RegistrationForm = RegistrationForm(
    participantName: string,
    participantEmail: string,
    age: string,
    phoneNumber: string,
    gender: string,
    emergencyContact: string)

  /** The form's first state: name and e-mail from the signed-in user, everything else empty. */
  function InitialForm(user: Option<SavedUser>): (f: RegistrationForm)
    ensures user.Some? ==> f.participantEmail == OrEmpty(user.value.email)
    ensures user.Some? ==> f.participantName == OrEmpty(user.value.displayName)
    ensures user.None? ==> f.participantName == "" && f.participantEmail == ""
    ensures f.age == "" && f.phoneNumber == "" && f.gender == "" && f.emergencyContact == ""
  {
    match user
    case None => RegistrationForm("", "", "", "", "", "")
    case Some(u) => RegistrationForm(OrEmpty(u.displayName), OrEmpty(u.email), "", "", "", "")
  }

  /** The inputs that accept typing; the e-mail input is read-only. */
  datatype Field = ParticipantName | Age | PhoneNumber | Gender | EmergencyContact

  /** One `onChange`: the named field takes the new value. */
  function Edit(f: RegistrationForm, field: Field, value: string): (f': RegistrationForm)
    ensures f'.participantEmail == f.participantEmail
    ensures field == ParticipantName ==> f'.participantName == value
    ensures field == Age ==> f'.age == value
    ensures field != ParticipantName ==> f'.participantName == f.participantName
    ensures field != Age ==> f'.age == f.age
    ensures field != PhoneNumber ==> f'.phoneNumber == f.phoneNumber
    ensures field != Gender ==> f'.gender == f.gender
    ensures field != EmergencyContact ==> f'.emergencyContact == f.emergencyContact
  {
    match field
    case ParticipantName => f.(participantName := value)
    case Age => f.(age := value)
    case PhoneNumber => f.(phoneNumber := value)
    case Gender => f.(gender := value)
    case EmergencyContact => f.(emergencyContact := value)
  }

  /** A run of edits, oldest first. */
  function EditAll(f: RegistrationForm, edits: seq<(Field, string)>): RegistrationForm
    decreases |edits|
  {
    if edits == [] then f
    else EditAll(Edit(f, edits[0].0, edits[0].1), edits[1..])
  }

  /** However the user types, the e-mail sent is the signed-in user's. */
  lemma {:induction false} EmailReadOnly(f: RegistrationForm, edits: seq<(Field, string)>)
    ensures EditAll(f, edits).participantEmail == f.participantEmail
    decreases |edits|
  {
    if edits != [] {
      EmailReadOnly(Edit(f, edits[0].0, edits[0].1), edits[1..]);
    }
  }

  predicate AllFilled(f: RegistrationForm) {
    && f.participantName != "" && f.participantEmail != "" && f.age != ""
    && f.phoneNumber != "" && f.gender != "" && f.emergencyContact != ""
  }

  /** The outcome of a submit: a warning, or the mutation started with the form. */
  datatype RegisterAction = Warn(message: string) | Mutate(data: RegistrationForm)

  /** `handleRegister`: nothing is sent while any of the six fields is empty. */
  function HandleRegister(f: RegistrationForm): (a: RegisterAction)
    ensures a.Mutate? <==> AllFilled(f)
    ensures a.Mutate? ==> a.data == f
    ensures a.Warn? ==> a.message == "Please fill all required fields."
  {
    if !AllFilled(f) then Warn("Please fill all required fields.") else Mutate(f)
  }

  /** What pressing "Join Camp" does to the page. */
  datatype OpenResult = OpenResult(modalOpen: bool, error: Option<string>, navigateTo: Option<string>)

  /** `handleOpenModal`: without an e-mail, an error and a trip to `/login`; the modal is not opened. */
  function HandleOpenModal(user: Option<SavedUser>, modalOpen: bool): (r: OpenResult)
    ensures LoggedIn(user) ==> r == OpenResult(true, None, None)
    ensures !LoggedIn(user) ==> (
      && r.modalOpen == modalOpen
      && r.error == Some("Please login first to register.")
      && r.navigateTo == Some("/login"))
  {
    if !LoggedIn(user) then OpenResult(modalOpen, Some("Please login first to register."), Some("/login"))
    else OpenResult(true, None, None)
  }

  /** A closed modal opens only for a signed-in user. */
  lemma ModalOpensOnlyWhenLoggedIn(user: Option<SavedUser>)
    ensures HandleOpenModal(user, false).modalOpen <==> LoggedIn(user)
  {
  }

  /** The JSON body the mutation posts: every field as a string. */
  function AsBody(f: RegistrationForm): (b: Routes.ParticipantBody)
    ensures b.participantEmail == Str(f.participantEmail) && b.participantName == Str(f.participantName)
    ensures b.age == Str(f.age) && b.phoneNumber == Str(f.phoneNumber)
    ensures b.gender == Str(f.gender) && b.emergencyContact == Str(f.emergencyContact)
  {
    Routes.ParticipantBody(Str(f.participantName), Str(f.participantEmail), Str(f.age),
                           Str(f.phoneNumber), Str(f.gender), Str(f.emergencyContact))
  }

  /** The page's field check and the server's agree: a body passes one exactly when it passes the other. */
  lemma GuardsAgree(f: RegistrationForm)
    ensures Routes.ParticipantFieldsPresent(AsBody(f)) <==> HandleRegister(f).Mutate?
  {
  }

  /** The mutation either throws before any request or posts to `/participant/register/:id`. */
  datatype MutationResult = Thrown(message: string) | Post(campId: string, body: Routes.ParticipantBody)

  /** `mutationFn`: throws when the user has no e-mail, else posts the form. */
  function MutationFn(user: Option<SavedUser>, campId: string, data: RegistrationForm): (m: MutationResult)
    ensures m.Thrown? <==> !LoggedIn(user)
    ensures m.Thrown? ==> m.message == "Please login to join the camp"
    ensures m.Post? ==> m.campId == campId && m.body == AsBody(data)
  {
    if !LoggedIn(user) then Thrown("Please login to join the camp") else Post(campId, AsBody(data))
  }

  /** `onError`: the text shown and whether the page moves to `/login`. */
  function OnError(responseMessage: Option<string>, message: string): (r: (string, bool))
    ensures r.0 != ""
    ensures r.1 <==> Contains(message, "login")
    ensures responseMessage.Some? && responseMessage.value != "" ==> r.0 == responseMessage.value
    ensures OrEmpty(responseMessage) == "" && message != "" ==> r.0 == message
  {
    var shown :=
      if responseMessage.Some? && responseMessage.value != "" then responseMessage.value
      else if message != "" then message
      else "Failed to register";
    (shown, Contains(message, "login"))
  }

  /** The mutation's own login error sends the visitor to the login page. */
  lemma SignedOutMutationGoesToLogin(user: Option<SavedUser>, campId: string, data: RegistrationForm)
    requires !LoggedIn(user)
    ensures OnError(None, MutationFn(user, campId, data).message).1
  {
    assert "Please login to join the camp" == "Please " + "login" + " to join the camp";
    ContainsInfix("Please ", "login", " to join the camp");
  }

  /**
    A registration the page lets through, for a signed-in user and an
    existing camp, is created by the server.
   */
  lemma CheckedRegistrationCreated(s: Store.Store, user: Option<SavedUser>, campIdText: string, f: RegistrationForm)
    requires Store.Valid(s) && LoggedIn(user) && HandleRegister(f).Mutate?
    requires ParseObjectId(campIdText).Some? && ParseObjectId(campIdText).value in s.camps
    ensures MutationFn(user, campIdText, f).Post?
    ensures var m := MutationFn(user, campIdText, f); Routes.Register(s, m.campId, m.body).status == Routes.Created
  {
    assert Store.FreshId(s) !in s.registrations;
  }
}

=== FILE: dashboard_layout.dfy ===
/**
  The dashboard's side menu: Home, then the four organizer entries for an
  admin whose role has loaded, then the four participant entries.
 */
module DashboardLayout {
  import opened JsValues
  import AdminRoute

  datatype MenuItem = MenuItem(key: string, caption: string)

  function Home(): MenuItem { MenuItem("/dashboard", "Home") }

  function OrganizerEntries(): seq<MenuItem> {
    [ MenuItem("/dashboard/organizer-profile", "Organizer Profile"),
      MenuItem("/dashboard/add-camp", "Add A Camp"),
      MenuItem("/dashboard/organizer-manager-camps", "Manage Camps"),
      MenuItem("/dashboard/organizer-manager-reg", "Manage Registered Camps") ]
  }

  function ParticipantEntries(): seq<MenuItem> {
    [ MenuItem("/dashboard/participant-charts", "Analytics"),
      MenuItem("/dashboard/participant-profile", "Participant Profile"),
      MenuItem("/dashboard/participant-camps", "Registered Camps"),
      MenuItem("/dashboard/paymentHistory", "Payment History") ]
  }

  /** `!roleLoading && role === 'admin'`. */
  predicate ShowsOrganizer(role: Js, roleLoading: bool) {
    !roleLoading && role == Str("admin")
  }

  /** `menuItems`. */
  function MenuItems(role: Js, roleLoading: bool): (items: seq<MenuItem>)
    ensures |items| == if ShowsOrganizer(role, roleLoading) then 9 else 5
    ensures items[0] == Home()
    ensures items[|items| - 4..] == ParticipantEntries()
    ensures ShowsOrganizer(role, roleLoading) ==> items[1..5] == OrganizerEntries()
  {
    [Home()] + (if ShowsOrganizer(role, roleLoading) then OrganizerEntries() else []) + ParticipantEntries()
  }

  /** An organizer entry is listed exactly when the role has loaded as `'admin'`. */
  lemma OrganizerEntriesIff(role: Js, roleLoading: bool, k: nat)
    requires k < 4
    ensures OrganizerEntries()[k] in MenuItems(role, roleLoading) <==> ShowsOrganizer(role, roleLoading)
  {
    var items := MenuItems(role, roleLoading);
    if !ShowsOrganizer(role, roleLoading) {
      assert items == [Home()] + ParticipantEntries();
    } else {
      assert items[1 + k] == OrganizerEntries()[k];
    }
  }

  /**
    For a signed-in visitor whose sign-in has settled, the organizer
    entries are offered exactly when the admin guard would open their pages.
   */
  lemma MenuMatchesAdminRoute(role: Js, roleLoading: bool)
    ensures ShowsOrganizer(role, roleLoading)
      <==> AdminRoute.Decide(false, roleLoading, true, role) == AdminRoute.Children
  {
  }
}

=== FILE: js_values.dfy ===
/**
  The JavaScript values that arrive in JSON request bodies and query strings,
  with the three coercions the server relies on: truthiness (`if (!x)`),
  the `||` default operator, and `Number(x)`.

  Numbers are integer-valued here; a fee counts in the currency's minor unit.
 */
module JsValues {
  import opened Text

  datatype Js = Undefined | Null | Bool(b: bool) | Num(n: int) | NaN | Str(s: string)

  /** JavaScript truthiness: `undefined`, `null`, `false`, `0`, `NaN` and `""` are falsy. */
  predicate Truthy(v: Js) {
    match v
    case Undefined => false
    case Null => false
    case Bool(b) => b
    case Num(n) => n != 0
    case NaN => false
    case Str(s) => s != ""
  }

  /** `a || b`. */
  function Or(a: Js, b: Js): (r: Js)
    ensures Truthy(a) ==> r == a
    ensures !Truthy(a) ==> r == b
  {
    if Truthy(a) then a else b
  }

  /** An optional sign followed by one or more decimal digits, as an integer. */
  function ParseIntLiteral(t: string): (r: Option<int>)
    ensures r.Some? <==>
      (|t| >= 1 && AllDigits(t)) || (|t| >= 2 && (t[0] == '-' || t[0] == '+') && AllDigits(t[1..]))
  {
    if |t| >= 1 && AllDigits(t) then Some(DecimalValue(t))
    else if |t| >= 2 && t[0] == '-' && AllDigits(t[1..]) then Some(0 - DecimalValue(t[1..]) as int)
    else if |t| >= 2 && t[0] == '+' && AllDigits(t[1..]) then Some(DecimalValue(t[1..]))
    else None
  }

  /** The value of a hexadecimal digit (`0`-`9`, `a`-`f`, `A`-`F`); 16 for any other character. */
  function DigitValue(c: char): (d: nat)
    ensures d <= 16
    ensures d < 10 <==> IsDigit(c)
    ensures IsDigit(c) ==> d == c as int - '0' as int
  {
    if '0' <= c <= '9' then c as int - '0' as int
    else if 'a' <= c <= 'f' then c as int - 'a' as int + 10
    else if 'A' <= c <= 'F' then c as int - 'A' as int + 10
    else 16
  }

  predicate AllRadixDigits(s: string, radix: nat) {
    forall k :: 0 <= k < |s| ==> DigitValue(s[k]) < radix
  }

  /** The number a string of base-`radix` digits denotes, most significant first. */
  function RadixValue(s: string, radix: nat): nat
    requires AllRadixDigits(s, radix)
  {
    if s == [] then 0 else RadixValue(s[..|s| - 1], radix) * radix + DigitValue(s[|s| - 1])
  }

  function Pow10(k: nat): (p: nat)
    ensures p >= 1
  {
    if k == 0 then 1 else 10 * Pow10(k - 1)
  }

  /** The radix a `0x`, `0o` or `0b` prefix (either case) announces. */
  function RadixPrefix(t: string): (r: Option<nat>)
    ensures r.Some? <==> |t| >= 2 && t[0] == '0' && t[1] in "xXoObB"
    ensures r.Some? ==> (r.value == 16 <==> t[1] in "xX") && (r.value == 8 <==> t[1] in "oO")
                        && (r.value == 2 <==> t[1] in "bB")
  {
    if |t| < 2 || t[0] != '0' then None
    else if t[1] == 'x' || t[1] == 'X' then Some(16)
    else if t[1] == 'o' || t[1] == 'O' then Some(8)
    else if t[1] == 'b' || t[1] == 'B' then Some(2)
    else None
  }

  predicate IsExponentMark(c: char) { c == 'e' || c == 'E' }

  /** The position of the first `e` or `E`. */
  function ExponentMark(s: string): (r: Option<nat>)
    ensures r.Some? ==> r.value < |s| && IsExponentMark(s[r.value])
    ensures r.Some? ==> forall k :: 0 <= k < r.value ==> !IsExponentMark(s[k])
    ensures r.None? ==> forall k :: 0 <= k < |s| ==> !IsExponentMark(s[k])
    decreases |s|
  {
    if s == [] then None
    else if IsExponentMark(s[0]) then Some(0)
    else match ExponentMark(s[1..])
      case None => None
      case Some(k) => Some(k + 1)
  }

  /**
    A mantissa `digits`, `digits.`, `digits.digits` or `.digits`: the value of
    all its digits read as one integer, and the number of digits after the dot.
   */
  function Mantissa(m: string): (r: Option<(nat, nat)>)
    ensures IndexOf(m, '.').None? ==> (r.Some? <==> |m| >= 1 && AllDigits(m))
    ensures IndexOf(m, '.').None? && r.Some? ==> r.value == (DecimalValue(m), 0)
  {
    match IndexOf(m, '.')
    case None => if |m| >= 1 && AllDigits(m) then Some((DecimalValue(m), 0)) else None
    case Some(i) =>
      var whole := m[..i];
      var fraction := m[i + 1..];
      if AllDigits(whole) && AllDigits(fraction) && |whole| + |fraction| >= 1 then
        assert AllDigits(whole + fraction) by {
          assert forall k :: 0 <= k < |whole| ==> (whole + fraction)[k] == whole[k];
          assert forall k :: |whole| <= k < |whole + fraction| ==> (whole + fraction)[k] == fraction[k - |whole|];
        }
        Some((DecimalValue(whole + fraction), |fraction|))
      else None
  }

  /** `n` times ten to the power `shift`, when that is a whole number. */
  function Scale(n: nat, shift: int): (r: Option<int>)
    ensures shift >= 0 ==> r == Some(n * Pow10(shift))
    ensures shift < 0 ==> (r.Some? <==> n % Pow10(-shift) == 0)
    ensures shift < 0 && r.Some? ==> r.value * Pow10(-shift) == n
    ensures r.Some? ==> r.value >= 0
  {
    if shift >= 0 then Some(n * Pow10(shift))
    else if n % Pow10(-shift) == 0 then Some(n / Pow10(-shift))
    else None
  }

  /**
    An unsigned decimal literal with an optional exponent, split into the
    value of all its mantissa digits and the power of ten that scales it.
   */
  function DecimalParts(u: string): (r: Option<(nat, int)>)
  {
    var mark := ExponentMark(u);
    var mantissa := if mark.Some? then u[..mark.value] else u;
    var exponent := if mark.Some? then ParseIntLiteral(u[mark.value + 1..]) else Some(0);
    if Mantissa(mantissa).None? || exponent.None? then None
    else Some((Mantissa(mantissa).value.0, exponent.value - Mantissa(mantissa).value.1))
  }

  /** An unsigned decimal literal with an optional exponent, when its value is a whole number. */
  function UnsignedDecimal(u: string): (r: Option<int>)
    ensures r.Some? ==> r.value >= 0
  {
    match DecimalParts(u)
    case None => None
    case Some(parts) => Scale(parts.0, parts.1)
  }

  /**
    `Number` on trimmed, non-empty text: a `0x`/`0o`/`0b` literal with no
    sign, or a signed decimal literal with an optional fraction and exponent.
    None stands for NaN, and for values that are not whole numbers.
   */
  function StringToInteger(t: string): (r: Option<int>)
    requires t != []
    ensures RadixPrefix(t).Some? ==> (r.Some? <==> |t| >= 3 && AllRadixDigits(t[2..], RadixPrefix(t).value))
  {
    match RadixPrefix(t)
    case Some(radix) =>
      if |t| >= 3 && AllRadixDigits(t[2..], radix) then Some(RadixValue(t[2..], radix)) else None
    case None =>
      if t[0] == '-' then
        match UnsignedDecimal(t[1..])
        case Some(n) => Some(-n)
        case None => None
      else if t[0] == '+' then UnsignedDecimal(t[1..])
      else UnsignedDecimal(t)
  }

  /** `Number(v)`; the result is always a number (possibly NaN). */
  function ToNumber(v: Js): (r: Js)
    ensures r.Num? || r.NaN?
    ensures v.Num? || v.NaN? ==> r == v
    ensures v.Undefined? ==> r.NaN?
    ensures v.Null? ==> r == Num(0)
    ensures v.Bool? ==> r == Num(if v.b then 1 else 0)
    ensures v.Str? && Trim(v.s) == "" ==> r == Num(0)
  {
    match v
    case Undefined => NaN
    case Null => Num(0)
    case Bool(b) => if b then Num(1) else Num(0)
    case Num(n) => v
    case NaN => NaN
    case Str(s) =>
      var t := Trim(s);
      if t == "" then Num(0)
      else match StringToInteger(t)
        case Some(n) => Num(n)
        case None => NaN
  }

  /** Text with no white space at either end is its own trim. */
  lemma TrimUnpadded(s: string)
    requires s != [] ==> !IsSpace(s[0]) && !IsSpace(s[|s| - 1])
    ensures Trim(s) == s
  {
    var a := TrimStart(s);
    assert a == s;
    var r := TrimEnd(s);
    assert r == s;
  }

  /** Plain decimal digits read as their value. */
  lemma DigitsDecimal(d: string)
    requires |d| >= 1 && AllDigits(d)
    ensures UnsignedDecimal(d) == Some(DecimalValue(d))
  {
    assert ExponentMark(d).None? by {
      assert forall k :: 0 <= k < |d| ==> !IsExponentMark(d[k]);
    }
    assert IndexOf(d, '.').None? by {
      assert forall k :: 0 <= k < |d| ==> d[k] != '.';
    }
    assert Mantissa(d) == Some((DecimalValue(d), 0));
    assert DecimalParts(d) == Some((DecimalValue(d), 0));
  }

  /** `Number` of text with no white space at either end is the integer the text denotes, or NaN. */
  lemma UnpaddedNumber(t: string, n: Option<int>)
    requires t != [] && !IsSpace(t[0]) && !IsSpace(t[|t| - 1])
    requires StringToInteger(t) == n
    ensures ToNumber(Str(t)) == if n.Some? then Num(n.value) else NaN
  {
    TrimUnpadded(t);
  }

  /** Decimal digits without a leading zero read as their value. */
  lemma PlainDigitsInteger(d: string)
    requires |d| >= 1 && AllDigits(d) && (d[0] != '0' || |d| == 1)
    ensures StringToInteger(d) == Some(DecimalValue(d))
  {
    DigitsDecimal(d);
    assert RadixPrefix(d).None? by {
      if |d| >= 2 {
        assert d[0] != '0';
      }
    }
  }

  /** A minus sign before decimal digits negates their value. */
  lemma NegativeDigitsInteger(t: string)
    requires |t| >= 2 && t[0] == '-' && AllDigits(t[1..])
    ensures StringToInteger(t) == Some(-(DecimalValue(t[1..]) as int))
  {
    DigitsDecimal(t[1..]);
    MinusInteger(t);
  }

  /** A leading minus sign negates the unsigned literal after it. */
  lemma MinusInteger(t: string)
    requires |t| >= 2 && t[0] == '-'
    ensures StringToInteger(t) == match UnsignedDecimal(t[1..]) case Some(n) => Some(-n) case None => None
  {
    assert RadixPrefix(t).None?;
  }

  /** The literal reading takes back what `toString` writes for any integer. */
  lemma IntegerTextInteger(i: int)
    ensures StringToInteger(IntToString(i)) == Some(i)
  {
    var n: nat := if i < 0 then -i else i;
    var d := NatToDecimal(n);
    DecimalRoundTrip(n);
    if i < 0 {
      NegativeDigitsInteger(IntToString(i));
    } else {
      PlainDigitsInteger(d);
    }
  }

  /** `Number` reads back what `toString` writes for any integer. */
  lemma IntegerTextNumber(i: int)
    ensures ToNumber(Str(IntToString(i))) == Num(i)
  {
    var t := IntToString(i);
    var d := NatToDecimal(if i < 0 then -i else i);
    IntegerTextInteger(i);
    assert t[|t| - 1] == d[|d| - 1] by {
      if i < 0 {
        assert t[1..] == d;
      }
    }
    assert IsDigit(t[0]) || t[0] == '-';
    UnpaddedNumber(t, Some(i));
  }

  /** A `0x`, `0o` or `0b` literal reads as its digits in that base. */
  lemma PrefixedLiteralNumber(x: char, digits: string, radix: nat)
    requires (radix == 16 && x in "xX") || (radix == 8 && x in "oO") || (radix == 2 && x in "bB")
    requires |digits| >= 1 && AllRadixDigits(digits, radix)
    ensures ToNumber(Str(['0', x] + digits)) == Num(RadixValue(digits, radix))
  {
    var t := ['0', x] + digits;
    assert t[2..] == digits;
    assert StringToInteger(t) == Some(RadixValue(digits, radix));
    assert t[|t| - 1] == digits[|digits| - 1];
    UnpaddedNumber(t, Some(RadixValue(digits, radix)));
  }

  /** A sign in front of a `0x`, `0o` or `0b` literal makes it NaN. */
  lemma SignedPrefixedLiteralIsNaN(sign: char, x: char, digits: string, radix: nat)
    requires sign == '-' || sign == '+'
    requires (radix == 16 && x in "xX") || (radix == 8 && x in "oO") || (radix == 2 && x in "bB")
    requires |digits| >= 1 && AllRadixDigits(digits, radix)
    ensures ToNumber(Str([sign, '0', x] + digits)) == NaN
  {
    var t := [sign, '0', x] + digits;
    var u := t[1..];
    assert u[0] == '0' && u[1] == x;
    NotDecimal(u);
    assert StringToInteger(t) == None;
    assert t[|t| - 1] == digits[|digits| - 1];
    UnpaddedNumber(t, None);
  }

  /** Text whose second character is a letter other than `e`, after a digit, is no decimal literal. */
  lemma NotDecimal(u: string)
    requires |u| >= 2 && IsDigit(u[0])
    requires !IsDigit(u[1]) && u[1] != '.' && !IsExponentMark(u[1])
    ensures UnsignedDecimal(u) == None
  {
    var mark := ExponentMark(u);
    var m := if mark.Some? then u[..mark.value] else u;
    assert |m| >= 2 && m[1] == u[1];
    MantissaRejects(m);
    assert DecimalParts(u).None?;
  }

  /** A digit followed by neither a digit nor a dot starts no mantissa. */
  lemma MantissaRejects(m: string)
    requires |m| >= 2 && IsDigit(m[0]) && !IsDigit(m[1]) && m[1] != '.'
    ensures Mantissa(m).None?
  {
    match IndexOf(m, '.')
    case None =>
      assert !AllDigits(m);
    case Some(i) =>
      assert m[..i][1] == m[1];
  }

  /** `digits e digits` reads as the first number times ten to the power of the second. */
  lemma ExponentLiteralNumber(d: string, e: string)
    requires |d| >= 1 && AllDigits(d) && |e| >= 1 && AllDigits(e)
    ensures ToNumber(Str(d + "e" + e)) == Num(DecimalValue(d) * Pow10(DecimalValue(e)))
  {
    var t := d + "e" + e;
    ExponentInteger(d, e);
    assert t[0] == d[0] && t[|t| - 1] == e[|e| - 1];
    UnpaddedNumber(t, Some(DecimalValue(d) * Pow10(DecimalValue(e))));
  }

  lemma ExponentInteger(d: string, e: string)
    requires |d| >= 1 && AllDigits(d) && |e| >= 1 && AllDigits(e)
    ensures StringToInteger(d + "e" + e) == Some(DecimalValue(d) * Pow10(DecimalValue(e)))
  {
    var t := d + "e" + e;
    ExponentDecimal(d, e);
    assert t[0] == d[0];
    assert RadixPrefix(t).None? by {
      if |d| >= 2 {
        assert t[1] == d[1];
      }
    }
  }

  lemma ExponentDecimal(d: string, e: string)
    requires |d| >= 1 && AllDigits(d) && |e| >= 1 && AllDigits(e)
    ensures UnsignedDecimal(d + "e" + e) == Some(DecimalValue(d) * Pow10(DecimalValue(e)))
  {
    var t := d + "e" + e;
    assert ExponentMark(t) == Some(|d|) by {
      assert forall k :: 0 <= k < |d| ==> t[k] == d[k];
      assert t[|d|] == 'e';
    }
    assert t[..|d|] == d;
    assert t[|d| + 1..] == e;
    MantissaOfDigits(d);
    DecimalPartsAt(t, |d|, DecimalValue(d), 0, DecimalValue(e));
  }

  /** Plain digits are a mantissa with no digits after a dot. */
  lemma MantissaOfDigits(d: string)
    requires |d| >= 1 && AllDigits(d)
    ensures Mantissa(d) == Some((DecimalValue(d), 0))
  {
    assert IndexOf(d, '.').None? by {
      assert forall k :: 0 <= k < |d| ==> d[k] != '.';
    }
  }

  /**
    A literal whose first exponent mark sits at `i`, with mantissa `n` over
    `f` fraction digits before it and exponent `x` after it, is `n` scaled by
    `x - f`.
   */
  lemma DecimalPartsAt(u: string, i: nat, n: nat, f: nat, x: int)
    requires ExponentMark(u) == Some(i)
    requires Mantissa(u[..i]) == Some((n, f))
    requires ParseIntLiteral(u[i + 1..]) == Some(x)
    ensures UnsignedDecimal(u) == Scale(n, x - f)
  {
  }

  /** `Number(v) || 0` as an amount: NaN and every non-numeric value count as 0. */
  function AmountOf(v: Js): (r: int)
    ensures v.Num? ==> r == v.n
    ensures v.NaN? || v.Undefined? || v.Null? ==> r == 0
  {
    var x := ToNumber(v);
    if Truthy(x) then x.n else 0
  }

  /** A query-string parameter; a missing one is matched against stored `null`s by the driver. */
  function QueryValue(o: Option<string>): (r: Js)
    ensures o.None? <==> r == Null
    ensures o.Some? ==> r == Str(o.value)
  {
    match o
    case None => Null
    case Some(s) => Str(s)
  }
}

=== FILE: lifecycle.dfy ===
/**
  Properties of the server across requests: every mutating handler keeps
  the store invariant `Store.Valid`, and the registration lifecycle
  (register, pay, confirm, give feedback, cancel) behaves as the handlers
  are written: a paid registration can still be cancelled or paid again,
  and feedback can be given more than once.
 */
module Lifecycle {
  import opened Text
  import opened JsValues
  import opened ObjectIds
  import opened Store
  import opened Auth
  import opened Routes

  // ------------------------------------------------- invariant preservation

  lemma PostCampPreservesValid(s: Store, b: CampBody)
    requires Valid(s)
    ensures Valid(PostCamp(s, b).store)
  {
    var r := PostCamp(s, b);
    if r.status == Created {
      var id := FreshId(s);
      forall c | c in r.store.camps
        ensures r.store.camps[c].participantCount == |RegistrationsOf(r.store.registrations, c)|
      {
        if c == id {
          assert RegistrationsOf(s.registrations, id) == {} by {
            forall x | x in s.registrations ensures s.registrations[x].campId != id {
            }
          }
        }
      }
    }
  }

  lemma UpdateCampPreservesValid(s: Store, idText: string, u: CampUpdate)
    requires Valid(s)
    ensures Valid(UpdateCamp(s, idText, u).store)
  {
    var s' := UpdateCamp(s, idText, u).store;
    if s' != s {
      var id := ParseObjectId(idText).value;
      assert s'.registrations == s.registrations && s'.users == s.users && s'.nextId == s.nextId;
      assert forall c :: c in s.camps ==> (
        && c in s'.camps
        && s'.camps[c].participantCount == s.camps[c].participantCount
        && s'.camps[c].campFees == s.camps[c].campFees);
      assert IdsIssued(s');
      assert CountsMatch(s');
      assert FeesAgree(s');
    }
  }

  lemma DeleteCampPreservesValid(s: Store, idText: string)
    requires Valid(s)
    ensures Valid(DeleteCamp(s, idText).store)
  {
  }

  lemma RegisterPreservesValid(s: Store, campIdText: string, b: ParticipantBody)
    requires Valid(s)
    ensures Valid(Register(s, campIdText, b).store)
  {
    var r := Register(s, campIdText, b);
    if r.status == Created {
      var rid, cid := FreshId(s), ParseObjectId(campIdText).value;
      var reg := r.store.registrations[rid];
      assert r.store.registrations == s.registrations[rid := reg];
      assert r.store.camps == s.camps[cid := s.camps[cid].(participantCount := s.camps[cid].participantCount + 1)];
      InsertRegistrationValid(s, reg);
    }
  }

  /** The store `register` writes: the registration under the fresh id, its camp's count one higher. */
  lemma InsertRegistrationValid(s: Store, reg: Registration)
    requires Valid(s) && reg.campId in s.camps && FreshId(s) !in s.registrations
    requires reg.campFees == s.camps[reg.campId].campFees
    ensures var cid := reg.campId;
      Valid(s.(registrations := s.registrations[FreshId(s) := reg],
               camps := s.camps[cid := s.camps[cid].(participantCount := s.camps[cid].participantCount + 1)],
               nextId := s.nextId + 1))
  {
    var rid, cid := FreshId(s), reg.campId;
    var s' := s.(registrations := s.registrations[rid := reg],
                 camps := s.camps[cid := s.camps[cid].(participantCount := s.camps[cid].participantCount + 1)],
                 nextId := s.nextId + 1);
    assert IdsIssued(s');
    InsertRegistrationCounts(s, reg);
    assert FeesAgree(s');
  }

  /** The counter increment in `register` matches the inserted registration. */
  lemma InsertRegistrationCounts(s: Store, reg: Registration)
    requires CountsMatch(s) && reg.campId in s.camps && FreshId(s) !in s.registrations
    ensures var cid := reg.campId;
      CountsMatch(s.(registrations := s.registrations[FreshId(s) := reg],
                     camps := s.camps[cid := s.camps[cid].(participantCount := s.camps[cid].participantCount + 1)]))
  {
    var rid, cid := FreshId(s), reg.campId;
    var camps := s.camps[cid := s.camps[cid].(participantCount := s.camps[cid].participantCount + 1)];
    var regs := s.registrations[rid := reg];
    forall c | c in camps
      ensures camps[c].participantCount == |RegistrationsOf(regs, c)|
    {
      RegistrationsOfInsert(s.registrations, rid, reg, c);
    }
  }

  lemma CancelPreservesValid(s: Store, idText: string)
    requires Valid(s)
    ensures Valid(Cancel(s, idText).store)
  {
    var r := Cancel(s, idText);
    if r.status == Ok {
      var s' := r.store;
      var rid := ParseObjectId(idText).value;
      assert s'.users == s.users && s'.nextId == s.nextId;
      assert forall c :: c in s.camps ==> s'.camps[c].campFees == s.camps[c].campFees;
      assert IdsIssued(s');
      assert CountsMatch(s') by {
        forall c | c in s'.camps
          ensures s'.camps[c].participantCount == |RegistrationsOf(s'.registrations, c)|
        {
          RegistrationsOfRemove(s.registrations, rid, c);
        }
      }
      assert FeesAgree(s');
      assert UniqueEmails(s');
    }
  }

  lemma PayPreservesValid(s: Store, idText: string, transactionId: Js)
    requires Valid(s)
    ensures Valid(Pay(s, idText, transactionId).store)
  {
    var r := Pay(s, idText, transactionId);
    if r.status == Ok {
      var rid := ParseObjectId(idText).value;
      var reg := r.store.registrations[rid];
      assert r.store.registrations == s.registrations[rid := reg];
      forall c | c in r.store.camps
        ensures r.store.camps[c].participantCount == |RegistrationsOf(r.store.registrations, c)|
      {
        RegistrationsOfUpdate(s.registrations, rid, reg, c);
      }
    }
  }

  lemma ConfirmPreservesValid(s: Store, idText: string)
    requires Valid(s)
    ensures Valid(Confirm(s, idText).store)
  {
    var r := Confirm(s, idText);
    if r.status == Ok {
      var rid := ParseObjectId(idText).value;
      var reg := r.store.registrations[rid];
      forall c | c in r.store.camps
        ensures r.store.camps[c].participantCount == |RegistrationsOf(r.store.registrations, c)|
      {
        RegistrationsOfUpdate(s.registrations, rid, reg, c);
      }
    }
  }

  lemma FeedbackPreservesValid(s: Store, idText: string, rating: Js, comment: Js)
    requires Valid(s)
    ensures Valid(SubmitFeedback(s, idText, rating, comment).store)
  {
  }

  lemma PostUserPreservesValid(s: Store, b: UserBody)
    requires Valid(s)
    ensures Valid(PostUser(s, b).store)
  {
  }

  lemma PatchUserRolePreservesValid(s: Store, header: Option<string>, verify: Verifier, idText: string, role: Js)
    requires Valid(s)
    ensures Valid(PatchUserRole(s, header, verify, idText, role).store)
  {
  }

  /** Every mutating request keeps the store invariant. */
  lemma DispatchPreservesValid(s: Store, req: Request, verify: Verifier)
    requires Valid(s)
    ensures Valid(Dispatch(s, req, verify).store)
  {
    var s' := Dispatch(s, req, verify).store;
    match req
    case PostCampRequest(b) =>
      assert s' == PostCamp(s, b).store;
      PostCampPreservesValid(s, b);
    case UpdateCampRequest(id, u) =>
      assert s' == UpdateCamp(s, id, u).store;
      UpdateCampPreservesValid(s, id, u);
    case DeleteCampRequest(id) =>
      assert s' == DeleteCamp(s, id).store;
      DeleteCampPreservesValid(s, id);
    case RegisterRequest(id, b) =>
      assert s' == Register(s, id, b).store;
      RegisterPreservesValid(s, id, b);
    case CancelRequest(id) =>
      assert s' == Cancel(s, id).store;
      CancelPreservesValid(s, id);
    case PayRequest(id, t) =>
      assert s' == Pay(s, id, t).store;
      PayPreservesValid(s, id, t);
    case ConfirmRequest(id) =>
      assert s' == Confirm(s, id).store;
      ConfirmPreservesValid(s, id);
    case FeedbackRequest(id, rating, comment) =>
      assert s' == SubmitFeedback(s, id, rating, comment).store;
      FeedbackPreservesValid(s, id, rating, comment);
    case PostUserRequest(b) =>
      assert s' == PostUser(s, b).store;
      PostUserPreservesValid(s, b);
    case PatchRoleRequest(h, id, role) =>
      assert s' == PatchUserRole(s, h, verify, id, role).store;
      PatchUserRolePreservesValid(s, h, verify, id, role);
  }

  /** Any sequence of requests from the empty database keeps every camp's count equal to its registrations. */
  lemma {:induction false} RunPreservesValid(s: Store, reqs: seq<Request>, verify: Verifier)
    requires Valid(s)
    ensures Valid(Run(s, reqs, verify))
    decreases |reqs|
  {
    if reqs != [] {
      DispatchPreservesValid(s, reqs[0], verify);
      RunPreservesValid(Dispatch(s, reqs[0], verify).store, reqs[1..], verify);
    }
  }

  lemma CountsMatchAfterAnyRun(reqs: seq<Request>, verify: Verifier, c: ObjectId)
    ensures var s := Run(EmptyStore(), reqs, verify);
      c in s.camps ==> s.camps[c].participantCount == |RegistrationsOf(s.registrations, c)|
  {
    EmptyStoreValid();
    RunPreservesValid(EmptyStore(), reqs, verify);
  }

  // ------------------------------------------------------ the lifecycle

  /** On a valid store, a complete registration for an existing camp always succeeds. */
  lemma RegisterSucceeds(s: Store, campIdText: string, b: ParticipantBody)
    requires Valid(s)
    requires ParticipantFieldsPresent(b)
    requires ParseObjectId(campIdText).Some? && ParseObjectId(campIdText).value in s.camps
    ensures Register(s, campIdText, b).status == Created
  {
    assert FreshId(s) !in s.registrations;
  }

  /** Nothing stops the same email registering for the same camp twice: both registrations are kept. */
  lemma DuplicateRegistrationAccepted(s: Store, campIdText: string, b: ParticipantBody, earlier: ObjectId)
    requires Valid(s)
    requires ParticipantFieldsPresent(b)
    requires ParseObjectId(campIdText).Some? && ParseObjectId(campIdText).value in s.camps
    requires earlier in s.registrations
    requires s.registrations[earlier].campId == ParseObjectId(campIdText).value
    requires s.registrations[earlier].participantEmail == b.participantEmail
    ensures var r := Register(s, campIdText, b);
      && r.status == Created
      && earlier in r.store.registrations && FreshId(s) in r.store.registrations && earlier != FreshId(s)
      && r.store.registrations[earlier].campId == r.store.registrations[FreshId(s)].campId
      && r.store.registrations[earlier].participantEmail == r.store.registrations[FreshId(s)].participantEmail
  {
    RegisterSucceeds(s, campIdText, b);
  }

  /** Registering and then cancelling the new registration restores the store, apart from the spent identifier. */
  lemma RegisterThenCancel(s: Store, campIdText: string, b: ParticipantBody)
    requires Valid(s) && s.nextId < IdLimit
    requires ParticipantFieldsPresent(b)
    requires ParseObjectId(campIdText).Some? && ParseObjectId(campIdText).value in s.camps
    ensures var r1 := Register(s, campIdText, b);
      var r2 := Cancel(r1.store, ObjectIdText(FreshId(s)));
      r1.status == Created && r2.status == Ok && r2.store == s.(nextId := s.nextId + 1)
  {
    RegisterSucceeds(s, campIdText, b);
    ParseObjectIdText(FreshId(s));
    var r1 := Register(s, campIdText, b);
    var rid, cid := FreshId(s), ParseObjectId(campIdText).value;
    var camp := s.camps[cid];
    var s1 := r1.store;
    assert s1.registrations[rid].campId == cid;
    var r2 := Cancel(s1, ObjectIdText(rid));
    assert r2.store == s1.(camps := s1.camps[cid := s1.camps[cid].(participantCount := s1.camps[cid].participantCount - 1)],
                           registrations := s1.registrations - {rid});
    assert s1.registrations - {rid} == s.registrations by {
      assert s1.registrations == s.registrations[rid := s1.registrations[rid]];
    }
    assert s1.camps[cid := s1.camps[cid].(participantCount := s1.camps[cid].participantCount - 1)] == s.camps by {
      assert s1.camps == s.camps[cid := camp.(participantCount := camp.participantCount + 1)];
    }
  }

  /** A registration read back by the participant listing carries the camp's fee and starts unpaid and pending. */
  lemma RegisteredRowListed(s: Store, campIdText: string, b: ParticipantBody, email: string,
                            header: Option<string>, verify: Verifier)
    requires Valid(s)
    requires ParticipantFieldsPresent(b) && b.participantEmail == Str(email) && email != ""
    requires ParseObjectId(campIdText).Some? && ParseObjectId(campIdText).value in s.camps
    requires VerifyFBToken(header, verify) == Pass(Some(email))
    ensures var s' := Register(s, campIdText, b).store;
      var camp := s.camps[ParseObjectId(campIdText).value];
      RegistrationRow(FreshId(s), camp.campName, camp.campFees, b.participantName, Unpaid, Pending)
        in GetParticipantCamps(s', header, verify, Some(email)).rows
  {
    RegisterSucceeds(s, campIdText, b);
  }

  /** Paying twice records two payments; the handler never checks the current payment status. */
  lemma PayTwiceRecordsTwoPayments(s: Store, idText: string, t1: Js, t2: Js)
    requires ParseObjectId(idText).Some? && ParseObjectId(idText).value in s.registrations
    ensures var r1 := Pay(s, idText, t1);
      var r2 := Pay(r1.store, idText, t2);
      && r1.status == Ok && r2.status == Ok
      && |r2.store.payments| == |s.payments| + 2
      && r2.store.payments[|s.payments|].registrationId == ParseObjectId(idText).value
      && r2.store.payments[|s.payments| + 1].registrationId == ParseObjectId(idText).value
      && r2.store.payments[|s.payments|].amount == r2.store.payments[|s.payments| + 1].amount
      && r2.store.registrations[ParseObjectId(idText).value].transactionId == Some(t2)
  {
  }

  /** Cancelling a paid registration succeeds and leaves its payment pointing at nothing. */
  lemma CancelAfterPayOrphansPayment(s: Store, idText: string, t: Js)
    requires ParseObjectId(idText).Some? && ParseObjectId(idText).value in s.registrations
    ensures var r1 := Pay(s, idText, t);
      var r2 := Cancel(r1.store, idText);
      && r2.status == Ok
      && r2.store.payments == r1.store.payments
      && r2.store.payments[|s.payments|].registrationId !in r2.store.registrations
  {
  }

  /** Confirming an already confirmed registration answers 404, though it exists. */
  lemma ConfirmTwiceNotFound(s: Store, idText: string)
    requires ParseObjectId(idText).Some? && ParseObjectId(idText).value in s.registrations
    ensures var r1 := Confirm(s, idText);
      Confirm(r1.store, idText).status == NotFound
      && ParseObjectId(idText).value in r1.store.registrations
  {
  }

  /** After a payment, feedback is accepted, and accepted again on every later submission. */
  lemma FeedbackAfterPayRepeatable(s: Store, idText: string, t: Js, rating: Js, comment: Js)
    requires ParseObjectId(idText).Some? && ParseObjectId(idText).value in s.registrations
    requires Truthy(rating) && Truthy(comment)
    ensures var s1 := Pay(s, idText, t).store;
      var r2 := SubmitFeedback(s1, idText, rating, comment);
      var r3 := SubmitFeedback(r2.store, idText, rating, comment);
      r2.status == Created && r3.status == Created && |r3.store.feedback| == |s.feedback| + 2
  {
  }

  /** Feedback is refused for a registration that was never paid. */
  lemma FeedbackRefusedUnpaid(s: Store, idText: string, rating: Js, comment: Js)
    requires ParseObjectId(idText).Some? && ParseObjectId(idText).value in s.registrations
    requires s.registrations[ParseObjectId(idText).value].paymentStatus == Unpaid
    ensures SubmitFeedback(s, idText, rating, comment).status == BadRequest
    ensures SubmitFeedback(s, idText, rating, comment).store == s
  {
  }

  /** Deleting a camp hides its registrations from the participant listing, but they stay stored. */
  lemma DeleteCampHidesRegistrations(s: Store, idText: string, header: Option<string>, verify: Verifier,
                                     email: Option<string>, row: RegistrationRow)
    requires ParseObjectId(idText).Some?
    requires row.id in s.registrations && s.registrations[row.id].campId == ParseObjectId(idText).value
    ensures var s' := DeleteCamp(s, idText).store;
      row !in GetParticipantCamps(s', header, verify, email).rows && row.id in s'.registrations
  {
  }

  // ------------------------------------------------------------- roles

  /** Any holder of a verified token can promote any user to admin; no admin check guards the route. */
  lemma AnyTokenGrantsAdmin(s: Store, header: Option<string>, verify: Verifier, k: nat)
    requires Valid(s) && k < |s.users| && s.users[k].id.value < IdLimit
    requires s.users[k].email.Str?
    requires VerifyFBToken(header, verify).Pass?
    ensures var s' := PatchUserRole(s, header, verify, ObjectIdText(s.users[k].id), Str("admin")).store;
      VerifyAdmin(s'.users, Some(s.users[k].email.s)).Pass?
  {
    ParseObjectIdText(s.users[k].id);
    var s' := PatchUserRole(s, header, verify, ObjectIdText(s.users[k].id), Str("admin")).store;
    PatchUserRolePreservesValid(s, header, verify, ObjectIdText(s.users[k].id), Str("admin"));
    FindUserUnique(s', s.users[k].email, k);
  }

  /** `POST /users` stores whatever role the body names, so a new account can make itself an admin. */
  lemma SelfAssignedAdmin(s: Store, b: UserBody)
    requires Valid(s)
    requires b.email.Str? && b.email.s != "" && b.role == Str("admin")
    requires FindUser(s.users, b.email).None?
    ensures var s' := PostUser(s, b).store;
      VerifyAdmin(s'.users, Some(b.email.s)).Pass?
  {
    var s' := PostUser(s, b).store;
    assert !HasUserId(s.users, FreshId(s));
    PostUserPreservesValid(s, b);
    FindUserUnique(s', b.email, |s.users|);
  }
}

=== FILE: listing.dfy ===
/**
  The list pipeline the four dashboard tables share: keep the rows a
  predicate accepts, then show page `p` of `k` rows as
  `rows.slice((p - 1) * k, (p - 1) * k + k)`, with `Math.ceil(n / k)` pages
  and Previous/Next buttons that set `max(p - 1, 1)` and
  `min(p + 1, totalPages)`.

  `Slice` follows `Array.prototype.slice`, negative indices included. The
  Next button is enabled whenever `p != totalPages`, so with no matching
  rows (`totalPages == 0`) it would move from page 1 to page 0; the pages
  render the buttons only for a non-empty filtered list, so that step is a
  property of the button logic alone and cannot be taken in the program.
 */
module Listing {
  import opened Text

  function Min(a: int, b: int): int { if a <= b then a else b }
  function Max(a: int, b: int): int { if a >= b then a else b }

  /** An index argument of `slice` resolved against length `n`: negatives count from the end. */
  function RelativeIndex(i: int, n: nat): (r: nat)
    ensures r <= n
    ensures 0 <= i ==> r == Min(i, n)
    ensures i < 0 && -i <= n ==> r == n + i
    ensures i < 0 && -i > n ==> r == 0
  {
    if i < 0 then Max(n + i, 0) else Min(i, n)
  }

  /** `xs.slice(start, end)`. */
  function Slice<T>(xs: seq<T>, start: int, end: int): (r: seq<T>)
    ensures |r| <= |xs|
    ensures 0 <= start <= end ==> r == xs[Min(start, |xs|)..Min(end, |xs|)]
    ensures 0 <= end <= start ==> r == []
  {
    var a := RelativeIndex(start, |xs|);
    var b := RelativeIndex(end, |xs|);
    if b <= a then [] else xs[a..b]
  }

  /** `Math.ceil(n / k)`. */
  function TotalPages(n: nat, k: nat): (t: nat)
    requires k > 0
    ensures t * k >= n
    ensures t > 0 ==> (t - 1) * k < n
    ensures t == 0 <==> n == 0
  {
    (n + k - 1) / k
  }

  /**
    The zero-based index of the first row of page `p`, `(p - 1) * k`,
    counted page by page (`StartIndexIsProduct` states the product).
   */
  function StartIndex(p: int, k: nat): (s: int)
    ensures p >= 1 ==> s >= 0
    decreases if p < 1 then 1 - p else p - 1
  {
    if p == 1 then 0
    else if p > 1 then StartIndex(p - 1, k) + k
    else StartIndex(p + 1, k) - k
  }

  /** `StartIndex` is the product `(p - 1) * k`. */
  lemma {:induction false} StartIndexIsProduct(p: int, k: nat)
    ensures StartIndex(p, k) == (p - 1) * k
    decreases if p < 1 then 1 - p else p - 1
  {
    if p > 1 {
      StartIndexIsProduct(p - 1, k);
      assert (p - 2) * k + k == (p - 1) * k;
    } else if p < 1 {
      StartIndexIsProduct(p + 1, k);
      assert p * k - k == (p - 1) * k;
    }
  }

  /** Later pages start no earlier. */
  lemma {:induction false} StartIndexMonotone(p: int, q: int, k: nat)
    requires 1 <= p <= q
    ensures StartIndex(p, k) <= StartIndex(q, k)
    decreases q - p
  {
    if p < q {
      StartIndexMonotone(p, q - 1, k);
    }
  }

  /** Page `p >= 1` spans `[StartIndex(p, k), StartIndex(p + 1, k))`, `k` rows from a non-negative start. */
  lemma PageBounds(p: int, k: nat)
    requires p >= 1
    ensures 0 <= StartIndex(p, k) && StartIndex(p, k) + k == StartIndex(p + 1, k)
  {
    StartIndexMonotone(1, p, k);
  }

  /** Page `p` of `xs`, `k` rows to a page: `xs.slice(startIndex, startIndex + k)`. */
  function Page<T>(xs: seq<T>, p: int, k: nat): (r: seq<T>)
    requires k > 0
    ensures |r| <= k
    ensures p >= 1 ==> r == xs[Min(StartIndex(p, k), |xs|)..Min(StartIndex(p, k) + k, |xs|)]
    ensures p == 0 ==> r == []
  {
    var start := StartIndex(p, k);
    SliceWindow(xs, start, k);
    if p >= 1 then
      PageBounds(p, k);
      Slice(xs, start, start + k)
    else
      assert p == 0 ==> start + k == 0;
      Slice(xs, start, start + k)
  }

  /** A window of width `k` never holds more than `k` rows. */
  lemma SliceWindow<T>(xs: seq<T>, start: int, k: nat)
    ensures |Slice(xs, start, start + k)| <= k
  {
  }

  /** The Previous button. */
  function Previous(p: int): (q: int)
    ensures q >= 1
    ensures p > 1 ==> q == p - 1
    ensures p <= 1 ==> q == 1
  {
    Max(p - 1, 1)
  }

  /** The Next button. */
  function Next(p: int, total: nat): (q: int)
    ensures q <= total
    ensures p < total ==> q == p + 1
    ensures p >= total ==> q == total
  {
    Min(p + 1, total)
  }

  /** The state of a table whose only controls are a search box and the page buttons. */
  datatype SearchView = SearchView(searchTerm: string, currentPage: int)

  /** Typing into the search box: the new term, and back to page 1. */
  function Type(v: SearchView, text: string): (v': SearchView)
    ensures v'.searchTerm == text && v'.currentPage == 1
  {
    SearchView(text, 1)
  }

  /** The clear button empties the term but keeps the page. */
  function ClearSearch(v: SearchView): (v': SearchView)
    ensures v'.searchTerm == "" && v'.currentPage == v.currentPage
  {
    v.(searchTerm := "")
  }

  /** The "to" figure of the footer line "Showing a to b of n". */
  function ShownUpTo(start: int, k: nat, n: nat): (b: int)
    ensures b <= n
    ensures start + k <= n ==> b == start + k
  {
    Min(start + k, n)
  }

  /** `xs.filter(keep)`. */
  function Filter<T(!new)>(xs: seq<T>, keep: T -> bool): (r: seq<T>)
    ensures |r| <= |xs|
  {
    if xs == [] then []
    else (if keep(xs[0]) then [xs[0]] else []) + Filter(xs[1..], keep)
  }

  /** `filter` keeps exactly the accepted rows. */
  lemma {:induction false} FilterMembers<T(!new)>(xs: seq<T>, keep: T -> bool)
    ensures forall x :: x in Filter(xs, keep) <==> x in xs && keep(x)
  {
    if xs != [] {
      FilterMembers(xs[1..], keep);
      assert xs == [xs[0]] + xs[1..];
    }
  }

  /** Filtering keeps the relative order of rows: it distributes over concatenation. */
  lemma {:induction false} FilterAppend<T(!new)>(a: seq<T>, b: seq<T>, keep: T -> bool)
    ensures Filter(a + b, keep) == Filter(a, keep) + Filter(b, keep)
  {
    if a != [] {
      var ab := a + b;
      assert ab[0] == a[0] && ab[1..] == a[1..] + b;
      FilterAppend(a[1..], b, keep);
      var head := if keep(a[0]) then [a[0]] else [];
      assert Filter(ab, keep) == head + Filter(ab[1..], keep);
      assert Filter(a, keep) == head + Filter(a[1..], keep);
    } else {
      assert a + b == b;
    }
  }

  /** A kept row appears as often as in the input, a dropped one not at all. */
  lemma {:induction false} FilterCount<T(!new)>(xs: seq<T>, keep: T -> bool, x: T)
    ensures multiset(Filter(xs, keep))[x] == if keep(x) then multiset(xs)[x] else 0
  {
    if xs != [] {
      FilterCount(xs[1..], keep, x);
      assert xs == [xs[0]] + xs[1..];
    }
  }

  /** A predicate that accepts every row leaves the list unchanged. */
  lemma {:induction false} FilterAll<T(!new)>(xs: seq<T>, keep: T -> bool)
    requires forall x :: x in xs ==> keep(x)
    ensures Filter(xs, keep) == xs
  {
    if xs != [] {
      FilterAll(xs[1..], keep);
    }
  }

  /** `haystack.toLowerCase().includes(term.toLowerCase())`. */
  predicate MatchesTerm(haystack: string, term: string) {
    Contains(Lower(haystack), Lower(term))
  }

  /** The empty search term matches every field. */
  lemma EmptyTermMatches(haystack: string)
    ensures MatchesTerm(haystack, "")
  {
    ContainsEmpty(Lower(haystack));
  }

  /** Pages `p` through `last`, one after another. */
  function PagesFrom<T>(xs: seq<T>, k: nat, p: nat, last: nat): seq<T>
    requires k > 0
    decreases last + 1 - p
  {
    if p > last then [] else Page(xs, p, k) + PagesFrom(xs, k, p + 1, last)
  }

  /** Pages `p..last` hold exactly the rows from page `p`'s start up to page `last`'s end. */
  lemma {:induction false} PagesFromSpan<T>(xs: seq<T>, k: nat, p: nat, last: nat)
    requires k > 0 && 1 <= p <= last + 1
    ensures StartIndex(p, k) <= StartIndex(last + 1, k)
      && PagesFrom(xs, k, p, last) == xs[Min(StartIndex(p, k), |xs|)..Min(StartIndex(last + 1, k), |xs|)]
    decreases last + 1 - p
  {
    if p <= last {
      var a, b, c := Min(StartIndex(p, k), |xs|), Min(StartIndex(p + 1, k), |xs|), Min(StartIndex(last + 1, k), |xs|);
      assert Page(xs, p, k) == xs[a..b] by {
        PageBounds(p, k);
      }
      assert PagesFrom(xs, k, p + 1, last) == xs[b..c] && a <= b <= c by {
        PagesFromSpan(xs, k, p + 1, last);
        PageBounds(p, k);
      }
      SliceJoin(xs, a, b, c);
      StartIndexMonotone(p, last + 1, k);
    } else {
      assert p == last + 1;
    }
  }

  /** Two adjacent windows of a sequence make the window that spans both. */
  lemma SliceJoin<T>(xs: seq<T>, a: nat, b: nat, c: nat)
    requires a <= b <= c <= |xs|
    ensures xs[a..b] + xs[b..c] == xs[a..c]
  {
  }

  lemma MulMonotone(a: int, b: int, k: nat)
    requires a <= b
    ensures a * k <= b * k
  {
    var d: nat := b - a;
    assert b * k == a * k + d * k;
  }

  /** Paging loses and repeats nothing: pages 1 to `totalPages`, in order, are the whole list. */
  lemma PagesCoverList<T>(xs: seq<T>, k: nat)
    requires k > 0
    ensures PagesFrom(xs, k, 1, TotalPages(|xs|, k)) == xs
  {
    var t := TotalPages(|xs|, k);
    PagesFromSpan(xs, k, 1, t);
    StartIndexIsProduct(t + 1, k);
  }

  /** Every page from 1 to `totalPages` shows at least one row. */
  lemma PageNonEmpty<T>(xs: seq<T>, p: int, k: nat)
    requires k > 0 && 1 <= p <= TotalPages(|xs|, k)
    ensures |Page(xs, p, k)| >= 1
  {
    FirstRowOfPage(|xs|, k, p);
    PageBounds(p, k);
  }

  /** Row `j` of page `p` is row `(p - 1) * k + j` of the list. */
  lemma PageRow<T>(xs: seq<T>, p: int, k: nat, j: nat)
    requires k > 0 && p >= 1 && j < |Page(xs, p, k)|
    ensures StartIndex(p, k) + j < |xs| && Page(xs, p, k)[j] == xs[StartIndex(p, k) + j]
  {
    PageBounds(p, k);
  }

  /** Page `p` of a list with `totalPages` pages starts inside the list. */
  lemma FirstRowOfPage(n: nat, k: nat, p: int)
    requires k > 0 && 1 <= p <= TotalPages(n, k)
    ensures StartIndex(p, k) < n
  {
    var t := TotalPages(n, k);
    StartIndexIsProduct(p, k);
    MulMonotone(p - 1, t - 1, k);
  }

  /** From any page in range, Previous and Next stay in range. */
  lemma NavigationInRange(p: int, total: nat)
    requires 1 <= p <= total
    ensures 1 <= Previous(p) <= total
    ensures 1 <= Next(p, total) <= total
  {
  }

  /**
    The button logic with no matching rows: Next moves from page 1 to page 0,
    which shows nothing, and Previous returns to 1. The pages hide the buttons
    for an empty list, so this state is not reachable there.
   */
  lemma NextWithNoRows<T>(xs: seq<T>, k: nat)
    requires k > 0 && xs == []
    ensures Next(1, TotalPages(|xs|, k)) == 0
    ensures Page(xs, 0, k) == []
    ensures Previous(0) == 1
  {
  }

  /** The pages the buttons can reach from page 1 are never negative, so no page shows rows from the end. */
  lemma ButtonsNeverNegative(p: int, total: nat)
    requires p >= 0
    ensures Previous(p) >= 1
    ensures Next(p, total) >= 0
  {
  }
}

=== FILE: login_page.dfy ===
/**
  The sign-in page: its two field rules, the Google sign-in record posted
  to `/users`, and how the e-mail rule compares with the sign-up page's.

  The e-mail pattern is
  `^(A+(\.A+)*|".+")@(A+\.)+A{2,}$` with `A` the class
  `[^<>()[\]\\.,;:\s@"]`; the `i` flag changes nothing, since the class
  names no letter. It is modelled as a scan over the string: the local
  part ends at the last `@` (no domain character is an `@`), is either
  dot-separated atoms or a quoted run, and the domain splits at its dots
  into at least two atoms, the last of at least two characters.
 */
module LoginPage {
  import opened Text
  import opened JsValues
  import Store
  import Auth
  import Routes
  import RegisterPage

  // -------------------------------------------------------------- email

  /** A character of the class `A`. */
  predicate AtomChar(c: char) {
    && !IsSpace(c)
    && c !in {'<', '>', '(', ')', '[', ']', '\\', '.', ',', ';', ':', '@', '"'}
  }

  predicate AllAtom(s: string) { forall k :: 0 <= k < |s| ==> AtomChar(s[k]) }

  /** `A+`. */
  predicate Atom(s: string) { s != "" && AllAtom(s) }

  /** `A+(\.A+)*`: every piece between dots is an atom. */
  predicate DottedAtoms(s: string) {
    var pieces := Split(s, '.');
    forall k :: 0 <= k < |pieces| ==> Atom(pieces[k])
  }

  /**
    The same language read character by character: non-empty, atom
    characters and dots only, no dot at either end, no two dots in a row.
   */
  predicate ScanDotted(s: string) {
    && s != ""
    && s[0] != '.' && s[|s| - 1] != '.'
    && (forall k :: 0 <= k < |s| ==> AtomChar(s[k]) || s[k] == '.')
    && (forall k :: 0 <= k < |s| - 1 ==> !(s[k] == '.' && s[k + 1] == '.'))
  }

  /** Without a dot, the string is one piece, and both readings ask for one atom. */
  lemma NoDotReadings(s: string)
    requires IndexOf(s, '.') == None
    ensures DottedAtoms(s) <==> Atom(s)
    ensures ScanDotted(s) <==> Atom(s)
  {
    var pieces := Split(s, '.');
    assert pieces == [s];
    assert DottedAtoms(s) <==> Atom(pieces[0]);
    assert !AtomChar('.');
    if ScanDotted(s) {
      forall k | 0 <= k < |s| ensures AtomChar(s[k]) {
        assert s[k] != '.';
      }
    }
    if Atom(s) {
      assert AtomChar(s[0]) && AtomChar(s[|s| - 1]);
      forall k | 0 <= k < |s| - 1 ensures s[k] != '.' {
        assert AtomChar(s[k]);
      }
    }
  }

  /** Before the first dot an atom, after it the rest read again. */
  lemma DottedAtomsStep(s: string, i: nat)
    requires IndexOf(s, '.') == Some(i)
    ensures DottedAtoms(s) <==> Atom(s[..i]) && DottedAtoms(s[i + 1..])
  {
    var pieces, later := Split(s, '.'), Split(s[i + 1..], '.');
    assert pieces == [s[..i]] + later;
    if DottedAtoms(s) {
      assert Atom(pieces[0]);
      forall k | 0 <= k < |later| ensures Atom(later[k]) {
        assert later[k] == pieces[k + 1];
      }
    }
    if Atom(s[..i]) && DottedAtoms(s[i + 1..]) {
      forall k | 0 <= k < |pieces| ensures Atom(pieces[k]) {
        if k > 0 {
          assert pieces[k] == later[k - 1];
        }
      }
    }
  }

  /** A scan that passes splits at the first dot into an atom and a passing rest. */
  lemma ScanDottedSplits(s: string, i: nat)
    requires IndexOf(s, '.') == Some(i) && ScanDotted(s)
    ensures Atom(s[..i]) && ScanDotted(s[i + 1..])
  {
    var head, rest := s[..i], s[i + 1..];
    assert i > 0;
    forall k | 0 <= k < |head| ensures AtomChar(head[k]) {
      assert head[k] == s[k] && s[k] != '.';
    }
    assert i + 1 < |s|;
    assert rest[0] == s[i + 1];
    assert rest[|rest| - 1] == s[|s| - 1];
    forall k | 0 <= k < |rest| ensures AtomChar(rest[k]) || rest[k] == '.' {
      assert rest[k] == s[i + 1 + k];
    }
    forall k | 0 <= k < |rest| - 1 ensures !(rest[k] == '.' && rest[k + 1] == '.') {
      assert rest[k] == s[i + 1 + k] && rest[k + 1] == s[i + 2 + k];
    }
  }

  /** An atom, a dot and a passing rest pass the scan. */
  lemma ScanDottedJoins(s: string, i: nat)
    requires IndexOf(s, '.') == Some(i) && Atom(s[..i]) && ScanDotted(s[i + 1..])
    ensures ScanDotted(s)
  {
    var head, rest := s[..i], s[i + 1..];
    assert s[0] == head[0];
    assert s[|s| - 1] == rest[|rest| - 1];
    forall k | 0 <= k < |s| ensures AtomChar(s[k]) || s[k] == '.' {
      if k < i {
        assert s[k] == head[k];
      } else if k > i {
        assert s[k] == rest[k - i - 1];
      }
    }
    forall k | 0 <= k < |s| - 1 ensures !(s[k] == '.' && s[k + 1] == '.') {
      if k < i {
        assert s[k] == head[k];
      } else if k == i {
        assert s[k + 1] == rest[0];
      } else {
        assert s[k] == rest[k - i - 1] && s[k + 1] == rest[k - i];
      }
    }
  }

  /** The two readings of `A+(\.A+)*` agree on every string. */
  lemma {:induction false} DottedAtomsIff(s: string)
    ensures DottedAtoms(s) <==> ScanDotted(s)
    decreases |s|
  {
    match IndexOf(s, '.')
    case None =>
      NoDotReadings(s);
    case Some(i) =>
      DottedAtomsStep(s, i);
      DottedAtomsIff(s[i + 1..]);
      if ScanDotted(s) {
        ScanDottedSplits(s, i);
      }
      if Atom(s[..i]) && ScanDotted(s[i + 1..]) {
        ScanDottedJoins(s, i);
      }
  }

  /** `".+"`: quotes around at least one character other than a line terminator. */
  predicate QuotedLocal(s: string) {
    && |s| >= 3
    && s[0] == '"' && s[|s| - 1] == '"'
    && forall k :: 0 < k < |s| - 1 ==> !IsLineTerminator(s[k])
  }

  predicate LocalValid(s: string) { DottedAtoms(s) || QuotedLocal(s) }

  /**
    `(A+\.)+A{2,}`: at least two atoms between dots, the last of at least two
    UTF-16 code units, since a pattern without the `u` flag matches code units
    and a character outside the Basic Multilingual Plane is two of them.
   */
  predicate DomainValid(s: string) {
    var pieces := Split(s, '.');
    && |pieces| >= 2
    && (forall k :: 0 <= k < |pieces| ==> Atom(pieces[k]))
    && Utf16Length(pieces[|pieces| - 1]) >= 2
  }

  /** A valid domain holds no `@`. */
  lemma DomainHasNoAt(d: string)
    requires DomainValid(d)
    ensures forall k :: 0 <= k < |d| ==> d[k] != '@'
  {
    DottedAtomsIff(d);
  }

  /** The e-mail check as the page runs it: split at the last `@`. */
  predicate EmailAccepted(s: string) {
    match LastIndexOf(s, '@')
    case None => false
    case Some(i) => LocalValid(s[..i]) && DomainValid(s[i + 1..])
  }

  /** Splitting at the last `@` loses nothing: the pattern matches iff some `@` splits the string well. */
  lemma EmailAcceptedIff(s: string)
    ensures EmailAccepted(s) <==>
      exists i :: 0 <= i < |s| && s[i] == '@' && LocalValid(s[..i]) && DomainValid(s[i + 1..])
  {
    if i :| 0 <= i < |s| && s[i] == '@' && LocalValid(s[..i]) && DomainValid(s[i + 1..]) {
      DomainHasNoAt(s[i + 1..]);
      forall k | i < k < |s| ensures s[k] != '@' {
        assert s[k] == s[i + 1..][k - i - 1];
      }
      assert LastIndexOf(s, '@') == Some(i);
    }
  }

  /** The e-mail rules: `required`, then the pattern. */
  function EmailError(s: string): (e: Option<string>)
    ensures e.None? <==> EmailAccepted(s)
    ensures s == "" ==> e == Some("Email is required")
    ensures s != "" && !EmailAccepted(s) ==> e == Some("Invalid email address")
  {
    if s == "" then Some("Email is required")
    else if !EmailAccepted(s) then Some("Invalid email address")
    else None
  }

  /**
    An address the sign-in page accepts with an unquoted local part is one
    the sign-up page accepts as well.
   */
  lemma UnquotedEmailAcceptedAtSignUp(s: string)
    requires EmailAccepted(s)
    requires DottedAtoms(s[..LastIndexOf(s, '@').value])
    ensures RegisterPage.EmailAccepted(s)
  {
    var i := LastIndexOf(s, '@').value;
    var local, domain := s[..i], s[i + 1..];
    assert RegisterPage.AllPlain(local) && ScanDotted(local) by {
      DottedAtomsIff(local);
      assert forall k :: 0 <= k < |local| ==> AtomChar(local[k]) || local[k] == '.';
    }
    assert RegisterPage.AllPlain(domain) && ScanDotted(domain) by {
      DottedAtomsIff(domain);
      assert forall k :: 0 <= k < |domain| ==> AtomChar(domain[k]) || domain[k] == '.';
    }
    assert IndexOf(s, '@') == Some(i) by {
      forall k | 0 <= k < i ensures s[k] != '@' {
        assert s[k] == local[k];
      }
      IndexOfFirst(s, '@', i);
    }
    assert RegisterPage.HasInnerDot(domain) by {
      var j := IndexOf(domain, '.').value;
      assert domain[j] == '.';
    }
  }

  /** Two atoms joined by a dot split into exactly those two atoms. */
  lemma SplitTwoAtoms(a: string, b: string)
    requires Atom(a) && Atom(b)
    ensures Split(a + "." + b, '.') == [a, b]
  {
    var d := a + "." + b;
    assert d[|a|] == '.';
    forall k | 0 <= k < |a| ensures d[k] != '.' {
      assert d[k] == a[k] && AtomChar(a[k]);
    }
    IndexOfFirst(d, '.', |a|);
    assert d[..|a|] == a && d[|a| + 1..] == b;
    assert IndexOf(b, '.') == None by {
      assert forall k :: 0 <= k < |b| ==> AtomChar(b[k]);
    }
  }

  /** Two atoms joined by a dot form a valid domain exactly when the second has at least two code units. */
  lemma TwoLabelDomain(a: string, b: string)
    requires Atom(a) && Atom(b)
    ensures DomainValid(a + "." + b) <==> Utf16Length(b) >= 2
  {
    SplitTwoAtoms(a, b);
  }

  /** A quoted local part, an `@` and a valid domain make an accepted address, whatever the quotes hold. */
  lemma QuotedAddressAccepted(q: string, d: string)
    requires QuotedLocal(q) && DomainValid(d)
    ensures EmailAccepted(q + "@" + d)
  {
    var s := q + "@" + d;
    DomainHasNoAt(d);
    forall k | |q| < k < |s| ensures s[k] != '@' {
      assert s[k] == d[k - |q| - 1];
    }
    LastIndexOfLast(s, '@', |q|);
    assert s[..|q|] == q && s[|q| + 1..] == d;
  }

  /**
    The quoted form lets through addresses the sign-up page refuses: any
    quoted local part holding an `@` (as in `"a@b"@ex.com`).
   */
  lemma QuotedAtSignInOnly(q: string, d: string, k: nat)
    requires QuotedLocal(q) && DomainValid(d)
    requires k < |q| && q[k] == '@'
    ensures EmailAccepted(q + "@" + d)
    ensures !RegisterPage.EmailAccepted(q + "@" + d)
  {
    var s := q + "@" + d;
    QuotedAddressAccepted(q, d);
    assert s[k] == '@' && s[|q|] == '@';
    RegisterPage.TwoAtSignsRefused(s, k, |q|);
  }

  /** An atom character is one `[^\s@]` admits. */
  lemma AtomIsPlain(s: string)
    requires AllAtom(s)
    ensures RegisterPage.AllPlain(s)
  {
    assert forall k :: 0 <= k < |s| ==> AtomChar(s[k]);
  }

  /**
    A one-character top-level label passes the sign-up page; this one takes
    it exactly when the character is two code units: `l@b.c` for atoms `l`
    and `b` and an atom character `c` (`a@b.c` is refused, `a@b.\U{1F600}` is not).
   */
  lemma ShortTopLabelAtSignUpOnly(l: string, b: string, c: char)
    requires Atom(l) && Atom(b) && AtomChar(c)
    ensures RegisterPage.EmailAccepted(l + "@" + b + "." + [c])
    ensures EmailAccepted(l + "@" + b + "." + [c]) <==> c as int > 0xFFFF
  {
    assert l + "@" + b + "." + [c] == l + "@" + (b + "." + [c]);
    ShortTopLabelAtSignUp(l, b, c);
    ShortTopLabelAtSignIn(l, b, c);
    SingleCharUnits(c);
  }

  /** The sign-in half: `l@b.c` passes exactly when `c` is two code units. */
  lemma ShortTopLabelAtSignIn(l: string, b: string, c: char)
    requires Atom(l) && Atom(b) && AtomChar(c)
    ensures EmailAccepted(l + "@" + (b + "." + [c])) <==> Utf16Length([c]) >= 2
  {
    var d := b + "." + [c];
    ShortTopLabelAtSignUp(l, b, c);
    assert LocalValid(l) by {
      assert forall k :: 0 <= k < |l| ==> l[k] != '.';
      NoDotReadings(l);
    }
    assert Atom([c]);
    TwoLabelDomain(b, [c]);
  }

  /** The sign-up half: `l@b.c` passes, and its last `@` is the one after `l`. */
  lemma ShortTopLabelAtSignUp(l: string, b: string, c: char)
    requires Atom(l) && Atom(b) && AtomChar(c)
    ensures var s := l + "@" + (b + "." + [c]);
      && RegisterPage.EmailAccepted(s)
      && LastIndexOf(s, '@') == Some(|l|) && s[..|l|] == l && s[|l| + 1..] == b + "." + [c]
  {
    var d := b + "." + [c];
    var s := l + "@" + d;
    assert AllAtom(l);
    assert s[|l|] == '@';
    forall k | 0 <= k < |l| ensures s[k] != '@' {
      assert s[k] == l[k];
    }
    IndexOfFirst(s, '@', |l|);
    assert forall k :: 0 <= k < |b| ==> AtomChar(b[k]);
    forall k | |l| < k < |s| ensures s[k] != '@' && (s[k] == '.' || AtomChar(s[k])) {
      assert s[k] == d[k - |l| - 1];
    }
    LastIndexOfLast(s, '@', |l|);
    assert s[..|l|] == l && s[|l| + 1..] == d;
    assert RegisterPage.EmailAccepted(s) by {
      AtomIsPlain(l);
      forall k | 0 <= k < |d| ensures RegisterPage.Plain(d[k]) {
        assert d[k] == s[|l| + 1 + k];
      }
      assert d[|b|] == '.';
    }
  }

  /**
    `a@b.` and an emoji, two code units, passes both pages, while `a@b.c`,
    one code unit after the last dot, is refused at sign-in.
  */
  lemma AstralTopLabelAccepted()
    ensures EmailError("a@b.\U{1F600}") == None && RegisterPage.EmailAccepted("a@b.\U{1F600}")
    ensures EmailError("a@b.c") == Some("Invalid email address")
  {
    var a, b, e := "a", "b", '\U{1F600}';
    assert Atom(a) && Atom(b) by {
      assert a[0] == 'a' && b[0] == 'b';
    }
    SingleLetterAddress(a, b, e);
    ShortTopLabelAtSignUpOnly(a, b, e);
    AsciiTopLabelRefused();
  }

  /** `a@b.c` is refused at sign-in. */
  lemma AsciiTopLabelRefused()
    ensures EmailError("a@b.c") == Some("Invalid email address")
  {
    var a, b, c := "a", "b", 'c';
    assert Atom(a) && Atom(b) by {
      assert a[0] == 'a' && b[0] == 'b';
    }
    SingleLetterAddress(a, b, c);
    ShortTopLabelAtSignUpOnly(a, b, c);
  }

  /** The addresses above, assembled from their parts. */
  lemma SingleLetterAddress(a: string, b: string, e: char)
    requires a == "a" && b == "b"
    ensures e == '\U{1F600}' ==> a + "@" + b + "." + [e] == "a@b.\U{1F600}"
    ensures e == 'c' ==> a + "@" + b + "." + [e] == "a@b.c"
  {
  }

  // ----------------------------------------------------------- password

  /**
    The password rules: `required`, then `minLength: 6`, counted in UTF-16
    code units as JavaScript's `length` counts them; no character classes.
   */
  function PasswordError(p: string): (e: Option<string>)
    ensures e.None? <==> Utf16Length(p) >= 6
    ensures p == "" ==> e == Some("Password is required")
    ensures p != "" && Utf16Length(p) < 6 ==> e == Some("Password must be at least 6 characters")
  {
    if p == "" then Some("Password is required")
    else if Utf16Length(p) < 6 then Some("Password must be at least 6 characters")
    else None
  }

  /** Three characters outside the Basic Multilingual Plane already make six code units. */
  lemma ThreeAstralCharactersSignIn()
    ensures PasswordError("\U{1F600}\U{1F600}\U{1F600}").None?
    ensures PasswordError("aaaaa").Some?
  {
    var x := "\U{1F600}";
    assert Utf16Length(x) == 2;
    Utf16LengthAppend(x, x);
    Utf16LengthAppend(x + x, x);
    assert x + x + x == "\U{1F600}\U{1F600}\U{1F600}";
  }

  /** Every password the sign-up page accepts passes the sign-in rule; the converse fails. */
  lemma SignUpPasswordsSignIn(p: string)
    ensures RegisterPage.PasswordError(p).None? ==> PasswordError(p).None?
    ensures PasswordError("aaaaaa").None? && RegisterPage.PasswordError("aaaaaa").Some?
  {
    assert !RegisterPage.HasUpper("aaaaaa") by {
      forall k | 0 <= k < 6 ensures !IsUpperAscii("aaaaaa"[k]) {}
    }
  }

  // ------------------------------------------------------- Google sign-in

  /** `result.user` as Firebase returns it; each field may be missing. */
  datatype GoogleUser = GoogleUser(email: Option<string>, displayName: Option<string>, photoURL: Option<string>)

  /** What the Google button leads to: an error toast, or a post of the user record. */
  datatype GoogleOutcome = Failed(message: string) | PostRecord(user: RegisterPage.UserInfo)

  /**
    `googleLogin` (and the sign-up page's identical `googleRegister`): no
    user throws before posting; otherwise a record with role `'user'`.
   */
  function GoogleSignIn(user: Option<GoogleUser>): (o: GoogleOutcome)
    ensures o.Failed? <==> user.None?
    ensures o.Failed? ==> o.message == "Google authentication failed"
    ensures o.PostRecord? ==> (
      && o.user.role == "user"
      && o.user.email == (if user.value.email.Some? then Str(user.value.email.value) else Undefined)
      && (user.value.displayName.None? ==> o.user.name == "")
      && (user.value.photoURL.None? ==> o.user.photoURL == "")
      && (user.value.displayName.Some? ==> o.user.name == user.value.displayName.value)
      && (user.value.photoURL.Some? ==> o.user.photoURL == user.value.photoURL.value))
  {
    match user
    case None => Failed("Google authentication failed")
    case Some(u) =>
      var email := match u.email case Some(e) => Str(e) case None => Undefined;
      PostRecord(RegisterPage.UserInfo(email, "user", OrEmpty(u.displayName), OrEmpty(u.photoURL)))
  }

  /** A first Google sign-in creates a plain user whom the admin check refuses. */
  lemma GoogleSignInNeverAdmin(s: Store.Store, u: GoogleUser)
    requires Store.Valid(s) && u.email.Some? && u.email.value != ""
    requires Store.FindUser(s.users, Str(u.email.value)).None?
    ensures GoogleSignIn(Some(u)).PostRecord?
    ensures var r := Routes.PostUser(s, RegisterPage.AsRequestBody(GoogleSignIn(Some(u)).user));
      r.status == Routes.Created && Auth.VerifyAdmin(r.store.users, u.email).Deny?
  {
    RegisterPage.UserRecordNeverAdmin(s, GoogleSignIn(Some(u)).user, u.email.value);
  }
}

=== FILE: manage_camps.dfy ===
/**
  The "manage registered camps" table: the same search as the participant
  table, five rows to a page, a page reset driven by an effect on the
  search term, labels derived from the payment status, and a confirmation
  dialog around cancellation.
 */
module ManageCamps {
  import opened Text
  import opened Listing
  import ParticipantCamps

  type CampRow = ParticipantCamps.CampRow

  const ItemsPerPage: nat := 5

  /** `filteredCamps`: the rule of the participant table. */
  function FilteredCamps(rows: seq<CampRow>, term: string): (r: seq<CampRow>)
    ensures forall row :: row in r <==> row in rows && ParticipantCamps.KeepRow(term, row)
  {
    ParticipantCamps.FilteredCamps(rows, term)
  }

  function ShownRows(rows: seq<CampRow>, term: string, page: int): (r: seq<CampRow>)
    ensures |r| <= ItemsPerPage
    ensures page >= 1 ==> r == FilteredCamps(rows, term)[Min(StartIndex(page, ItemsPerPage), |FilteredCamps(rows, term)|)
                                                          ..Min(StartIndex(page, ItemsPerPage) + ItemsPerPage, |FilteredCamps(rows, term)|)]
  {
    Page(FilteredCamps(rows, term), page, ItemsPerPage)
  }

  datatype View = View(
    searchTerm: string,
    currentPage: int,
    modalVisible: bool,
    selectedCampId: Option<string>,
    selectedCampName: string)

  /**
    A new value in the search box. The effect on `[searchTerm]` runs only
    when the value changes, so re-entering the same term keeps the page.
   */
  function SetSearchTerm(v: View, text: string): (v': View)
    ensures v'.searchTerm == text
    ensures text != v.searchTerm ==> v'.currentPage == 1
    ensures text == v.searchTerm ==> v' == v
    ensures v'.modalVisible == v.modalVisible && v'.selectedCampId == v.selectedCampId
  {
    if text == v.searchTerm then v else v.(searchTerm := text, currentPage := 1)
  }

  /** The Previous button: one page back, never below page 1; nothing else changes. */
  function PreviousPage(v: View): (v': View)
    ensures v.currentPage > 1 ==> v'.currentPage == v.currentPage - 1
    ensures v.currentPage <= 1 ==> v'.currentPage == 1
    ensures v' == v.(currentPage := v'.currentPage)
  {
    v.(currentPage := Previous(v.currentPage))
  }

  /** The Next button: one page forward, never past the last page; nothing else changes. */
  function NextPage(rows: seq<CampRow>, v: View): (v': View)
    ensures var total := TotalPages(|FilteredCamps(rows, v.searchTerm)|, ItemsPerPage);
      && (v.currentPage < total ==> v'.currentPage == v.currentPage + 1)
      && (v.currentPage >= total ==> v'.currentPage == total)
    ensures v' == v.(currentPage := v'.currentPage)
  {
    v.(currentPage := Next(v.currentPage, TotalPages(|FilteredCamps(rows, v.searchTerm)|, ItemsPerPage)))
  }

  /** The Cancel button is disabled exactly for paid registrations. */
  function CancelDisabled(row: CampRow): (d: bool)
    ensures d <==> row.paymentStatus == "paid"
  {
    row.paymentStatus == "paid"
  }

  /** The confirmation column follows payment status, never the stored confirmation status. */
  function ConfirmationLabel(row: CampRow): (s: string)
    ensures s == "Confirmed" <==> row.paymentStatus == "paid"
    ensures s != "Confirmed" ==> s == "Payment required"
  {
    if row.paymentStatus == "paid" then "Confirmed" else "Payment required"
  }

  /** Two rows that differ only in their stored confirmation status get the same label. */
  lemma ConfirmationIgnoresStoredStatus(row: CampRow, c: Option<string>)
    ensures ConfirmationLabel(row.(confirmationStatus := c)) == ConfirmationLabel(row)
  {
  }

  /** `s.charAt(0).toUpperCase() + s.slice(1)`. */
  function StatusLabel(s: string): (r: string)
    ensures |r| == |s|
    ensures s != [] ==> r[0] == UpperChar(s[0]) && r[1..] == s[1..]
  {
    if s == [] then [] else [UpperChar(s[0])] + s[1..]
  }

  lemma StatusLabels()
    ensures StatusLabel("paid") == "Paid" && StatusLabel("unpaid") == "Unpaid"
  {
  }

  /** `showCancelModal`: remember the row and open the dialog. */
  function ShowCancelModal(v: View, row: CampRow): (v': View)
    ensures v'.modalVisible && v'.selectedCampId == Some(row.id) && v'.selectedCampName == row.campName
    ensures v'.searchTerm == v.searchTerm && v'.currentPage == v.currentPage
  {
    v.(selectedCampId := Some(row.id), selectedCampName := row.campName, modalVisible := true)
  }

  /** `handleCancel`: cancel the remembered registration (possibly none) and close the dialog. */
  function HandleCancel(v: View): (result: (Option<string>, View))
    ensures result.0 == v.selectedCampId
    ensures !result.1.modalVisible
    ensures result.1.selectedCampId == v.selectedCampId && result.1.searchTerm == v.searchTerm
  {
    (v.selectedCampId, v.(modalVisible := false))
  }

  /** Confirming the dialog cancels exactly the row it was opened on. */
  lemma CancelTargetsChosenRow(v: View, row: CampRow)
    ensures HandleCancel(ShowCancelModal(v, row)).0 == Some(row.id)
    ensures !HandleCancel(ShowCancelModal(v, row)).1.modalVisible
  {
  }
}

=== FILE: navbar.dfy ===
/**
  The navigation bar: which links it offers for a signed-in or signed-out
  visitor, and which of them is highlighted for the current path.
 */
module Navbar {
  import opened Text

  datatype NavLink = NavLink(key: string, path: string, caption: string)

  /** `isActiveLink`: `'/'` only on the root itself, any other link on every path it prefixes. */
  predicate IsActiveLink(pathname: string, path: string) {
    if path == "/" then pathname == "/" else StartsWith(pathname, path)
  }

  /** The test is a plain prefix test: a link is active below itself, whatever follows. */
  lemma ActiveBelowLink(path: string, rest: string)
    requires path != "/"
    ensures IsActiveLink(path + rest, path)
  {
    assert (path + rest)[..|path|] == path;
  }

  /** The root link is active on no other path. */
  lemma RootOnlyAtRoot(pathname: string)
    ensures IsActiveLink(pathname, "/") <==> pathname == "/"
  {
  }

  function HomeLink(): NavLink { NavLink("home", "/", "Home") }

  /** `navLinks` after `.filter(Boolean)`. */
  function NavLinks(signedIn: bool): (links: seq<NavLink>)
    ensures |links| >= 2 && links[0] == HomeLink()
    ensures signedIn ==> |links| == 2 && links[1].caption == "Available Camps"
    ensures !signedIn ==> |links| == 3 && links[1].caption == "Register" && links[2].caption == "Login"
  {
    if signedIn then [HomeLink(), NavLink("items", "/available-camps", "Available Camps")]
    else [HomeLink(), NavLink("register", "/register", "Register"), NavLink("login", "/join-us", "Login")]
  }

  /** Two paths that differ at a position both of them have are never prefixes of the same path. */
  lemma DivergingPrefixes(pathname: string, a: string, b: string, i: nat)
    requires i < |a| && i < |b| && a[i] != b[i]
    ensures !(StartsWith(pathname, a) && StartsWith(pathname, b))
  {
  }

  /** Whatever the path, at most one offered link is highlighted. */
  lemma AtMostOneActive(signedIn: bool, pathname: string, j: nat, k: nat)
    requires j < k < |NavLinks(signedIn)|
    ensures !(IsActiveLink(pathname, NavLinks(signedIn)[j].path) && IsActiveLink(pathname, NavLinks(signedIn)[k].path))
  {
    var links := NavLinks(signedIn);
    if j == 0 {
      assert |links[k].path| > 1;
    } else {
      assert !signedIn && j == 1 && k == 2;
      DivergingPrefixes(pathname, "/register", "/join-us", 1);
    }
  }
}

=== FILE: object_ids.dfy ===
/**
  Document identifiers. The server turns every `:id` path segment into an
  ObjectId with `new ObjectId(text)`, which accepts exactly 24 hexadecimal
  digits (either case) and throws otherwise; the handlers catch that throw
  and answer 500.
 */
module ObjectIds {
  import opened Text

  /** A 96-bit document identifier. */
  datatype ObjectId = ObjectId(value: nat)

  const IdDigits: nat := 24

  /** One past the largest identifier: 16 to the power 24. */
  const IdLimit: nat := Pow16(IdDigits)

  predicate IsHexDigit(c: char) {
    ('0' <= c <= '9') || ('a' <= c <= 'f') || ('A' <= c <= 'F')
  }

  predicate AllHex(s: string) { forall k :: 0 <= k < |s| ==> IsHexDigit(s[k]) }

  function HexDigitValue(c: char): (d: nat)
    requires IsHexDigit(c)
    ensures d < 16
  {
    if '0' <= c <= '9' then c as int - '0' as int
    else if 'a' <= c <= 'f' then c as int - 'a' as int + 10
    else c as int - 'A' as int + 10
  }

  function HexChar(d: nat): (c: char)
    requires d < 16
    ensures IsHexDigit(c) && HexDigitValue(c) == d
  {
    if d < 10 then ('0' as int + d) as char else ('a' as int + d - 10) as char
  }

  function Pow16(k: nat): (p: nat)
    ensures p >= 1
  {
    if k == 0 then 1 else 16 * Pow16(k - 1)
  }

  /** The number a string of hexadecimal digits denotes. */
  function HexValue(s: string): (v: nat)
    requires AllHex(s)
    ensures v < Pow16(|s|)
  {
    if s == [] then 0 else HexValue(s[..|s| - 1]) * 16 + HexDigitValue(s[|s| - 1])
  }

  /** `v` written with exactly `k` lower-case hexadecimal digits. */
  function HexText(v: nat, k: nat): (s: string)
    requires v < Pow16(k)
    ensures |s| == k && AllHex(s)
  {
    if k == 0 then [] else HexText(v / 16, k - 1) + [HexChar(v % 16)]
  }

  /** `new ObjectId(text)`: `None` where the constructor throws. */
  function ParseObjectId(text: string): (r: Option<ObjectId>)
    ensures r.Some? <==> |text| == IdDigits && AllHex(text)
    ensures r.Some? ==> r.value.value < IdLimit
  {
    if |text| == IdDigits && AllHex(text) then
      Some(ObjectId(HexValue(text)))
    else None
  }

  /** `id.toHexString()`. */
  function ObjectIdText(id: ObjectId): string
    requires id.value < IdLimit
  {
    HexText(id.value, IdDigits)
  }

  lemma {:induction false} HexRoundTrip(v: nat, k: nat)
    requires v < Pow16(k)
    ensures HexValue(HexText(v, k)) == v
  {
    if k > 0 {
      var s := HexText(v, k);
      assert s[..|s| - 1] == HexText(v / 16, k - 1);
      HexRoundTrip(v / 16, k - 1);
    }
  }

  /** Every identifier the store hands out parses back from its hexadecimal text. */
  lemma ParseObjectIdText(id: ObjectId)
    requires id.value < IdLimit
    ensures ParseObjectId(ObjectIdText(id)) == Some(id)
  {
    HexRoundTrip(id.value, IdDigits);
  }

  /** Upper- and lower-case spellings of a hexadecimal digit denote the same value. */
  lemma {:induction false} HexValueIgnoresCase(s: string, t: string)
    requires AllHex(s) && AllHex(t) && |s| == |t|
    requires forall k :: 0 <= k < |s| ==> LowerChar(s[k]) == LowerChar(t[k])
    ensures HexValue(s) == HexValue(t)
  {
    if s != [] {
      HexValueIgnoresCase(s[..|s| - 1], t[..|t| - 1]);
    }
  }
}

=== FILE: organizer_camps.dfy ===
/**
  The organizer's "my camps" table: a three-field search, ten camps to a
  page, the update form's field handler and the confirmed delete.
 */
module OrganizerCamps {
  import opened Text
  import opened Listing

  const ItemsPerPage: nat := 10

  /** A camp of `GET /organizer-camp` as the table reads it; the professional's name may be absent. */
  datatype CampRow = CampRow(
    id: string,
    campName: string,
    location: string,
    healthcareProfessionalName: Option<string>)

  /** Name or location matches; the professional's name counts only when present and non-empty. */
  predicate KeepCamp(term: string, c: CampRow) {
    || MatchesTerm(c.campName, term)
    || MatchesTerm(c.location, term)
    || (c.healthcareProfessionalName.Some? && c.healthcareProfessionalName.value != ""
        && MatchesTerm(c.healthcareProfessionalName.value, term))
  }

  function FilteredCamps(camps: seq<CampRow>, term: string): (r: seq<CampRow>)
    ensures |r| <= |camps|
    ensures forall c :: c in r <==> c in camps && KeepCamp(term, c)
  {
    FilterMembers(camps, c => KeepCamp(term, c));
    Filter(camps, c => KeepCamp(term, c))
  }

  /** An empty search term keeps every camp, in order. */
  lemma EmptySearchKeepsAll(camps: seq<CampRow>)
    ensures FilteredCamps(camps, "") == camps
  {
    forall c | c in camps ensures KeepCamp("", c) {
      EmptyTermMatches(c.campName);
    }
    FilterAll(camps, c => KeepCamp("", c));
  }

  /** A camp whose only match is an absent professional name is dropped. */
  lemma AbsentProfessionalNeverMatches(term: string, c: CampRow)
    requires c.healthcareProfessionalName.None?
    ensures KeepCamp(term, c) <==> MatchesTerm(c.campName, term) || MatchesTerm(c.location, term)
  {
  }

  /** The page of matching camps; the same rule as `ManageCamps.ShownRows`, ten to a page. */
  function ShownCamps(camps: seq<CampRow>, term: string, page: int): (r: seq<CampRow>)
    ensures |r| <= ItemsPerPage
    ensures page >= 1 ==> r == FilteredCamps(camps, term)[Min(StartIndex(page, ItemsPerPage), |FilteredCamps(camps, term)|)
                                                           ..Min(StartIndex(page, ItemsPerPage) + ItemsPerPage, |FilteredCamps(camps, term)|)]
  {
    Page(FilteredCamps(camps, term), page, ItemsPerPage)
  }

  /** The footer's upper figure never exceeds the number of matching camps. */
  lemma FooterWithinCount(camps: seq<CampRow>, term: string, page: int)
    requires page >= 1
    ensures ShownUpTo(StartIndex(page, ItemsPerPage), ItemsPerPage, |FilteredCamps(camps, term)|)
      <= |FilteredCamps(camps, term)|
    ensures page <= TotalPages(|FilteredCamps(camps, term)|, ItemsPerPage) ==>
      ShownUpTo(StartIndex(page, ItemsPerPage), ItemsPerPage, |FilteredCamps(camps, term)|)
      == StartIndex(page, ItemsPerPage) + |ShownCamps(camps, term, page)|
  {
    var n := |FilteredCamps(camps, term)|;
    PageBounds(page, ItemsPerPage);
    if page <= TotalPages(n, ItemsPerPage) {
      FirstRowOfPage(n, ItemsPerPage, page);
    }
  }

  type View = SearchView

  /** Clearing from page `p` stays on page `p`, which then shows rows `(p - 1) * 10 + 1` to `p * 10` of the full list. */
  lemma ClearKeepsPage(camps: seq<CampRow>, v: View)
    requires v.currentPage >= 1
    ensures var p := v.currentPage;
      ShownCamps(camps, ClearSearch(v).searchTerm, ClearSearch(v).currentPage)
      == camps[Min((p - 1) * ItemsPerPage, |camps|)..Min(p * ItemsPerPage, |camps|)]
  {
    EmptySearchKeepsAll(camps);
    StartIndexIsProduct(v.currentPage, ItemsPerPage);
  }

  /** The Previous button: one page back, never below page 1; the term is kept. */
  function PreviousPage(v: View): (v': View)
    ensures v.currentPage > 1 ==> v'.currentPage == v.currentPage - 1
    ensures v.currentPage <= 1 ==> v'.currentPage == 1
    ensures v'.searchTerm == v.searchTerm
  {
    v.(currentPage := Previous(v.currentPage))
  }

  /** The Next button: one page forward, never past the last page; the term is kept. */
  function NextPage(camps: seq<CampRow>, v: View): (v': View)
    ensures var total := TotalPages(|FilteredCamps(camps, v.searchTerm)|, ItemsPerPage);
      && (v.currentPage < total ==> v'.currentPage == v.currentPage + 1)
      && (v.currentPage >= total ==> v'.currentPage == total)
    ensures v'.searchTerm == v.searchTerm
  {
    v.(currentPage := Next(v.currentPage, TotalPages(|FilteredCamps(camps, v.searchTerm)|, ItemsPerPage)))
  }

  /** The update form: field name to value. */
  type FormData = map<string, string>

  /** `handleChange`: `{ ...prev, [name]: value }`. */
  function HandleChange(form: FormData, name: string, value: string): (form': FormData)
    ensures name in form' && form'[name] == value
    ensures form'.Keys == form.Keys + {name}
    ensures forall f :: f in form && f != name ==> form'[f] == form[f]
  {
    form[name := value]
  }

  /** The update form as `openUpdateModal` fills it; a missing professional name becomes `''`. */
  function FormFromCamp(c: CampRow, dateTime: string): (form: FormData)
    ensures form.Keys == {"campName", "dateTime", "location", "healthcareProfessionalName"}
    ensures form["campName"] == c.campName && form["location"] == c.location
    ensures form["dateTime"] == dateTime
    ensures c.healthcareProfessionalName.Some? ==> form["healthcareProfessionalName"] == c.healthcareProfessionalName.value
    ensures c.healthcareProfessionalName.None? ==> form["healthcareProfessionalName"] == ""
  {
    map["campName" := c.campName, "dateTime" := dateTime, "location" := c.location,
        "healthcareProfessionalName" := match c.healthcareProfessionalName case Some(h) => h case None => ""]
  }

  /** `handleDelete`: the camp id to delete, only once the dialog was confirmed. */
  function HandleDelete(campId: string, confirmed: bool): (request: Option<string>)
    ensures request.Some? <==> confirmed
    ensures request.Some? ==> request.value == campId
  {
    if !confirmed then None else Some(campId)
  }
}

=== FILE: participant_camps.dfy ===
/**
  The participant's "registered camps" table: search, ten rows to a page,
  the Pay / Cancel / Feedback buttons chosen by payment status, and the
  feedback dialog with its validation and reset.
 */
module ParticipantCamps {
  import opened Text
  import opened Listing

  const ItemsPerPage: nat := 10

  /**
    A row of `GET /participant/camps` as the table reads it. The server's
    projection never sends `feedbackSubmitted`, so against the real server
    the flag is always false and the Feedback button is never disabled.
   */
  datatype CampRow = CampRow(
    id: string,
    campName: string,
    participantName: string,
    paymentStatus: string,
    confirmationStatus: Option<string>,
    feedbackSubmitted: bool)

  /** The row matches the search term in its camp name or participant name, ignoring case. */
  predicate KeepRow(term: string, row: CampRow) {
    MatchesTerm(row.campName, term) || MatchesTerm(row.participantName, term)
  }

  /** `filteredCamps`. */
  function FilteredCamps(rows: seq<CampRow>, term: string): (r: seq<CampRow>)
    ensures |r| <= |rows|
    ensures forall row :: row in r <==> row in rows && KeepRow(term, row)
  {
    FilterMembers(rows, row => KeepRow(term, row));
    Filter(rows, row => KeepRow(term, row))
  }

  /** An empty search shows every row in its original order. */
  lemma EmptySearchKeepsAll(rows: seq<CampRow>)
    ensures FilteredCamps(rows, "") == rows
  {
    forall row | row in rows ensures KeepRow("", row) {
      EmptyTermMatches(row.campName);
    }
    FilterAll(rows, row => KeepRow("", row));
  }

  /** `paginatedCamps`: page `page` of the filtered rows. */
  function ShownRows(rows: seq<CampRow>, term: string, page: int): (r: seq<CampRow>)
    ensures |r| <= ItemsPerPage
    ensures page >= 1 ==> r == FilteredCamps(rows, term)[Min(StartIndex(page, ItemsPerPage), |FilteredCamps(rows, term)|)
                                                          ..Min(StartIndex(page, ItemsPerPage) + ItemsPerPage, |FilteredCamps(rows, term)|)]
    ensures forall row :: row in r ==> row in rows && KeepRow(term, row)
  {
    Page(FilteredCamps(rows, term), page, ItemsPerPage)
  }

  // ------------------------------------------------------------ buttons

  /** The buttons of one row: Pay (else a "Paid" badge), then either Cancel or Feedback. */
  datatype RowActions = RowActions(pay: bool, cancel: bool, feedback: bool, feedbackDisabled: bool)

  function Actions(row: CampRow): (a: RowActions)
    ensures a.pay <==> row.paymentStatus != "paid"
    ensures a.cancel <==> row.paymentStatus == "unpaid"
    ensures a.feedback <==> !a.cancel
    ensures a.feedbackDisabled <==> a.feedback && row.feedbackSubmitted
  {
    RowActions(
      row.paymentStatus != "paid",
      row.paymentStatus == "unpaid",
      row.paymentStatus != "unpaid",
      row.paymentStatus != "unpaid" && row.feedbackSubmitted)
  }

  /** An unpaid registration offers Pay and Cancel; a paid one offers only feedback. */
  lemma ActionsByStatus(row: CampRow)
    ensures row.paymentStatus == "unpaid" ==> Actions(row).pay && Actions(row).cancel && !Actions(row).feedback
    ensures row.paymentStatus == "paid" ==> !Actions(row).pay && !Actions(row).cancel && Actions(row).feedback
    ensures row.paymentStatus !in {"paid", "unpaid"} ==> Actions(row).pay && Actions(row).feedback
  {
  }

  /** `camp.confirmationStatus || "Pending"`. */
  function ConfirmationLabel(row: CampRow): (s: string)
    ensures s != ""
    ensures row.confirmationStatus.Some? && row.confirmationStatus.value != "" ==> s == row.confirmationStatus.value
    ensures (row.confirmationStatus.None? || row.confirmationStatus.value == "") ==> s == "Pending"
  {
    match row.confirmationStatus
    case Some(c) => if c != "" then c else "Pending"
    case None => "Pending"
  }

  // ------------------------------------------------------- page state

  datatype FeedbackModal = FeedbackModal(open: bool, regId: Option<string>)

  datatype View = View(
    searchTerm: string,
    currentPage: int,
    modal: FeedbackModal,
    rating: int,
    comment: string)

  function InitialView(): View {
    View("", 1, FeedbackModal(false, None), 0, "")
  }

  /** Typing in the search box: the new term, back to page 1. */
  function Type(v: View, text: string): (v': View)
    ensures v'.searchTerm == text && v'.currentPage == 1
    ensures v'.modal == v.modal && v'.rating == v.rating && v'.comment == v.comment
  {
    v.(searchTerm := text, currentPage := 1)
  }

  /** The clear button: empty term, back to page 1. */
  function ClearSearch(v: View): (v': View)
    ensures v'.searchTerm == "" && v'.currentPage == 1
    ensures v'.modal == v.modal && v'.rating == v.rating && v'.comment == v.comment
  {
    v.(searchTerm := "", currentPage := 1)
  }

  function TotalPagesOf(rows: seq<CampRow>, v: View): nat {
    TotalPages(|FilteredCamps(rows, v.searchTerm)|, ItemsPerPage)
  }

  /** The Previous button: one page back, never below page 1; nothing else changes. The same rule as `ManageCamps.PreviousPage`, on this page's view. */
  function PreviousPage(v: View): (v': View)
    ensures v.currentPage > 1 ==> v'.currentPage == v.currentPage - 1
    ensures v.currentPage <= 1 ==> v'.currentPage == 1
    ensures v' == v.(currentPage := v'.currentPage)
  {
    v.(currentPage := Previous(v.currentPage))
  }

  /** The Next button: one page forward, never past the last page; nothing else changes. */
  function NextPage(rows: seq<CampRow>, v: View): (v': View)
    ensures v.currentPage < TotalPagesOf(rows, v) ==> v'.currentPage == v.currentPage + 1
    ensures v.currentPage >= TotalPagesOf(rows, v) ==> v'.currentPage == TotalPagesOf(rows, v)
    ensures v' == v.(currentPage := v'.currentPage)
  {
    v.(currentPage := Next(v.currentPage, TotalPagesOf(rows, v)))
  }

  /** Opening the dialog on a row records that row's registration id. */
  function OpenFeedback(v: View, row: CampRow): (v': View)
    ensures v'.modal == FeedbackModal(true, Some(row.id))
    ensures v'.rating == v.rating && v'.comment == v.comment
  {
    v.(modal := FeedbackModal(true, Some(row.id)))
  }

  /** Successful submit and the dialog's cancel both close the dialog and clear its fields. */
  function ResetFeedback(v: View): (v': View)
    ensures !v'.modal.open && v'.modal.regId.None?
    ensures v'.rating == 0 && v'.comment == ""
    ensures v'.searchTerm == v.searchTerm && v'.currentPage == v.currentPage
  {
    v.(modal := FeedbackModal(false, None), rating := 0, comment := "")
  }

  // ---------------------------------------------------------- feedback

  datatype FeedbackPayload = FeedbackPayload(rating: int, comment: string)

  /** What pressing Submit leads to: an error message, or one POST. */
  datatype Submission = Refused(message: string) | Send(regId: string, payload: FeedbackPayload)

  /**
    `handleFeedbackSubmit` followed by the mutation: the handler checks rating
    then comment; the mutation checks the registration id, then the same two
    again, and posts the numeric rating with the trimmed comment. A missing
    id surfaces through the mutation's `onError` with its prefix.
   */
  function SubmitFeedback(v: View): (s: Submission)
    ensures s.Send? <==> v.rating != 0 && Trim(v.comment) != "" && v.modal.regId.Some? && v.modal.regId.value != ""
    ensures s.Send? ==> s.regId == v.modal.regId.value
    ensures s.Send? ==> s.payload.rating == v.rating && s.payload.rating != 0
    ensures s.Send? ==> s.payload.comment == Trim(v.comment) && s.payload.comment != ""
    ensures v.rating == 0 ==> s == Refused("Please provide a rating")
    ensures v.rating != 0 && IsBlank(v.comment) ==> s == Refused("Please provide a comment")
    ensures v.rating != 0 && !IsBlank(v.comment) && (v.modal.regId.None? || v.modal.regId.value == "") ==>
      s == Refused("Failed to submit feedback: Registration ID is missing")
  {
    if v.rating == 0 then Refused("Please provide a rating")
    else if Trim(v.comment) == "" then Refused("Please provide a comment")
    else if v.modal.regId.None? || v.modal.regId.value == "" then Refused("Failed to submit feedback: Registration ID is missing")
    else Send(v.modal.regId.value, FeedbackPayload(v.rating, Trim(v.comment)))
  }

  /** The comment that is sent has no surrounding whitespace and occurs inside what was typed. */
  lemma SentCommentIsTrimmed(v: View)
    requires SubmitFeedback(v).Send?
    ensures var c := SubmitFeedback(v).payload.comment;
      !IsSpace(c[0]) && !IsSpace(c[|c| - 1]) && Contains(v.comment, c)
  {
    var c := SubmitFeedback(v).payload.comment;
    TrimIsWindow(v.comment);
    ContainsIff(v.comment, c);
  }

  /** After a reset nothing can be sent until a rating, a comment and a row are chosen again. */
  lemma ResetBlocksSubmit(v: View)
    ensures SubmitFeedback(ResetFeedback(v)).Refused?
  {
  }
}

=== FILE: payment_history.dfy ===
/**
  The participant's payment history: a search over transaction id, parcel
  id, amount and date text, ten payments to a page numbered from 1, and
  the three summary figures.

  The date column is compared through its locale text, which depends on
  the browser; here that text is part of the row (`dateText`).
 */
module PaymentHistory {
  import opened Text
  import opened Listing

  const ItemsPerPage: nat := 10

  /** A payment as the page reads it; absent fields are `None`. */
  datatype PaymentRow = PaymentRow(
    transactionId: Option<string>,
    parcelId: Option<string>,
    amount: Option<int>,
    dateText: Option<string>)

  /** `field?.toLowerCase().includes(lower)`: an absent field never matches. */
  predicate FieldMatches(field: Option<string>, term: string) {
    field.Some? && MatchesTerm(field.value, term)
  }

  predicate KeepPayment(term: string, p: PaymentRow) {
    || FieldMatches(p.transactionId, term)
    || FieldMatches(p.parcelId, term)
    || (p.amount.Some? && MatchesTerm(IntToString(p.amount.value), term))
    || FieldMatches(p.dateText, term)
  }

  /** `filteredPayments`: the whole list for an empty term, the matching payments otherwise. */
  function FilteredPayments(payments: seq<PaymentRow>, term: string): (r: seq<PaymentRow>)
    ensures term == "" ==> r == payments
    ensures term != "" ==> forall p :: p in r <==> p in payments && KeepPayment(term, p)
    ensures |r| <= |payments|
  {
    FilterMembers(payments, p => KeepPayment(term, p));
    if term == "" then payments else Filter(payments, p => KeepPayment(term, p))
  }

  /** A payment with no fields at all is listed only while the search is empty. */
  lemma EmptyPaymentOnlyUnfiltered(payments: seq<PaymentRow>, term: string)
    requires PaymentRow(None, None, None, None) in payments
    ensures PaymentRow(None, None, None, None) in FilteredPayments(payments, term) <==> term == ""
  {
  }

  /** A payment is found by any part of its amount's decimal text. */
  lemma AmountFound(payments: seq<PaymentRow>, p: PaymentRow, term: string)
    requires p in payments && p.amount.Some? && term != ""
    requires Contains(Lower(IntToString(p.amount.value)), Lower(term))
    ensures p in FilteredPayments(payments, term)
  {
  }

  function ShownPayments(payments: seq<PaymentRow>, term: string, page: int): (r: seq<PaymentRow>)
    ensures |r| <= ItemsPerPage
    ensures page >= 1 ==> r == FilteredPayments(payments, term)[Min(StartIndex(page, ItemsPerPage), |FilteredPayments(payments, term)|)
                                                                ..Min(StartIndex(page, ItemsPerPage) + ItemsPerPage, |FilteredPayments(payments, term)|)]
  {
    Page(FilteredPayments(payments, term), page, ItemsPerPage)
  }

  /** The "#" column: `startIndex + index + 1`. */
  function RowNumber(page: int, index: nat): int {
    StartIndex(page, ItemsPerPage) + index + 1
  }

  /** The number shown beside a row is its one-based position in the filtered list. */
  lemma RowNumberIsPosition(payments: seq<PaymentRow>, term: string, page: int, index: nat)
    requires page >= 1 && index < |ShownPayments(payments, term, page)|
    ensures 1 <= RowNumber(page, index) <= |FilteredPayments(payments, term)|
    ensures ShownPayments(payments, term, page)[index]
      == FilteredPayments(payments, term)[RowNumber(page, index) - 1]
  {
    PageRow(FilteredPayments(payments, term), page, ItemsPerPage, index);
    PageBounds(page, ItemsPerPage);
  }

  /** After typing, the table shows the first ten matching payments, numbered from 1. */
  lemma TypingShowsFirstRows(payments: seq<PaymentRow>, v: SearchView, text: string, index: nat)
    ensures ShownPayments(payments, Type(v, text).searchTerm, Type(v, text).currentPage)
      == FilteredPayments(payments, text)[..Min(ItemsPerPage, |FilteredPayments(payments, text)|)]
    ensures RowNumber(Type(v, text).currentPage, index) == index + 1
  {
    StartIndexIsProduct(1, ItemsPerPage);
  }

  /** `Number(p.amount ?? 0)`. */
  function AmountValue(p: PaymentRow): int {
    match p.amount case Some(a) => a case None => 0
  }

  /** `reduce((sum, p) => sum + Number(p.amount ?? 0), 0)`. */
  function TotalAmount(ps: seq<PaymentRow>): int {
    if ps == [] then 0 else AmountValue(ps[0]) + TotalAmount(ps[1..])
  }

  lemma {:induction false} TotalAmountAppend(a: seq<PaymentRow>, b: seq<PaymentRow>)
    ensures TotalAmount(a + b) == TotalAmount(a) + TotalAmount(b)
  {
    if a == [] {
      assert a + b == b;
    } else {
      assert (a + b)[1..] == a[1..] + b;
      TotalAmountAppend(a[1..], b);
    }
  }

  /** Payments without an amount add nothing to the total. */
  lemma {:induction false} MissingAmountsAddNothing(ps: seq<PaymentRow>)
    requires forall k :: 0 <= k < |ps| ==> ps[k].amount.None?
    ensures TotalAmount(ps) == 0
  {
    if ps != [] {
      MissingAmountsAddNothing(ps[1..]);
    }
  }

  /** The pages' amounts, added up, give the "Total Amount" figure. */
  lemma TotalOverAllPages(ps: seq<PaymentRow>)
    ensures TotalAmount(PagesFrom(ps, ItemsPerPage, 1, TotalPages(|ps|, ItemsPerPage))) == TotalAmount(ps)
  {
    PagesCoverList(ps, ItemsPerPage);
  }

  datatype Stats = Stats(count: nat, total: int, lastPayment: Option<Option<string>>)

  /** The summary cards: count and total of the filtered payments and the first one's date. */
  function Statistics(payments: seq<PaymentRow>, term: string): (s: Stats)
    ensures s.count == |FilteredPayments(payments, term)|
    ensures s.lastPayment.None? <==> FilteredPayments(payments, term) == []
    ensures s.lastPayment.Some? ==> s.lastPayment.value == FilteredPayments(payments, term)[0].dateText
    ensures s.total == TotalAmount(FilteredPayments(payments, term))
    ensures term == "" ==> s.total == TotalAmount(payments)
  {
    var f := FilteredPayments(payments, term);
    Stats(|f|, TotalAmount(f), if |f| > 0 then Some(f[0].dateText) else None)
  }
}

=== FILE: read_back.dfy ===
/**
  The read routes against the writes that feed them: what a handler
  stores, the matching `GET` hands back, in the order the listing promises.
 */
module ReadBack {
  import opened Text
  import opened JsValues
  import opened ObjectIds
  import opened Store
  import opened Auth
  import opened Routes

  /** A new camp is fetched back by the id text the insert reported. */
  lemma PostedCampFetched(s: Store, b: CampBody)
    requires Valid(s) && FreshId(s).value < IdLimit
    requires Truthy(b.campName) && Truthy(b.createdBy)
    ensures var r := PostCamp(s, b);
      && r.status == Created
      && GetCamp(r.store, ObjectIdText(FreshId(s))) == Reply(Ok, CampDoc(NewCamp(b)), r.store)
  {
    ParseObjectIdText(FreshId(s));
  }

  /** A new camp appears in its creator's organizer listing once the creator passes both guards. */
  lemma PostedCampListedForCreator(s: Store, b: CampBody, header: Option<string>, verify: Verifier,
                                   email: Option<string>)
    requires Valid(s)
    requires Truthy(b.campName) && b.createdBy == QueryValue(email) && Truthy(b.createdBy)
    requires VerifyFBToken(header, verify).Pass?
    requires EmailMatches(VerifyFBToken(header, verify).email, email)
    requires VerifyAdmin(s.users, email).Pass?
    ensures var a := GetOrganizerCamps(PostCamp(s, b).store, header, verify, email);
      a.status == Ok && FreshId(s) in a.rows
  {
  }

  /** Keeping the payments of one e-mail commutes with appending one payment. */
  lemma {:induction false} PaymentsOfSnoc(ps: seq<Payment>, p: Payment, email: Js)
    ensures PaymentsOf(ps + [p], email)
      == PaymentsOf(ps, email) + (if p.participantEmail == email then [p] else [])
    decreases |ps|
  {
    if ps == [] {
      assert PaymentsOf([p], email) == (if p.participantEmail == email then [p] else []) + PaymentsOf([], email);
    } else {
      assert (ps + [p])[1..] == ps[1..] + [p];
      PaymentsOfSnoc(ps[1..], p, email);
    }
  }

  /** After a payment, the payer's history lists that payment first. */
  lemma PaymentListedFirst(s: Store, idText: string, t: Js, header: Option<string>, verify: Verifier,
                           email: Option<string>)
    requires ParseObjectId(idText).Some? && ParseObjectId(idText).value in s.registrations
    requires QueryValue(email) == s.registrations[ParseObjectId(idText).value].participantEmail
    requires VerifyFBToken(header, verify).Pass?
    requires EmailMatches(VerifyFBToken(header, verify).email, email)
    ensures var rid := ParseObjectId(idText).value;
      var reg := s.registrations[rid];
      var a := GetPayments(Pay(s, idText, t).store, header, verify, email);
      && a.status == Ok
      && |a.rows| >= 1
      && a.rows[0] == Payment(rid, reg.participantEmail, reg.campId, t, AmountOf(reg.campFees))
  {
    var rid := ParseObjectId(idText).value;
    var reg := s.registrations[rid];
    var p := Payment(rid, reg.participantEmail, reg.campId, t, AmountOf(reg.campFees));
    var s' := Pay(s, idText, t).store;
    assert s'.payments == s.payments + [p];
    PaymentsOfSnoc(s.payments, p, QueryValue(email));
  }

  /** Joining one more feedback record adds its row at the end, if its registration and camp exist. */
  lemma {:induction false} JoinFeedbackSnoc(s: Store, fs: seq<Feedback>, f: Feedback)
    ensures JoinFeedback(s, fs + [f]) == JoinFeedback(s, fs)
      + (if f.registrationId in s.registrations && f.campId in s.camps
         then [FeedbackRow(f.rating, f.comment, s.camps[f.campId].campName, f.participantEmail)] else [])
    decreases |fs|
  {
    if fs == [] {
      assert JoinFeedback(s, [f]) == JoinFeedback(s, [f]) + JoinFeedback(s, []);
    } else {
      assert (fs + [f])[1..] == fs[1..] + [f];
      JoinFeedbackSnoc(s, fs[1..], f);
    }
  }

  /** Accepted feedback on a camp that still exists heads the newest-first listing. */
  lemma FeedbackListedFirst(s: Store, idText: string, rating: Js, comment: Js)
    requires Truthy(rating) && Truthy(comment)
    requires ParseObjectId(idText).Some? && ParseObjectId(idText).value in s.registrations
    requires s.registrations[ParseObjectId(idText).value].paymentStatus == Paid
    requires s.registrations[ParseObjectId(idText).value].campId in s.camps
    ensures var reg := s.registrations[ParseObjectId(idText).value];
      var rows := ListFeedback(SubmitFeedback(s, idText, rating, comment).store);
      && |rows| >= 1
      && rows[0] == FeedbackRow(rating, comment, s.camps[reg.campId].campName, reg.participantEmail)
  {
    var rid := ParseObjectId(idText).value;
    var reg := s.registrations[rid];
    var f := Feedback(rid, reg.participantEmail, reg.campId, rating, comment);
    var s' := SubmitFeedback(s, idText, rating, comment).store;
    assert s'.feedback == s.feedback + [f];
    JoinFeedbackSnoc(s', s.feedback, f);
  }
}

=== FILE: register_page.dfy ===
/**
  The sign-up page: the three field rules the form library checks before
  submitting, the user record posted to `/users`, and the message shown
  for a failed sign-up. Account creation and the photo upload are calls
  into Firebase and an image host; their outcomes are inputs here.
 */
module RegisterPage {
  import opened Text
  import opened JsValues
  import Store
  import Auth
  import Routes
  import Lifecycle

  // --------------------------------------------------------------- name

  /** The name rules: `required`, then the trimmed name must be non-empty. */
  function NameError(name: string): (e: Option<string>)
    ensures e.None? <==> Trim(name) != ""
    ensures name == "" ==> e == Some("Name is required")
    ensures name != "" && IsBlank(name) ==> e == Some("Name cannot be empty")
  {
    if name == "" then Some("Name is required")
    else if Trim(name) == "" then Some("Name cannot be empty")
    else None
  }

  // -------------------------------------------------------------- email

  /** A character `[^\s@]` admits. */
  predicate Plain(c: char) { !IsSpace(c) && c != '@' }

  predicate AllPlain(s: string) { forall k :: 0 <= k < |s| ==> Plain(s[k]) }

  /**
    `/^[^\s@]+@[^\s@]+\.[^\s@]+$/` matched with `@` at `i` and the literal
    `.` at `j`: three non-empty runs of plain characters around them.
   */
  ghost predicate PatternSplit(s: string, i: int, j: int) {
    && 0 < i && i + 1 < j && j + 1 < |s|
    && s[i] == '@' && s[j] == '.'
    && AllPlain(s[..i]) && AllPlain(s[i + 1..j]) && AllPlain(s[j + 1..])
  }

  /** A dot with at least one character on each side. */
  predicate HasInnerDot(r: string) {
    exists j | 0 < j < |r| - 1 :: r[j] == '.'
  }

  /** The email check as the page runs it: one `@`, not first, no whitespace, an inner dot after it. */
  predicate EmailAccepted(s: string) {
    match IndexOf(s, '@')
    case None => false
    case Some(i) => i > 0 && AllPlain(s[..i]) && AllPlain(s[i + 1..]) && HasInnerDot(s[i + 1..])
  }

  /** The scan accepts exactly the strings the pattern matches. */
  lemma EmailAcceptedIff(s: string)
    ensures EmailAccepted(s) <==> exists i, j :: PatternSplit(s, i, j)
  {
    if EmailAccepted(s) {
      var i := IndexOf(s, '@').value;
      var r := s[i + 1..];
      var j' :| 0 < j' < |r| - 1 && r[j'] == '.';
      var j := i + 1 + j';
      assert s[i + 1..j] == r[..j'];
      assert s[j + 1..] == r[j' + 1..];
      assert PatternSplit(s, i, j);
    }
    if i, j :| PatternSplit(s, i, j) {
      assert IndexOf(s, '@') == Some(i) by {
        assert forall k :: 0 <= k < i ==> s[k] == s[..i][k];
      }
      var r := s[i + 1..];
      assert AllPlain(r) by {
        forall k | 0 <= k < |r| ensures Plain(r[k]) {
          if k + i + 1 < j {
            assert r[k] == s[i + 1..j][k];
          } else if k + i + 1 > j {
            assert r[k] == s[j + 1..][k + i - j];
          }
        }
      }
      assert r[j - i - 1] == '.';
    }
  }

  /** An accepted address holds a single `@`: a string with two is refused. */
  lemma TwoAtSignsRefused(s: string, i: nat, j: nat)
    requires i < j < |s| && s[i] == '@' && s[j] == '@'
    ensures !EmailAccepted(s)
  {
    match IndexOf(s, '@')
    case None =>
    case Some(f) =>
      assert f <= i;
      assert s[f + 1..][j - f - 1] == '@';
  }

  /** The email rules: `required`, then the pattern. */
  function EmailError(s: string): (e: Option<string>)
    ensures e.None? <==> EmailAccepted(s)
    ensures s == "" ==> e == Some("Email is required")
  {
    if s == "" then Some("Email is required")
    else if !EmailAccepted(s) then Some("Invalid email address")
    else None
  }

  // ----------------------------------------------------------- password

  predicate HasLower(p: string) { exists k | 0 <= k < |p| :: IsLowerAscii(p[k]) }
  predicate HasUpper(p: string) { exists k | 0 <= k < |p| :: IsUpperAscii(p[k]) }
  predicate HasDigit(p: string) { exists k | 0 <= k < |p| :: IsDigit(p[k]) }

  /**
    The password rules: `required`, `minLength: 6` in UTF-16 code units,
    then a lower-case letter, an upper-case letter and a digit.
   */
  function PasswordError(p: string): (e: Option<string>)
    ensures e.None? <==> Utf16Length(p) >= 6 && HasLower(p) && HasUpper(p) && HasDigit(p)
    ensures p == "" ==> e == Some("Password is required")
    ensures p != "" && Utf16Length(p) < 6 ==> e == Some("Password must be at least 6 characters")
  {
    if p == "" then Some("Password is required")
    else if Utf16Length(p) < 6 then Some("Password must be at least 6 characters")
    else if !(HasLower(p) && HasUpper(p) && HasDigit(p)) then
      Some("Password must have uppercase, lowercase and a number")
    else None
  }

  /** An accepted password holds at least three distinct characters. */
  lemma AcceptedPasswordMixed(p: string)
    requires PasswordError(p).None?
    ensures exists a, b, c :: (
      && 0 <= a < |p| && 0 <= b < |p| && 0 <= c < |p|
      && p[a] != p[b] && p[b] != p[c] && p[a] != p[c])
  {
    var a :| 0 <= a < |p| && IsLowerAscii(p[a]);
    var b :| 0 <= b < |p| && IsUpperAscii(p[b]);
    var c :| 0 <= c < |p| && IsDigit(p[c]);
    assert p[a] != p[b] && p[b] != p[c] && p[a] != p[c];
  }

  // ------------------------------------------------------------ records

  /** The body posted to `/users` (the two timestamps are left out). */
  datatype UserInfo = UserInfo(email: Js, role: string, name: string, photoURL: string)

  /** The record built after Firebase created the account. */
  function SignUpRecord(email: string, name: string, profilePic: Option<string>): (u: UserInfo)
    ensures u.role == "user"
    ensures u.email == Str(email)
    ensures u.name == Trim(name)
    ensures profilePic.None? ==> u.photoURL == ""
  {
    UserInfo(Str(email), "user", Trim(name), match profilePic case Some(p) => p case None => "")
  }

  /** A name that passed its rule is sent without surrounding whitespace and is never empty. */
  lemma SentNameTrimmed(email: string, name: string, profilePic: Option<string>)
    requires NameError(name).None?
    ensures SignUpRecord(email, name, profilePic).name != ""
    ensures !IsSpace(SignUpRecord(email, name, profilePic).name[0])
    ensures !IsSpace(SignUpRecord(email, name, profilePic).name[|SignUpRecord(email, name, profilePic).name| - 1])
  {
    var t := Trim(name);
    assert t != "";
    assert !IsSpace(t[0]) && !IsSpace(t[|t| - 1]);
    assert SignUpRecord(email, name, profilePic).name == t;
  }

  /** The server's view of the record. */
  function AsRequestBody(u: UserInfo): Routes.UserBody {
    Routes.UserBody(u.email, Str(u.name), Undefined, Str(u.photoURL), Str(u.role))
  }

  /**
    A user record with role `'user'` and a new, non-empty email is stored as
    posted, so the admin check refuses that email afterwards.
   */
  lemma UserRecordNeverAdmin(s: Store.Store, u: UserInfo, email: string)
    requires Store.Valid(s) && email != ""
    requires u.email == Str(email) && u.role == "user"
    requires Store.FindUser(s.users, Str(email)).None?
    ensures Routes.PostUser(s, AsRequestBody(u)).status == Routes.Created
    ensures Auth.VerifyAdmin(Routes.PostUser(s, AsRequestBody(u)).store.users, Some(email)).Deny?
  {
    var b := AsRequestBody(u);
    assert b.email == Str(email) && b.role == Str("user");
    assert !Routes.HasUserId(s.users, Store.FreshId(s)) by {
      forall k | 0 <= k < |s.users| ensures s.users[k].id != Store.FreshId(s) {
        assert s.users[k].id.value < s.nextId;
      }
    }
    var r := Routes.PostUser(s, b);
    Lifecycle.PostUserPreservesValid(s, b);
    Store.FindUserUnique(r.store, Str(email), |s.users|);
  }

  /** A newly signed-up user is stored with role `'user'` and is refused by the admin check. */
  lemma SignUpNeverAdmin(s: Store.Store, email: string, name: string, profilePic: Option<string>)
    requires Store.Valid(s) && email != ""
    requires Store.FindUser(s.users, Str(email)).None?
    ensures var s' := Routes.PostUser(s, AsRequestBody(SignUpRecord(email, name, profilePic))).store;
      Auth.VerifyAdmin(s'.users, Some(email)).Deny?
  {
    UserRecordNeverAdmin(s, SignUpRecord(email, name, profilePic), email);
  }

  // ------------------------------------------------------------- errors

  /** The toast for a failed sign-up: three known Firebase codes, else the error's message, else a default. */
  function FailureMessage(code: Option<string>, message: Option<string>): (m: string)
    ensures m != ""
    ensures code == Some("auth/email-already-in-use") ==> m == "This email is already registered."
    ensures code == Some("auth/invalid-email") ==> m == "Invalid email format."
    ensures code == Some("auth/weak-password") ==> m == "Password is too weak."
    ensures code !in {Some("auth/email-already-in-use"), Some("auth/invalid-email"), Some("auth/weak-password")} ==>
      m == (if message.Some? && message.value != "" then message.value else "Registration failed")
  {
    match code
    case Some("auth/email-already-in-use") => "This email is already registered."
    case Some("auth/invalid-email") => "Invalid email format."
    case Some("auth/weak-password") => "Password is too weak."
    case _ => if message.Some? && message.value != "" then message.value else "Registration failed"
  }
}

=== FILE: routes.dfy ===
/**
  The Express route handlers of the server, each one atomic transition of
  the store. A handler answers with a status, a body and the new store.

  Inserts whose fresh identifier already names a document fail as MongoDB's
  duplicate-key error does, caught by the handler's `catch` (500); on a
  store satisfying `Store.Valid` this never happens.
 */
module Routes {
  import opened Text
  import opened JsValues
  import opened ObjectIds
  import opened Store
  import opened Auth

  const Ok: nat := 200
  const Created: nat := 201
  const BadRequest: nat := 400
  const NotFound: nat := 404
  const ServerError: nat := 500

  datatype Body =
    | Message(text: string)
    | InsertedId(id: ObjectId)
    | NotInserted
    | Count(n: nat)
    | CampDoc(camp: Camp)
    | Role(role: Js)

  datatype Reply = Reply(status: nat, body: Body, store: Store)

  datatype CampBody = CampBody(
    campName: Js, campFees: Js, dateTime: Js, location: Js, image: Js,
    description: Js, healthcareProfessionalName: Js, createdBy: Js)

  datatype CampUpdate = CampUpdate(campName: Js, dateTime: Js, location: Js, healthcareProfessionalName: Js)

  datatype ParticipantBody = ParticipantBody(
    participantName: Js, participantEmail: Js, age: Js, phoneNumber: Js, gender: Js, emergencyContact: Js)

  datatype UserBody = UserBody(email: Js, name: Js, image: Js, photoURL: Js, role: Js)

  /** `users` has a document with `_id` equal to `id`. */
  predicate HasUserId(users: seq<User>, id: ObjectId) {
    exists k | 0 <= k < |users| :: users[k].id == id
  }

  // ---------------------------------------------------------------- users

  /** `POST /users`: insert a user unless one with the same email exists. */
  function PostUser(s: Store, b: UserBody): (r: Reply)
    ensures !Truthy(b.email) ==> r.status == BadRequest && r.store == s
    ensures Truthy(b.email) && FindUser(s.users, b.email).Some? ==>
      r.status == Ok && r.body == NotInserted && r.store == s
    ensures r.status == Created <==>
      Truthy(b.email) && FindUser(s.users, b.email).None? && !HasUserId(s.users, FreshId(s))
    ensures r.status == Created ==>
      && r.body == InsertedId(FreshId(s))
      && |r.store.users| == |s.users| + 1 && r.store.users[..|s.users|] == s.users
      && r.store.users[|s.users|].email == b.email
      && r.store.users[|s.users|].name == Or(b.name, Str(""))
      && r.store.users[|s.users|].image == Or(b.image, Or(b.photoURL, Str("")))
      && r.store.users[|s.users|].role == b.role
      && r.store == s.(users := r.store.users, nextId := s.nextId + 1)
    ensures r.status != Created ==> r.store == s
  {
    if !Truthy(b.email) then Reply(BadRequest, Message("Email is required"), s)
    else if FindUser(s.users, b.email).Some? then Reply(Ok, NotInserted, s)
    else if HasUserId(s.users, FreshId(s)) then Reply(ServerError, Message("duplicate key"), s)
    else
      var u := User(FreshId(s), b.email, Or(b.name, Str("")), Or(b.image, Or(b.photoURL, Str(""))), b.role);
      Reply(Created, InsertedId(FreshId(s)), s.(users := s.users + [u], nextId := s.nextId + 1))
  }

  /** `GET /users/:email/role`: the stored role, `'user'` when it is falsy; 404 for an unknown email. */
  function GetUserRole(s: Store, email: string): (r: Reply)
    ensures r.store == s
    ensures email == "" ==> r.status == BadRequest
    ensures email != "" && FindUser(s.users, Str(email)).None? ==> r.status == NotFound
    ensures r.status == Ok <==> email != "" && FindUser(s.users, Str(email)).Some?
    ensures r.status == Ok ==> (
      && r.body.Role? && Truthy(r.body.role)
      && (Truthy(s.users[FindUser(s.users, Str(email)).value].role) ==>
            r.body.role == s.users[FindUser(s.users, Str(email)).value].role)
      && (!Truthy(s.users[FindUser(s.users, Str(email)).value].role) ==> r.body.role == Str("user")))
  {
    if email == "" then Reply(BadRequest, Message("Email is required"), s)
    else match FindUser(s.users, Str(email))
      case None => Reply(NotFound, Message("User not found"), s)
      case Some(k) => Reply(Ok, Role(Or(s.users[k].role, Str("user"))), s)
  }

  /** Set the role of every user whose `_id` is `id` (at most one). */
  function SetRole(users: seq<User>, id: ObjectId, role: Js): (r: seq<User>)
    ensures |r| == |users|
    ensures forall k :: 0 <= k < |users| ==>
      r[k] == if users[k].id == id then users[k].(role := role) else users[k]
  {
    if users == [] then []
    else [if users[0].id == id then users[0].(role := role) else users[0]] + SetRole(users[1..], id, role)
  }

  /** `PATCH /users/:id/role`: any verified token may set any user's role to `'admin'` or `'user'`. */
  function PatchUserRole(s: Store, header: Option<string>, verify: Verifier, idText: string, role: Js): (r: Reply)
    ensures VerifyFBToken(header, verify).Deny? ==>
      r.status == VerifyFBToken(header, verify).status && r.store == s
    ensures VerifyFBToken(header, verify).Pass? && role != Str("admin") && role != Str("user") ==>
      r.status == BadRequest && r.store == s
    ensures r.status == Ok <==>
      VerifyFBToken(header, verify).Pass? && role in {Str("admin"), Str("user")} && ParseObjectId(idText).Some?
    ensures r.status == Ok ==>
      && r.store == s.(users := r.store.users)
      && |r.store.users| == |s.users|
      && forall k :: 0 <= k < |s.users| ==>
           r.store.users[k].role == (if s.users[k].id == ParseObjectId(idText).value then role else s.users[k].role)
           && r.store.users[k].email == s.users[k].email
           && r.store.users[k].id == s.users[k].id
    ensures r.status != Ok ==> r.store == s
  {
    match VerifyFBToken(header, verify)
    case Deny(st) => Reply(st, Message("unauthorized access"), s)
    case Pass(_) =>
      if role != Str("admin") && role != Str("user") then Reply(BadRequest, Message("Invalid role"), s)
      else match ParseObjectId(idText)
        case None => Reply(ServerError, Message("Failed to update user role"), s)
        case Some(id) => Reply(Ok, Message("User role updated"), s.(users := SetRole(s.users, id, role)))
  }

  // ---------------------------------------------------------------- camps

  /** The document `POST /camps` builds from a request body. */
  function NewCamp(b: CampBody): (c: Camp)
    ensures c.participantCount == 0
    ensures c.campFees.Num? || c.campFees.NaN?
  {
    Camp(b.campName, ToNumber(b.campFees), b.dateTime, b.location, b.image, b.description,
         b.healthcareProfessionalName, b.createdBy, 0)
  }

  /** `POST /camps`: 400 without a name or creator; otherwise a new camp with no participants. */
  function PostCamp(s: Store, b: CampBody): (r: Reply)
    ensures !Truthy(b.campName) || !Truthy(b.createdBy) ==> r.status == BadRequest && r.store == s
    ensures r.status == Created <==> Truthy(b.campName) && Truthy(b.createdBy) && FreshId(s) !in s.camps
    ensures r.status == Created ==>
      && r.body == InsertedId(FreshId(s))
      && r.store.camps.Keys == s.camps.Keys + {FreshId(s)}
      && r.store.camps[FreshId(s)].participantCount == 0
      && r.store.camps[FreshId(s)].campFees == ToNumber(b.campFees)
      && r.store.camps[FreshId(s)].campName == b.campName
      && r.store.camps[FreshId(s)].createdBy == b.createdBy
      && (forall c :: c in s.camps ==> r.store.camps[c] == s.camps[c])
      && r.store == s.(camps := r.store.camps, nextId := s.nextId + 1)
    ensures r.status != Created ==> r.store == s
  {
    if !Truthy(b.campName) || !Truthy(b.createdBy) then
      Reply(BadRequest, Message("Camp name and creator required"), s)
    else if FreshId(s) in s.camps then Reply(ServerError, Message("Failed to create camp"), s)
    else
      Reply(Created, InsertedId(FreshId(s)), s.(camps := s.camps[FreshId(s) := NewCamp(b)], nextId := s.nextId + 1))
  }

  /** `GET /camp/:id`. */
  function GetCamp(s: Store, idText: string): (r: Reply)
    ensures r.store == s
    ensures ParseObjectId(idText).None? <==> r.status == ServerError
    ensures ParseObjectId(idText).Some? && ParseObjectId(idText).value !in s.camps ==> r.status == NotFound
    ensures r.status == Ok <==> ParseObjectId(idText).Some? && ParseObjectId(idText).value in s.camps
    ensures r.status == Ok ==> r.body == CampDoc(s.camps[ParseObjectId(idText).value])
  {
    match ParseObjectId(idText)
    case None => Reply(ServerError, Message("Failed to fetch camp"), s)
    case Some(id) =>
      if id !in s.camps then Reply(NotFound, Message("Camp not found"), s)
      else Reply(Ok, CampDoc(s.camps[id]), s)
  }

  /** The four fields `PUT /update-camp/:id` overwrites. */
  function ApplyUpdate(c: Camp, u: CampUpdate): (c': Camp)
    ensures c'.campFees == c.campFees && c'.participantCount == c.participantCount
    ensures c'.image == c.image && c'.description == c.description && c'.createdBy == c.createdBy
  {
    c.(campName := u.campName, dateTime := u.dateTime, location := u.location,
       healthcareProfessionalName := u.healthcareProfessionalName)
  }

  /** `PUT /update-camp/:id`: answers 200 with the modified count even when no camp matches. */
  function UpdateCamp(s: Store, idText: string, u: CampUpdate): (r: Reply)
    ensures ParseObjectId(idText).None? <==> r.status == ServerError
    ensures r.status == ServerError ==> r.store == s
    ensures r.status == Ok ==> r.body.Count? && r.store == s.(camps := r.store.camps)
    ensures r.status == Ok ==> r.store.camps.Keys == s.camps.Keys
    ensures r.status == Ok && ParseObjectId(idText).value !in s.camps ==> r.body == Count(0) && r.store == s
    ensures r.status == Ok && ParseObjectId(idText).value in s.camps ==>
      var id := ParseObjectId(idText).value;
      && r.store.camps[id].campName == u.campName
      && r.store.camps[id].location == u.location
      && r.store.camps[id].participantCount == s.camps[id].participantCount
      && r.store.camps[id].campFees == s.camps[id].campFees
      && (forall c :: c in s.camps && c != id ==> r.store.camps[c] == s.camps[c])
      && (r.body == Count(1) <==> r.store.camps[id] != s.camps[id])
  {
    match ParseObjectId(idText)
    case None => Reply(ServerError, Message("Failed to update camp"), s)
    case Some(id) =>
      if id !in s.camps then Reply(Ok, Count(0), s)
      else
        var c' := ApplyUpdate(s.camps[id], u);
        Reply(Ok, Count(if c' == s.camps[id] then 0 else 1), s.(camps := s.camps[id := c']))
  }

  /** `DELETE /delete-camp/:campId`: removes the camp and leaves its registrations in place. */
  function DeleteCamp(s: Store, idText: string): (r: Reply)
    ensures ParseObjectId(idText).None? <==> r.status == ServerError
    ensures r.status == ServerError ==> r.store == s
    ensures r.status == Ok ==>
      var id := ParseObjectId(idText).value;
      && r.store.camps.Keys == s.camps.Keys - {id}
      && (forall c :: c in r.store.camps ==> r.store.camps[c] == s.camps[c])
      && r.store.registrations == s.registrations
      && r.store == s.(camps := r.store.camps)
      && (r.body == Count(1) <==> id in s.camps)
      && (r.body == Count(0) <==> id !in s.camps)
  {
    match ParseObjectId(idText)
    case None => Reply(ServerError, Message("Failed to delete camp"), s)
    case Some(id) => Reply(Ok, Count(if id in s.camps then 1 else 0), s.(camps := s.camps - {id}))
  }

  // -------------------------------------------------------- registrations

  /** All six participant fields are truthy. */
  predicate ParticipantFieldsPresent(b: ParticipantBody) {
    Truthy(b.participantName) && Truthy(b.participantEmail) && Truthy(b.age)
    && Truthy(b.phoneNumber) && Truthy(b.gender) && Truthy(b.emergencyContact)
  }

  /** `POST /participant/register/:campId`. The lookup for an existing registration is never used. */
  function Register(s: Store, campIdText: string, b: ParticipantBody): (r: Reply)
    ensures !ParticipantFieldsPresent(b) ==> r.status == BadRequest && r.store == s
    ensures ParticipantFieldsPresent(b) && ParseObjectId(campIdText).None? ==> r.status == ServerError
    ensures (ParticipantFieldsPresent(b) && ParseObjectId(campIdText).Some?
             && ParseObjectId(campIdText).value !in s.camps) ==> r.status == NotFound
    ensures r.status == Created <==> (
      && ParticipantFieldsPresent(b) && ParseObjectId(campIdText).Some?
      && ParseObjectId(campIdText).value in s.camps && FreshId(s) !in s.registrations)
    ensures r.status != Created ==> r.store == s
    ensures r.status == Created ==>
      var cid := ParseObjectId(campIdText).value;
      var rid := FreshId(s);
      && r.store.registrations.Keys == s.registrations.Keys + {rid}
      && (forall x :: x in s.registrations ==> r.store.registrations[x] == s.registrations[x])
      && r.store.registrations[rid].campId == cid
      && r.store.registrations[rid].participantEmail == b.participantEmail
      && r.store.registrations[rid].participantName == b.participantName
      && r.store.registrations[rid].paymentStatus == Unpaid
      && r.store.registrations[rid].confirmationStatus == Pending
      && r.store.registrations[rid].campFees == s.camps[cid].campFees
      && r.store.camps.Keys == s.camps.Keys
      && r.store.camps[cid].participantCount == s.camps[cid].participantCount + 1
      && r.store.camps[cid] == s.camps[cid].(participantCount := s.camps[cid].participantCount + 1)
      && (forall c :: c in s.camps && c != cid ==> r.store.camps[c] == s.camps[c])
      && r.store == s.(camps := r.store.camps, registrations := r.store.registrations, nextId := s.nextId + 1)
  {
    if !ParticipantFieldsPresent(b) then Reply(BadRequest, Message("All fields are required"), s)
    else match ParseObjectId(campIdText)
      case None => Reply(ServerError, Message("Registration failed"), s)
      case Some(cid) =>
        if cid !in s.camps then Reply(NotFound, Message("Camp not found"), s)
        else if FreshId(s) in s.registrations then Reply(ServerError, Message("Registration failed"), s)
        else
          var camp := s.camps[cid];
          var reg := Registration(cid, b.participantName, b.participantEmail, b.age, b.phoneNumber,
                                  b.gender, b.emergencyContact, camp.campFees, Unpaid, Pending, None);
          Reply(Created, Message("Registered successfully"),
                s.(registrations := s.registrations[FreshId(s) := reg],
                   camps := s.camps[cid := camp.(participantCount := camp.participantCount + 1)],
                   nextId := s.nextId + 1))
  }

  /** `DELETE /participant/camp/:registrationId/cancel`: whatever the payment status. */
  function Cancel(s: Store, idText: string): (r: Reply)
    ensures ParseObjectId(idText).None? <==> r.status == ServerError
    ensures ParseObjectId(idText).Some? && ParseObjectId(idText).value !in s.registrations ==>
      r.status == NotFound
    ensures r.status == Ok <==> ParseObjectId(idText).Some? && ParseObjectId(idText).value in s.registrations
    ensures r.status != Ok ==> r.store == s
    ensures r.status == Ok ==>
      var rid := ParseObjectId(idText).value;
      var cid := s.registrations[rid].campId;
      && r.store.registrations == s.registrations - {rid}
      && r.store.camps.Keys == s.camps.Keys
      && (cid in s.camps ==> r.store.camps[cid].participantCount == s.camps[cid].participantCount - 1)
      && (cid in s.camps ==> r.store.camps[cid] == s.camps[cid].(participantCount := s.camps[cid].participantCount - 1))
      && (forall c :: c in s.camps && c != cid ==> r.store.camps[c] == s.camps[c])
      && r.store == s.(camps := r.store.camps, registrations := r.store.registrations)
  {
    match ParseObjectId(idText)
    case None => Reply(ServerError, Message("Cancellation failed"), s)
    case Some(rid) =>
      if rid !in s.registrations then Reply(NotFound, Message("Registration not found"), s)
      else
        var cid := s.registrations[rid].campId;
        var camps := if cid in s.camps
          then s.camps[cid := s.camps[cid].(participantCount := s.camps[cid].participantCount - 1)]
          else s.camps;
        Reply(Ok, Message("Registration cancelled"), s.(camps := camps, registrations := s.registrations - {rid}))
  }

  /** `PUT /participant/camp/:registrationId/pay`: marks paid and appends a payment, on every call. */
  function Pay(s: Store, idText: string, transactionId: Js): (r: Reply)
    ensures ParseObjectId(idText).None? <==> r.status == ServerError
    ensures ParseObjectId(idText).Some? && ParseObjectId(idText).value !in s.registrations ==>
      r.status == NotFound
    ensures r.status == Ok <==> ParseObjectId(idText).Some? && ParseObjectId(idText).value in s.registrations
    ensures r.status != Ok ==> r.store == s
    ensures r.status == Ok ==>
      var rid := ParseObjectId(idText).value;
      var reg := s.registrations[rid];
      && r.store.registrations.Keys == s.registrations.Keys
      && r.store.registrations[rid].paymentStatus == Paid
      && r.store.registrations[rid].confirmationStatus == Confirmed
      && r.store.registrations[rid].transactionId == Some(transactionId)
      && r.store.registrations[rid].campId == reg.campId
      && r.store.registrations[rid].campFees == reg.campFees
      && r.store.registrations[rid].participantEmail == reg.participantEmail
      && (forall x :: x in s.registrations && x != rid ==> r.store.registrations[x] == s.registrations[x])
      && r.store.payments == s.payments + [Payment(rid, reg.participantEmail, reg.campId, transactionId, AmountOf(reg.campFees))]
      && r.store == s.(registrations := r.store.registrations, payments := r.store.payments)
  {
    match ParseObjectId(idText)
    case None => Reply(ServerError, Message("Failed to process payment"), s)
    case Some(rid) =>
      if rid !in s.registrations then Reply(NotFound, Message("Registration not found"), s)
      else
        var reg := s.registrations[rid];
        var reg' := reg.(paymentStatus := Paid, transactionId := Some(transactionId), confirmationStatus := Confirmed);
        var p := Payment(rid, reg.participantEmail, reg.campId, transactionId, AmountOf(reg.campFees));
        Reply(Ok, Message("Payment successful"),
              s.(registrations := s.registrations[rid := reg'], payments := s.payments + [p]))
  }

  /** `PUT /participant/camp/:registrationId/confirm`: 404 whenever nothing was modified. */
  function Confirm(s: Store, idText: string): (r: Reply)
    ensures ParseObjectId(idText).None? <==> r.status == ServerError
    ensures r.status == Ok <==> (
      && ParseObjectId(idText).Some? && ParseObjectId(idText).value in s.registrations
      && s.registrations[ParseObjectId(idText).value].confirmationStatus != Confirmed)
    ensures ParseObjectId(idText).Some? && !(r.status == Ok) ==> r.status == NotFound
    ensures r.status != Ok ==> r.store == s
    ensures r.status == Ok ==>
      var rid := ParseObjectId(idText).value;
      && r.store.registrations == s.registrations[rid := s.registrations[rid].(confirmationStatus := Confirmed)]
      && r.store == s.(registrations := r.store.registrations)
  {
    match ParseObjectId(idText)
    case None => Reply(ServerError, Message("Failed to update confirmation"), s)
    case Some(rid) =>
      if rid in s.registrations && s.registrations[rid].confirmationStatus != Confirmed then
        Reply(Ok, Message("Confirmation updated"),
              s.(registrations := s.registrations[rid := s.registrations[rid].(confirmationStatus := Confirmed)]))
      else Reply(NotFound, Message("Registration not found"), s)
  }

  /** `POST /participant/camp/:registrationId/feedback`: paid registrations only, any number of times. */
  function SubmitFeedback(s: Store, idText: string, rating: Js, comment: Js): (r: Reply)
    ensures !Truthy(rating) || !Truthy(comment) ==> r.status == BadRequest
    ensures Truthy(rating) && Truthy(comment) && ParseObjectId(idText).None? ==> r.status == ServerError
    ensures (Truthy(rating) && Truthy(comment) && ParseObjectId(idText).Some?
             && (ParseObjectId(idText).value !in s.registrations
                 || s.registrations[ParseObjectId(idText).value].paymentStatus != Paid)) ==> r.status == BadRequest
    ensures r.status == Created <==> (
      && Truthy(rating) && Truthy(comment) && ParseObjectId(idText).Some?
      && ParseObjectId(idText).value in s.registrations
      && s.registrations[ParseObjectId(idText).value].paymentStatus == Paid)
    ensures r.status != Created ==> r.store == s
    ensures r.status == Created ==>
      var rid := ParseObjectId(idText).value;
      var reg := s.registrations[rid];
      && r.store.feedback == s.feedback + [Feedback(rid, reg.participantEmail, reg.campId, rating, comment)]
      && r.store == s.(feedback := r.store.feedback)
  {
    if !Truthy(rating) || !Truthy(comment) then Reply(BadRequest, Message("Rating and comment required"), s)
    else match ParseObjectId(idText)
      case None => Reply(ServerError, Message("Failed to submit feedback"), s)
      case Some(rid) =>
        if rid !in s.registrations || s.registrations[rid].paymentStatus != Paid then
          Reply(BadRequest, Message("Only paid users can submit feedback"), s)
        else
          var reg := s.registrations[rid];
          Reply(Created, Message("Feedback submitted"),
                s.(feedback := s.feedback + [Feedback(rid, reg.participantEmail, reg.campId, rating, comment)]))
  }

  // ------------------------------------------------------------- listings

  datatype Answer<T> = Answer(status: nat, rows: T)

  /** One row of `GET /participant/camps`: the registration joined with its camp's current name and fee. */
  datatype RegistrationRow = RegistrationRow(
    id: ObjectId, campName: Js, campFees: Js, participantName: Js,
    paymentStatus: string, confirmationStatus: string)

  /** `GET /organizer-camp`: token, then admin role, then email match; the camps created by that email. */
  function GetOrganizerCamps(s: Store, header: Option<string>, verify: Verifier, email: Option<string>)
    : (r: Answer<set<ObjectId>>)
    ensures VerifyFBToken(header, verify).Deny? ==> r.status == VerifyFBToken(header, verify).status
    ensures r.status == Ok <==> (
      && VerifyFBToken(header, verify).Pass?
      && VerifyAdmin(s.users, VerifyFBToken(header, verify).email).Pass?
      && EmailMatches(VerifyFBToken(header, verify).email, email))
    ensures r.status != Ok ==> r.rows == {}
    ensures r.status == Ok ==> forall c :: c in r.rows <==> c in s.camps && s.camps[c].createdBy == QueryValue(email)
  {
    match VerifyFBToken(header, verify)
    case Deny(st) => Answer(st, {})
    case Pass(decoded) =>
      if VerifyAdmin(s.users, decoded).Deny? then Answer(Forbidden, {})
      else if !EmailMatches(decoded, email) then Answer(Forbidden, {})
      else Answer(Ok, set c | c in s.camps && s.camps[c].createdBy == QueryValue(email))
  }

  /** `GET /participant/camps`: email match before the missing-email 400; the join drops orphans. */
  function GetParticipantCamps(s: Store, header: Option<string>, verify: Verifier, email: Option<string>)
    : (r: Answer<set<RegistrationRow>>)
    ensures VerifyFBToken(header, verify).Deny? ==> r.status == VerifyFBToken(header, verify).status
    ensures VerifyFBToken(header, verify).Pass? && !EmailMatches(VerifyFBToken(header, verify).email, email) ==>
      r.status == Forbidden
    ensures (VerifyFBToken(header, verify).Pass? && EmailMatches(VerifyFBToken(header, verify).email, email)
             && (email.None? || email.value == "")) ==> r.status == BadRequest
    ensures r.status == Ok <==> (
      && VerifyFBToken(header, verify).Pass?
      && EmailMatches(VerifyFBToken(header, verify).email, email)
      && email.Some? && email.value != "")
    ensures r.status != Ok ==> r.rows == {}
    ensures r.status == Ok ==> forall row :: row in r.rows <==>
      && row.id in s.registrations
      && s.registrations[row.id].participantEmail == Str(email.value)
      && s.registrations[row.id].campId in s.camps
      && row == RegistrationRow(row.id, s.camps[s.registrations[row.id].campId].campName,
                                s.camps[s.registrations[row.id].campId].campFees,
                                s.registrations[row.id].participantName,
                                s.registrations[row.id].paymentStatus,
                                s.registrations[row.id].confirmationStatus)
  {
    match VerifyFBToken(header, verify)
    case Deny(st) => Answer(st, {})
    case Pass(decoded) =>
      if !EmailMatches(decoded, email) then Answer(Forbidden, {})
      else if email.None? || email.value == "" then Answer(BadRequest, {})
      else
        var regs := s.registrations;
        Answer(Ok, set r | r in regs && regs[r].participantEmail == Str(email.value) && regs[r].campId in s.camps
                     :: RegistrationRow(r, s.camps[regs[r].campId].campName, s.camps[regs[r].campId].campFees,
                                        regs[r].participantName, regs[r].paymentStatus, regs[r].confirmationStatus))
  }

  /** `xs` in reverse order. */
  function Reverse<T(!new)>(xs: seq<T>): (r: seq<T>)
    ensures |r| == |xs| && forall k :: 0 <= k < |xs| ==> r[k] == xs[|xs| - 1 - k]
    ensures forall x :: x in r <==> x in xs
  {
    if xs == [] then [] else Reverse(xs[1..]) + [xs[0]]
  }

  /** The payments whose participant email equals `email`, in insertion order. */
  function PaymentsOf(ps: seq<Payment>, email: Js): (r: seq<Payment>)
    ensures |r| <= |ps|
    ensures forall k :: 0 <= k < |r| ==> r[k].participantEmail == email && r[k] in ps
    ensures forall p :: p in ps && p.participantEmail == email ==> p in r
  {
    if ps == [] then []
    else (if ps[0].participantEmail == email then [ps[0]] else []) + PaymentsOf(ps[1..], email)
  }

  /**
    `GET /payments`: token, then email match (no missing-email check); newest
    first. `sort({ date: -1 })` on the insert-time `date` is taken as reverse
    insertion order, which assumes every insert is stamped strictly later
    than the one before.
   */
  function GetPayments(s: Store, header: Option<string>, verify: Verifier, email: Option<string>)
    : (r: Answer<seq<Payment>>)
    ensures VerifyFBToken(header, verify).Deny? ==> r.status == VerifyFBToken(header, verify).status
    ensures r.status == Ok <==> (
      VerifyFBToken(header, verify).Pass? && EmailMatches(VerifyFBToken(header, verify).email, email))
    ensures r.status != Ok ==> r.rows == []
    ensures r.status == Ok ==> r.rows == Reverse(PaymentsOf(s.payments, QueryValue(email)))
  {
    match VerifyFBToken(header, verify)
    case Deny(st) => Answer(st, [])
    case Pass(decoded) =>
      if !EmailMatches(decoded, email) then Answer(Forbidden, [])
      else Answer(Ok, Reverse(PaymentsOf(s.payments, QueryValue(email))))
  }

  datatype FeedbackRow = FeedbackRow(rating: Js, comment: Js, campName: Js, participantEmail: Js)

  /** The feedback records whose registration and camp both still exist, joined with the camp name. */
  function JoinFeedback(s: Store, fs: seq<Feedback>): (r: seq<FeedbackRow>)
    ensures |r| <= |fs|
    ensures forall f :: f in fs && f.registrationId in s.registrations && f.campId in s.camps ==>
      FeedbackRow(f.rating, f.comment, s.camps[f.campId].campName, f.participantEmail) in r
    ensures forall row :: row in r ==> (
      exists f :: f in fs && f.registrationId in s.registrations && f.campId in s.camps
        && row == FeedbackRow(f.rating, f.comment, s.camps[f.campId].campName, f.participantEmail))
  {
    if fs == [] then []
    else
      var f := fs[0];
      (if f.registrationId in s.registrations && f.campId in s.camps
       then [FeedbackRow(f.rating, f.comment, s.camps[f.campId].campName, f.participantEmail)] else [])
      + JoinFeedback(s, fs[1..])
  }

  /**
    `GET /feedback`: newest first, taken as reverse insertion order as for
    `GET /payments`; feedback of a cancelled registration or deleted camp is
    hidden.
   */
  function ListFeedback(s: Store): (r: seq<FeedbackRow>)
    ensures |r| <= |s.feedback|
    ensures |r| == |JoinFeedback(s, s.feedback)|
    ensures forall k :: 0 <= k < |r| ==> r[k] == JoinFeedback(s, s.feedback)[|r| - 1 - k]
    ensures forall f :: f in s.feedback && f.registrationId in s.registrations && f.campId in s.camps ==>
      FeedbackRow(f.rating, f.comment, s.camps[f.campId].campName, f.participantEmail) in r
    ensures forall row :: row in r ==> (
      exists f :: f in s.feedback && f.registrationId in s.registrations && f.campId in s.camps
        && row == FeedbackRow(f.rating, f.comment, s.camps[f.campId].campName, f.participantEmail))
  {
    Reverse(JoinFeedback(s, s.feedback))
  }

  /** The sort key `GET /camps` passes to MongoDB. */
  datatype SortKey = NaturalOrder | ParticipantsDescending | FeesAscending | NameAscending

  /** `GET /camps?sort=`: three recognised modes; anything else keeps natural order. */
  function CampsSort(sort: string): (k: SortKey)
    ensures k == ParticipantsDescending <==> sort == "most-registered"
    ensures k == FeesAscending <==> sort == "fees"
    ensures k == NameAscending <==> sort == "name"
    ensures k == NaturalOrder <==> sort !in {"most-registered", "fees", "name"}
  {
    if sort == "most-registered" then ParticipantsDescending
    else if sort == "fees" then FeesAscending
    else if sort == "name" then NameAscending
    else NaturalOrder
  }

  /** The `sort` query text the camps page sends for each order; the natural order is the default `''`. */
  function SortParam(k: SortKey): (sort: string)
    ensures k == NaturalOrder <==> sort == ""
  {
    match k
    case NaturalOrder => ""
    case ParticipantsDescending => "most-registered"
    case FeesAscending => "fees"
    case NameAscending => "name"
  }

  /** Every sort key is selected by its own query text, so no order is unreachable. */
  lemma SortParamSelects(k: SortKey)
    ensures CampsSort(SortParam(k)) == k
  {
  }

  // ------------------------------------------------------------- dispatch

  /** The requests that change the store. */
  datatype Request =
    | PostCampRequest(camp: CampBody)
    | UpdateCampRequest(id: string, update: CampUpdate)
    | DeleteCampRequest(id: string)
    | RegisterRequest(campId: string, participant: ParticipantBody)
    | CancelRequest(id: string)
    | PayRequest(id: string, transactionId: Js)
    | ConfirmRequest(id: string)
    | FeedbackRequest(id: string, rating: Js, comment: Js)
    | PostUserRequest(user: UserBody)
    | PatchRoleRequest(header: Option<string>, id: string, role: Js)

  function Dispatch(s: Store, req: Request, verify: Verifier): Reply {
    match req
    case PostCampRequest(b) => PostCamp(s, b)
    case UpdateCampRequest(id, u) => UpdateCamp(s, id, u)
    case DeleteCampRequest(id) => DeleteCamp(s, id)
    case RegisterRequest(id, b) => Register(s, id, b)
    case CancelRequest(id) => Cancel(s, id)
    case PayRequest(id, t) => Pay(s, id, t)
    case ConfirmRequest(id) => Confirm(s, id)
    case FeedbackRequest(id, rating, comment) => SubmitFeedback(s, id, rating, comment)
    case PostUserRequest(b) => PostUser(s, b)
    case PatchRoleRequest(h, id, role) => PatchUserRole(s, h, verify, id, role)
  }

  /** The store after handling `reqs` in order. */
  function Run(s: Store, reqs: seq<Request>, verify: Verifier): Store
    decreases |reqs|
  {
    if reqs == [] then s else Run(Dispatch(s, reqs[0], verify).store, reqs[1..], verify)
  }
}

=== FILE: store.dfy ===
/**
  The five MongoDB collections the server writes, as one immutable value.

  Camps (the `organizers` collection) and registrations are keyed by their
  `_id`; users, payments and feedback are kept in insertion order, which is
  the order `findOne` scans and the order newest-first listings reverse.
  `nextId` stands in for the driver's identifier generator: every insert
  takes `ObjectId(nextId)` and advances it, so no identifier is ever reused.
 */
module Store {
  import opened Text
  import opened JsValues
  import opened ObjectIds

  /** A camp document as `POST /camps` writes it (`createdAt` is left out). */
  datatype Camp = Camp(
    campName: Js,
    campFees: Js,
    dateTime: Js,
    location: Js,
    image: Js,
    description: Js,
    healthcareProfessionalName: Js,
    createdBy: Js,
    participantCount: int)

  /** A registration document; `transactionId` is absent until the first payment. */
  datatype Registration = Registration(
    campId: ObjectId,
    participantName: Js,
    participantEmail: Js,
    age: Js,
    phoneNumber: Js,
    gender: Js,
    emergencyContact: Js,
    campFees: Js,
    paymentStatus: string,
    confirmationStatus: string,
    transactionId: Option<Js>)

  datatype Payment = Payment(
    registrationId: ObjectId,
    participantEmail: Js,
    campId: ObjectId,
    transactionId: Js,
    amount: int)

  datatype Feedback = Feedback(
    registrationId: ObjectId,
    participantEmail: Js,
    campId: ObjectId,
    rating: Js,
    comment: Js)

  datatype User = User(id: ObjectId, email: Js, name: Js, image: Js, role: Js)

  datatype Store = Store(
    camps: map<ObjectId, Camp>,
    registrations: map<ObjectId, Registration>,
    users: seq<User>,
    payments: seq<Payment>,
    feedback: seq<Feedback>,
    nextId: nat)

  const Unpaid := "unpaid"
  const Paid := "paid"
  const Pending := "Pending"
  const Confirmed := "Confirmed"

  /** The database before any request. */
  function EmptyStore(): Store {
    Store(map[], map[], [], [], [], 0)
  }

  /** The identifier the next insert receives. */
  function FreshId(s: Store): ObjectId {
    ObjectId(s.nextId)
  }

  /** The registrations that reference camp `c`. */
  function RegistrationsOf(regs: map<ObjectId, Registration>, c: ObjectId): set<ObjectId> {
    set r | r in regs && regs[r].campId == c
  }

  /** `findOne({ email })`: the first user, in insertion order, whose email equals `email`. */
  function FindUser(users: seq<User>, email: Js): (r: Option<nat>)
    ensures r.Some? ==> r.value < |users| && users[r.value].email == email
    ensures r.Some? ==> forall k :: 0 <= k < r.value ==> users[k].email != email
    ensures r.None? ==> forall k :: 0 <= k < |users| ==> users[k].email != email
  {
    if users == [] then None
    else if users[0].email == email then Some(0)
    else match FindUser(users[1..], email)
      case None => None
      case Some(k) => Some(k + 1)
  }

  /** Every identifier in use was handed out before `nextId`. */
  ghost predicate IdsIssued(s: Store) {
    && (forall c :: c in s.camps ==> c.value < s.nextId)
    && (forall r :: r in s.registrations ==> r.value < s.nextId)
    && (forall r :: r in s.registrations ==> s.registrations[r].campId.value < s.nextId)
    && (forall k :: 0 <= k < |s.users| ==> s.users[k].id.value < s.nextId)
  }

  /** Each camp's denormalized counter equals the number of registrations that reference it. */
  ghost predicate CountsMatch(s: Store) {
    forall c :: c in s.camps ==> s.camps[c].participantCount == |RegistrationsOf(s.registrations, c)|
  }

  /** A registration's fee snapshot equals its camp's fee while the camp exists. */
  ghost predicate FeesAgree(s: Store) {
    forall r :: r in s.registrations && s.registrations[r].campId in s.camps ==>
      s.registrations[r].campFees == s.camps[s.registrations[r].campId].campFees
  }

  /** No two user documents share an email. */
  ghost predicate UniqueEmails(s: Store) {
    forall i, j :: 0 <= i < j < |s.users| ==> s.users[i].email != s.users[j].email
  }

  ghost predicate Valid(s: Store) {
    IdsIssued(s) && CountsMatch(s) && FeesAgree(s) && UniqueEmails(s)
  }

  lemma EmptyStoreValid()
    ensures Valid(EmptyStore())
  {
  }

  /** Adding a registration under a new key raises its camp's count by one and no other. */
  lemma RegistrationsOfInsert(regs: map<ObjectId, Registration>, r: ObjectId, reg: Registration, c: ObjectId)
    requires r !in regs
    ensures reg.campId == c ==> RegistrationsOf(regs[r := reg], c) == RegistrationsOf(regs, c) + {r}
    ensures reg.campId != c ==> RegistrationsOf(regs[r := reg], c) == RegistrationsOf(regs, c)
    ensures reg.campId == c ==> |RegistrationsOf(regs[r := reg], c)| == |RegistrationsOf(regs, c)| + 1
  {
  }

  /** Removing a registration lowers its own camp's count by one and no other. */
  lemma RegistrationsOfRemove(regs: map<ObjectId, Registration>, r: ObjectId, c: ObjectId)
    requires r in regs
    ensures regs[r].campId == c ==> RegistrationsOf(regs - {r}, c) == RegistrationsOf(regs, c) - {r}
    ensures regs[r].campId != c ==> RegistrationsOf(regs - {r}, c) == RegistrationsOf(regs, c)
    ensures regs[r].campId == c ==> |RegistrationsOf(regs - {r}, c)| == |RegistrationsOf(regs, c)| - 1
  {
  }

  /** Rewriting a registration without moving it to another camp changes no count. */
  lemma RegistrationsOfUpdate(regs: map<ObjectId, Registration>, r: ObjectId, reg: Registration, c: ObjectId)
    requires r in regs && reg.campId == regs[r].campId
    ensures RegistrationsOf(regs[r := reg], c) == RegistrationsOf(regs, c)
  {
  }

  /** Under the invariant every counter is non-negative. */
  lemma CountsNonNegative(s: Store, c: ObjectId)
    requires Valid(s) && c in s.camps
    ensures s.camps[c].participantCount >= 0
  {
  }

  /** With unique emails, `findOne` finds a user exactly when one with that email exists. */
  lemma FindUserUnique(s: Store, email: Js, k: nat)
    requires UniqueEmails(s) && k < |s.users| && s.users[k].email == email
    ensures FindUser(s.users, email) == Some(k)
  {
  }
}

=== FILE: text.dfy ===
/**
  String helpers shared by the server and the client pages: the JavaScript
  white-space class (used by `trim` and by `\s` in regular expressions),
  ASCII case mapping, substring search as `String.prototype.includes`,
  prefix test as `String.prototype.startsWith`, and decimal rendering of
  integers as `Number.prototype.toString` does it.
 */
module Text {

  datatype Option<T> = None | Some(value: T)

  /** `v || ''` for an optional string: the value when present, else the empty string. */
  function OrEmpty(v: Option<string>): (r: string)
    ensures v.Some? ==> r == v.value
    ensures v.None? ==> r == ""
  {
    match v case Some(x) => x case None => ""
  }

  /** The characters JavaScript treats as white space or line terminators. */
  predicate IsSpace(c: char) {
    c == '\t' || c == '\n' || c == '\U{B}' || c == '\U{C}' || c == '\r' || c == ' '
    || c == '\U{A0}' || c == '\U{1680}' || ('\U{2000}' <= c <= '\U{200A}')
    || c == '\U{2028}' || c == '\U{2029}' || c == '\U{202F}' || c == '\U{205F}'
    || c == '\U{3000}' || c == '\U{FEFF}'
  }

  /** The characters `.` in a JavaScript regular expression does not match. */
  predicate IsLineTerminator(c: char) {
    c == '\n' || c == '\r' || c == '\U{2028}' || c == '\U{2029}'
  }

  predicate IsDigit(c: char) { '0' <= c <= '9' }
  predicate IsLowerAscii(c: char) { 'a' <= c <= 'z' }
  predicate IsUpperAscii(c: char) { 'A' <= c <= 'Z' }

  predicate AllDigits(s: string) { forall k :: 0 <= k < |s| ==> IsDigit(s[k]) }

  /** True iff every character of `s` is white space. */
  predicate IsBlank(s: string) { forall k :: 0 <= k < |s| ==> IsSpace(s[k]) }

  /** `needle` sits in `hay` starting at index `i`. */
  ghost predicate OccursAt(hay: string, needle: string, i: nat) {
    i + |needle| <= |hay| && hay[i..i + |needle|] == needle
  }

  /** The same with the space at the end. */
  lemma BlankSnoc(x: string, c: char)
    requires IsSpace(c)
    ensures IsBlank(x + [c]) <==> IsBlank(x)
  {
    if IsBlank(x + [c]) {
      forall k | 0 <= k < |x| ensures IsSpace(x[k]) {
        assert x[k] == (x + [c])[k];
      }
    }
  }

  /**
    The length JavaScript reports for `s`: its count of UTF-16 code units,
    where a character outside the Basic Multilingual Plane is a surrogate pair.
   */
  function Utf16Length(s: string): (n: nat)
    ensures |s| <= n <= 2 * |s|
    ensures n == |s| <==> forall k :: 0 <= k < |s| ==> s[k] as int <= 0xFFFF
  {
    if s == [] then 0
    else (if s[0] as int > 0xFFFF then 2 else 1) + Utf16Length(s[1..])
  }

  /** One character is two code units outside the Basic Multilingual Plane, else one. */
  lemma SingleCharUnits(c: char)
    ensures Utf16Length([c]) == if c as int > 0xFFFF then 2 else 1
  {
    assert [c][1..] == [];
  }

  /** Code units add up over concatenation. */
  lemma {:induction false} Utf16LengthAppend(a: string, b: string)
    ensures Utf16Length(a + b) == Utf16Length(a) + Utf16Length(b)
    decreases |a|
  {
    if a == [] {
      assert a + b == b;
    } else {
      assert (a + b)[0] == a[0] && (a + b)[1..] == a[1..] + b;
      Utf16LengthAppend(a[1..], b);
    }
  }

  /** The number of white-space characters `s` starts with. */
  function LeadingSpaces(s: string): (n: nat)
    ensures n <= |s|
    ensures forall k :: 0 <= k < n ==> IsSpace(s[k])
    ensures n == |s| || !IsSpace(s[n])
    decreases |s|
  {
    if s == [] || !IsSpace(s[0]) then 0
    else
      var m := LeadingSpaces(s[1..]);
      assert forall k :: 1 <= k < m + 1 ==> s[k] == s[1..][k - 1];
      m + 1
  }

  function TrimStart(s: string): (r: string)
    ensures |r| <= |s| && r == s[|s| - |r|..]
    ensures r == [] || !IsSpace(r[0])
    ensures IsBlank(s[..|s| - |r|])
    ensures r == [] <==> IsBlank(s)
  {
    var n := LeadingSpaces(s);
    assert IsBlank(s[..n]) by {
      assert forall k :: 0 <= k < n ==> s[..n][k] == s[k];
    }
    assert n < |s| ==> !IsBlank(s);
    s[n..]
  }

  function TrimEnd(s: string): (r: string)
    ensures |r| <= |s| && r == s[..|r|]
    ensures r == [] || !IsSpace(r[|r| - 1])
    ensures IsBlank(s[|r|..])
    ensures r == [] <==> IsBlank(s)
  {
    if s == [] || !IsSpace(s[|s| - 1]) then s
    else
      var p := s[..|s| - 1];
      var r := TrimEnd(p);
      assert s == p + [s[|s| - 1]];
      BlankSnoc(p, s[|s| - 1]);
      assert s[|r|..] == p[|r|..] + [s[|s| - 1]];
      BlankSnoc(p[|r|..], s[|s| - 1]);
      assert p[..|r|] == s[..|r|];
      r
  }

  /** `String.prototype.trim`: `s` without the white space at either end. */
  function Trim(s: string): (r: string)
    ensures |r| <= |s|
    ensures r == [] || (!IsSpace(r[0]) && !IsSpace(r[|r| - 1]))
    ensures r == [] <==> IsBlank(s)
  {
    var a := TrimStart(s);
    var r := TrimEnd(a);
    assert r == [] <==> a == [] by {
      assert a != [] ==> !IsBlank(a) by {
        if a != [] {
          assert !IsSpace(a[0]);
        }
      }
    }
    assert r != [] ==> r[0] == a[0];
    r
  }

  /** The trimmed text is a window of the input, with only white space cut on either side. */
  lemma TrimIsWindow(s: string)
    ensures exists i: nat :: OccursAt(s, Trim(s), i) && IsBlank(s[..i]) && IsBlank(s[i + |Trim(s)|..])
  {
    var a := TrimStart(s);
    var r := TrimEnd(a);
    var i := |s| - |a|;
    assert s[i..][..|r|] == s[i..i + |r|];
    assert s[i + |r|..] == a[|r|..];
    assert OccursAt(s, r, i) && IsBlank(s[..i]) && IsBlank(s[i + |r|..]);
  }

  function LowerChar(c: char): char {
    if IsUpperAscii(c) then (c as int + 32) as char else c
  }

  function UpperChar(c: char): char {
    if IsLowerAscii(c) then (c as int - 32) as char else c
  }

  /** `String.prototype.toLowerCase`, on the ASCII letters. */
  function Lower(s: string): (r: string)
    ensures |r| == |s|
    ensures forall k :: 0 <= k < |s| ==> r[k] == LowerChar(s[k])
  {
    if s == [] then [] else [LowerChar(s[0])] + Lower(s[1..])
  }

  /** `hay.includes(needle)`. */
  predicate Contains(hay: string, needle: string) {
    |needle| <= |hay| && (hay[..|needle|] == needle || Contains(hay[1..], needle))
  }

  /** `Contains` holds exactly when some window of `hay` equals `needle`. */
  lemma {:induction false} ContainsIff(hay: string, needle: string)
    ensures Contains(hay, needle) <==> exists i: nat :: OccursAt(hay, needle, i)
  {
    if |needle| > |hay| {
    } else if hay[..|needle|] == needle {
      assert OccursAt(hay, needle, 0);
    } else {
      ContainsIff(hay[1..], needle);
      if Contains(hay[1..], needle) {
        var i: nat :| OccursAt(hay[1..], needle, i);
        assert hay[i + 1..i + 1 + |needle|] == hay[1..][i..i + |needle|];
        assert OccursAt(hay, needle, i + 1);
      } else {
        forall i: nat | OccursAt(hay, needle, i) ensures false {
          if i > 0 {
            assert hay[1..][i - 1..i - 1 + |needle|] == hay[i..i + |needle|];
            assert OccursAt(hay[1..], needle, i - 1);
          }
        }
      }
    }
  }

  /** A string contains each of its middle parts. */
  lemma ContainsInfix(a: string, b: string, c: string)
    ensures Contains(a + b + c, b)
  {
    assert (a + b + c)[|a|..|a| + |b|] == b;
    assert OccursAt(a + b + c, b, |a|);
    ContainsIff(a + b + c, b);
  }

  /** Every string contains the empty string. */
  lemma ContainsEmpty(hay: string)
    ensures Contains(hay, "")
  {
  }

  /** Index of the first `c` in `s`. */
  function IndexOf(s: string, c: char): (r: Option<nat>)
    ensures r.Some? ==> r.value < |s| && s[r.value] == c && forall k :: 0 <= k < r.value ==> s[k] != c
    ensures r.None? ==> forall k :: 0 <= k < |s| ==> s[k] != c
  {
    if s == [] then None
    else if s[0] == c then Some(0)
    else match IndexOf(s[1..], c)
      case None => None
      case Some(k) => Some(k + 1)
  }

  /** Index of the last `c` in `s`. */
  function LastIndexOf(s: string, c: char): (r: Option<nat>)
    ensures r.Some? ==> r.value < |s| && s[r.value] == c && forall k :: r.value < k < |s| ==> s[k] != c
    ensures r.None? ==> forall k :: 0 <= k < |s| ==> s[k] != c
  {
    if s == [] then None
    else if s[|s| - 1] == c then Some(|s| - 1)
    else LastIndexOf(s[..|s| - 1], c)
  }

  /** The last `c` is found where it sits when none follows it. */
  lemma LastIndexOfLast(s: string, c: char, i: nat)
    requires i < |s| && s[i] == c
    requires forall k :: i < k < |s| ==> s[k] != c
    ensures LastIndexOf(s, c) == Some(i)
  {
  }

  /** `s.split(c)`: the pieces between occurrences of `c`, always at least one. */
  function Split(s: string, c: char): (r: seq<string>)
    ensures |r| >= 1
    ensures forall k :: 0 <= k < |r| ==> forall m :: 0 <= m < |r[k]| ==> r[k][m] != c
    decreases |s|
  {
    match IndexOf(s, c)
    case None => [s]
    case Some(i) => [s[..i]] + Split(s[i + 1..], c)
  }

  /** A `c` with no `c` before it is the first one. */
  lemma IndexOfFirst(s: string, c: char, i: nat)
    requires i < |s| && s[i] == c
    requires forall k :: 0 <= k < i ==> s[k] != c
    ensures IndexOf(s, c) == Some(i)
  {
  }

  /** With no separator in `x` or `y`, `x + [c] + y` splits into `x` and `y`. */
  lemma SplitOnce(x: string, c: char, y: string)
    requires IndexOf(x, c) == None
    requires forall k :: 0 <= k < |y| ==> y[k] != c
    ensures Split(x + [c] + y, c) == [x, y]
  {
    var s := x + [c] + y;
    assert IndexOf(s, c) == Some(|x|) by {
      forall k | 0 <= k < |x| ensures s[k] != c {
        assert s[k] == x[k];
      }
      IndexOfFirst(s, c, |x|);
    }
    assert s[..|x|] == x && s[|x| + 1..] == y;
    assert IndexOf(y, c) == None;
  }

  /** Appending a separator and a separator-free last piece adds exactly that piece to the split. */
  lemma {:induction false} SplitSnoc(x: string, c: char, y: string)
    requires forall k :: 0 <= k < |y| ==> y[k] != c
    ensures Split(x + [c] + y, c) == Split(x, c) + [y]
    decreases |x|
  {
    match IndexOf(x, c)
    case None =>
      SplitOnce(x, c, y);
    case Some(i) =>
      var s, rest := x + [c] + y, x[i + 1..];
      assert IndexOf(s, c) == Some(i) by {
        forall k | 0 <= k <= i ensures s[k] == x[k] {
        }
        IndexOfFirst(s, c, i);
      }
      calc {
        Split(s, c);
        [s[..i]] + Split(s[i + 1..], c);
        { assert s[..i] == x[..i] && s[i + 1..] == rest + [c] + y; }
        [x[..i]] + Split(rest + [c] + y, c);
        { SplitSnoc(rest, c, y); }
        [x[..i]] + (Split(rest, c) + [y]);
        ([x[..i]] + Split(rest, c)) + [y];
      }
  }

  /** `s.startsWith(prefix)`. */
  predicate StartsWith(s: string, prefix: string) {
    |prefix| <= |s| && s[..|prefix|] == prefix
  }

  function DigitChar(d: nat): char
    requires d < 10
  {
    ('0' as int + d) as char
  }

  /** Decimal digits of a natural number, most significant first, no leading zeros. */
  function NatToDecimal(n: nat): (r: string)
    ensures |r| >= 1 && AllDigits(r)
    ensures n == 0 <==> r == "0"
    ensures r[0] != '0' || n == 0
  {
    if n < 10 then [DigitChar(n)] else NatToDecimal(n / 10) + [DigitChar(n % 10)]
  }

  /** The value a string of decimal digits denotes. */
  function DecimalValue(s: string): nat
    requires AllDigits(s)
  {
    if s == [] then 0 else DecimalValue(s[..|s| - 1]) * 10 + (s[|s| - 1] as int - '0' as int)
  }

  /** Reading back the digits `NatToDecimal` writes gives the number. */
  lemma {:induction false} DecimalRoundTrip(n: nat)
    ensures DecimalValue(NatToDecimal(n)) == n
  {
    if n >= 10 {
      var d := NatToDecimal(n);
      assert d[..|d| - 1] == NatToDecimal(n / 10);
      DecimalRoundTrip(n / 10);
    }
  }

  /** `Number.prototype.toString` for an integer. */
  function IntToString(i: int): (r: string)
    ensures |r| >= 1
    ensures i >= 0 ==> r == NatToDecimal(i)
    ensures i < 0 ==> r[0] == '-' && r[1..] == NatToDecimal(-i)
  {
    if i < 0 then "-" + NatToDecimal(-i) else NatToDecimal(i)
  }
}
